=== FILE: README.md ===
# cprnn core in Dafny

A Dafny model of the logic in `cprnn`, a character-level language-model
project that compares CP-factorised recurrent cells. The model covers these parts:

- **Tokenizer** (`tokenizer.dfy`). `CharacterTokenizer` keeps three views of one vocabulary:
  - a token list;
  - a symbol→index dict;
  - an index→symbol dict.

  It has construction, `add_token`, `char_to_ix`, `ix_to_char` on integers and on nested arrays, and `tokenize`.
- **CP-LSTM cell** (`cp_lstm.dfy`, with matrix helpers in `matrices.dfy`). This is `CPLSTM` with its factor shapes and the `forward` pass:
  - the Hadamard projection `(h @ a) * (x_t @ b)`;
  - the two reshapes and the batched matmul that contract rank block `k` with block `k` of `ct`;
  - the `squeeze`;
  - the four gates (forget, input, candidate, output);
  - the LSTM update and the state-threading loop.

  Matrices are `seq<seq<real>>`. `sigmoid` and `tanh` are uninterpreted. The embedding and decoder are abstract maps.
- **Config values** (`config_tree.dfy`). These are the nested values that YAML configs become: scalars, lists and insertion-ordered dicts. The file also gives Python's `==` on them, including `True == 1 == 1.0` and order-blind dict equality, and `value[key]`.
- **Run control of `train.py`** (`experiment_name.dfy`, `training.dfy`, `sampling.dfy`):
  - the config check;
  - `get_experiment_name`, and the merged config each trial is named by;
  - the `_models` registry lookup;
  - the fresh / resume / skip decision;
  - the best/latest checkpoint rule of `train`, over an abstract checkpoint store;
  - `sample`.
- **Experiment selection for the plot** (`selection.dfy`): `satisfies_conditions`, `get_leaf_value` with `str.split`, and the grouping of accepted experiments into four parallel lists.

`results.dfy` holds the `Option` and `Result` types every module uses. A raised Python exception is a `Failure` carrying a named error.

Where the source leaves something open, the model takes it as a parameter:
- the iteration order of `set(tokens)` is an `order` argument;
- the model's sampling function is a `predict` argument;
- the metrics of each epoch, and whether its `sample` call returns, come from an `Oracle`.

## Model

| member | source | states |
|---|---|---|
| Tokenizer.Init | cprnn/features/tokenizer.py:11-17 | For any enumeration of the distinct input tokens, the tokenizer is consistent: no repeated token, both dicts defined exactly on the registered symbols and on `[0, n)`, and mutually inverse with the list. Its vocabulary size is the number of distinct input tokens. |
| Tokenizer.FromOrder | cprnn/features/tokenizer.py:15-17 | Numbering a repeat-free list by position gives a consistent tokenizer whose token list is that list. |
| Tokenizer.FirstOccurrences | cprnn/features/tokenizer.py:15 | Keeping first occurrences in order lists every distinct token exactly once, which is one order `list(set(tokens))` may produce. |
| Tokenizer.VocabSizeIsTokenCount | cprnn/features/tokenizer.py:19-21 | `vocab_size` (the size of `char_to_ix_dct`) equals the length of the token list and of `ix_to_char_dct`. |
| Tokenizer.AddToken | cprnn/features/tokenizer.py:23-28 | A registered token returns its index and changes nothing. An unseen token gets index `vocab_size` and grows the vocabulary by exactly one; every earlier mapping is kept and the token is appended to the list. The result is always consistent, and the returned index points at the token. |
| Tokenizer.Register | cprnn/features/tokenizer.py:24-27 | Registering an unseen token extends all three views at the same next index and keeps the tokenizer consistent. |
| Tokenizer.AddTokenIdempotent | cprnn/features/tokenizer.py:23-28 | Adding the same token twice equals adding it once. |
| Tokenizer.AddTokenStable | cprnn/features/tokenizer.py:23-28 | After a second `add_token`, the first token's index still encodes to it and decodes back to it. |
| Tokenizer.CharToIx | cprnn/features/tokenizer.py:34-35 | Succeeds exactly for registered symbols, with the position of the symbol in the token list; otherwise a `KeyError` on that symbol. |
| Tokenizer.SymbolRoundTrip | cprnn/features/tokenizer.py:34-46 | `ix_to_char(char_to_ix(c)) == c` for every registered `c`. |
| Tokenizer.IndexRoundTrip | cprnn/features/tokenizer.py:31-46 | For `0 <= i < vocab_size`: `ix_to_char(i)` is `tokens[i]`, and `char_to_ix(tokens[i]) == i`. |
| Tokenizer.IndexOutOfRange | cprnn/features/tokenizer.py:45-46 | An index below 0 or at or above `vocab_size` raises `KeyError`. |
| Tokenizer.IxToChar | cprnn/features/tokenizer.py:37-48 | An int decodes iff it is registered, and otherwise raises `KeyError` on it. An array without elements raises `ValueError`. Any other array decodes iff every element is registered: the result has the same shape and is decoded element by element, and a failure names an unregistered index the array holds. Any other argument raises `ValueError`. |
| Tokenizer.DecodeArray | cprnn/features/tokenizer.py:40-41 | The lookup `f` applied at every element succeeds iff every element is registered. The result is decoded element by element; a failure names an unregistered index the array holds. |
| Tokenizer.Vectorize | cprnn/features/tokenizer.py:42-43 | `np.vectorize(f)` refuses an array without elements with `ValueError`, as it cannot infer an output type. Any other array decodes iff every element is registered, into the same shape, element by element. |
| Tokenizer.IndexToSymbol | cprnn/features/tokenizer.py:45-46 | On a consistent tokenizer `ix_to_char_dct[i]` succeeds iff `0 <= i < vocab_size`, with `tokens[i]`. Otherwise it is `KeyError` on `i`. |
| Tokenizer.PointwiseKeepsShape | cprnn/features/tokenizer.py:39-43 | An element-wise decoding has the shape of its input array. |
| Tokenizer.Tokenize | cprnn/features/tokenizer.py:50-51 | Succeeds iff every symbol is registered, giving one index per symbol in order. Otherwise it fails on the first unregistered symbol. |
| Tokenizer.DistinctCardinality | cprnn/features/tokenizer.py:15 | A repeat-free list has as many distinct elements as entries. |
| Matrices.MatMulEntry | cprnn/models/cp_lstm.py:55 | Entry `(i, j)` of `x @ y` is the sum over `l` of `x[i][l] * y[l][j]`. |
| Matrices.MatMulZeroLeft | cprnn/models/cp_lstm.py:55 | A zero left factor gives a zero product. |
| Matrices.MatMulZeroRight | cprnn/models/cp_lstm.py:55 | A zero right factor gives a zero product. |
| Matrices.FlattenIndex | cprnn/models/cp_lstm.py:58-61 | Row-major flattening puts entry `(i, j)` at offset `i * cols + j`, the index arithmetic of `reshape`. |
| CpLstm.New | cprnn/models/cp_lstm.py:14-31 | The factors have shapes `a`: hidden×4r, `b`: input×4r, `ct`: 4r×hidden and `bias`: 4·hidden. The cell's own parameter count is `4r·(2·hidden + input) + 4·hidden`. |
| CpLstm.Projection | cprnn/models/cp_lstm.py:55 | The Hadamard projection is batch×4r. Its entries are stated by CpLstm.ProjectionEntry. |
| CpLstm.Contract | cprnn/models/cp_lstm.py:56-62 | The reshaped, multiplied and squeezed contraction has shape `(n, 4, hidden)`. Its entries are stated by CpLstm.ContractEntry and CpLstm.ContractMeaning. |
| CpLstm.Advance | cprnn/models/cp_lstm.py:64-68 | The new `h` and `c` are batch×hidden. Their entries are stated by CpLstm.AdvanceEquations. |
| CpLstm.InitialState | cprnn/models/cp_lstm.py:45-49 | Without `init_states` both matrices are batch×hidden zeros. Otherwise `h` is the first matrix of the pair and `c` the second. |
| CpLstm.DecodeAll | cprnn/models/cp_lstm.py:76 | The output has one decoded vector per step and batch row: entry `(t, n)` is `decoder` of hidden vector `n` of step `t`. |
| CpLstm.LeftBlocksEntry | cprnn/models/cp_lstm.py:58 | In `p.reshape(n, 4, 1, r)`, element `(n, k, 0, l)` is entry `k·r + l` of row `n`. |
| CpLstm.RightBlocksEntry | cprnn/models/cp_lstm.py:61 | In `ct.reshape(1, 4, r, d)`, element `(0, k, l, d)` is `ct[k·r + l][d]`. |
| CpLstm.BlockProductEntry | cprnn/models/cp_lstm.py:56-61 | The broadcast matmul pairs rank block `k` of row `n` with block `k` of `ct`. |
| CpLstm.ContractEntry | cprnn/models/cp_lstm.py:56-62 | After `squeeze` (batch and hidden at least 2), entry `(n, k, d)` is that block sum. |
| CpLstm.ProjectionEntry | cprnn/models/cp_lstm.py:55 | Entry `q` of row `n` of the Hadamard projection is `(h@a)[n][q] * (x_t@b)[n][q]`. |
| CpLstm.ContractMeaning | cprnn/models/cp_lstm.py:55-62 | The contraction computes, for gate `k`, unit `d` and batch row `n`, the sum over `j < r` of `(h·a)[n][k·r+j] · (x·b)[n][k·r+j] · ct[k·r+j][d]`. |
| CpLstm.GateEntries | cprnn/models/cp_lstm.py:55-65 | Gate slices 0 to 3 hold the pre-activations of forget, input, candidate and output, in that order. |
| CpLstm.AdvanceEquations | cprnn/models/cp_lstm.py:64-68 | The slices go through sigmoid, sigmoid, tanh and sigmoid. The update is `c = f·c + i·g` and `h = o·tanh(c)`. |
| CpLstm.StepEquations | cprnn/models/cp_lstm.py:51-68 | Each entry of one step follows the LSTM equations, with the gates' pre-activations given by the contraction. |
| CpLstm.Step | cprnn/models/cp_lstm.py:51-68 | Both new matrices are batch×hidden, whatever the rank. |
| CpLstm.Trajectory | cprnn/models/cp_lstm.py:51-69 | The states after the first `t` steps all have the batch×hidden shape of the start. |
| CpLstm.TrajectoryStep | cprnn/models/cp_lstm.py:51-69 | One more step extends the run by the step from its last state. |
| CpLstm.RunSteps | cprnn/models/cp_lstm.py:51-69 | The loop collects exactly one hidden matrix per step, in step order, and ends in the last state of the run. |
| CpLstm.Forward | cprnn/models/cp_lstm.py:38-77 | The output decodes the hidden matrix of every step in order. Without `init_states` the run starts from zeros; otherwise from `(h, c)`. The state returned is `(c_t, h_t)`, memory first. |
| CpLstm.ForwardShapes | cprnn/models/cp_lstm.py:41-52 | An embedded square input and a batch×hidden initial state give every step its shapes. |
| CpLstm.ZeroStateIsFixedPoint | cprnn/models/cp_lstm.py:55-68 | With `tanh(0) = 0`, a zero `(h, c)` steps to a zero `(h, c)` whatever the input and the factors, because the bias is never added. |
| CpLstm.DefaultRunStaysZero | cprnn/models/cp_lstm.py:45-69 | With `tanh(0) = 0` and no `init_states`, every state of the run is zero: the cell as written never leaves its start. |
| CpLstm.ZeroProjectionPre | cprnn/models/cp_lstm.py:55-62 | When `h @ a` or `x_t @ b` vanishes, every pre-activation is zero. |
| CpLstm.ZeroFactorPre | cprnn/models/cp_lstm.py:55-62 | An all-zero factor `a` or `b` makes every gate's pre-activation zero. |
| CpLstm.ZeroFactorStep | cprnn/models/cp_lstm.py:55-68 | With an all-zero `a` or `b`, every step from any state is the update with all pre-activations zero. |
| CpLstm.ZeroGatesUpdate | cprnn/models/cp_lstm.py:64-68 | With zero pre-activations and `tanh(0) = 0`, the memory is scaled by `sigmoid(0)` and `h = sigmoid(0)·tanh(c)`. |
| CpLstm.BiasNeverRead | cprnn/models/cp_lstm.py:30-69 | Two cells that differ only in `bias` produce the same run. |
| CpLstm.BiasedStep | cprnn/models/cp_lstm.py:30-68 | The step with the bias added keeps the batch×hidden shapes. |
| CpLstm.BiasedStepEquations | cprnn/models/cp_lstm.py:30-68 | Each entry of the biased step follows the LSTM equations, with pre-activation plus `bias[k·hidden + d]` for gate `k`. |
| CpLstm.AddBiasEntry | cprnn/models/cp_lstm.py:30 | Adding the bias puts `bias[k·d + u]` on gate `k`, unit `u`. |
| CpLstm.BiasedGateEntries | cprnn/models/cp_lstm.py:30-65 | The four slices of the biased contraction hold the biased pre-activations of the four gates, in gate order. |
| CpLstm.BiasedPreFromZero | cprnn/models/cp_lstm.py:30-47 | From the default zero state, each biased pre-activation is the bias entry of its gate and unit. |
| CpLstm.PreFromZero | cprnn/models/cp_lstm.py:45-62 | From the default zero state, every unbiased pre-activation is zero. |
| CpLstm.BiasedStepFromZero | cprnn/models/cp_lstm.py:30-68 | With the bias, the first step from zeros sets memory entry `(n, d)` to `sigmoid(b_i)·tanh(b_g)`, from the input and candidate biases of unit `d`. |
| CpLstm.MemoryFromZero | cprnn/models/cp_lstm.py:67 | From a zero memory the update is `sigmoid(pi)·tanh(pg)`, whatever the forget gate. |
| CpLstm.BiasMovesMemory | cprnn/models/cp_lstm.py:30-68 | If `sigmoid` is positive, `tanh` vanishes only at 0 and the candidate bias of unit `d` is non-zero, then the biased first step from zeros leaves a non-zero memory at unit `d` in every batch row. |
| ConfigTree.Get | cprnn/visualization/bpc_vs_hidden.py:37 | A dict lookup finds a value iff the key is present, and the value found is stored under that key. |
| ConfigTree.Index | cprnn/visualization/bpc_vs_hidden.py:37 | `v[key]` succeeds iff `v` is a dict holding `key`. Otherwise it is `KeyError` on a dict and `TypeError` on anything else. |
| ConfigTree.Walk | cprnn/visualization/bpc_vs_hidden.py:36-37 | Subscripts by each key in turn, stopping at the first error. Characterised by ConfigTree.WalkAppend, Selection.GetLeafValueSingle and Selection.GetLeafValueDotted. |
| ConfigTree.WalkAppend | cprnn/visualization/bpc_vs_hidden.py:36-37 | Successive subscripts by `k1 + k2` are the subscripts by `k2` continued from the value reached by `k1`; a failure stops the walk. |
| ConfigTree.AtomEqReflexive | cprnn/visualization/bpc_vs_hidden.py:24 | Python `==` on scalars is reflexive: there is no NaN. |
| ConfigTree.EqReflexive | cprnn/visualization/bpc_vs_hidden.py:24 | Python `==` is reflexive on config values. |
| ConfigTree.AtomEqSymmetric | cprnn/visualization/bpc_vs_hidden.py:24 | Python `==` on scalars is symmetric. |
| ConfigTree.AtomEqTransitive | cprnn/visualization/bpc_vs_hidden.py:24 | Python `==` on scalars is transitive, across the numeric tower too (`True == 1 == 1.0`). |
| ConfigTree.AtomEq | cprnn/visualization/bpc_vs_hidden.py:24 | Python `==` on scalars: strings by content, numbers by numeric value, `None` only with itself. It is an equivalence by ConfigTree.AtomEqReflexive, ConfigTree.AtomEqSymmetric and ConfigTree.AtomEqTransitive. |
| ConfigTree.Eq | cprnn/visualization/bpc_vs_hidden.py:21-24 | Python `==` on values: lists element by element, dicts by key set and per-key value, regardless of order. Reflexive by ConfigTree.EqReflexive. |
| Selection.SatisfiesMeaning | cprnn/visualization/bpc_vs_hidden.py:14-30 | An empty `root_a` is satisfied. The filter says yes iff every entry passes; otherwise the first entry that fails or raises decides the outcome. |
| Selection.Satisfies | cprnn/visualization/bpc_vs_hidden.py:14-30 | `satisfies_conditions`. Characterised by Selection.SatisfiesMeaning. |
| Selection.SatisfiesFrom | cprnn/visualization/bpc_vs_hidden.py:16-30 | The loop from one entry on. Characterised by Selection.SatisfiesFromMeaning. |
| Selection.EntryCheck | cprnn/visualization/bpc_vs_hidden.py:17-25 | The loop body for one entry. Characterised by Selection.MissingKeyNeverSatisfies and Selection.NestedIgnoresCatchall. |
| Selection.SatisfiesFromMeaning | cprnn/visualization/bpc_vs_hidden.py:16-30 | From any entry on, the loop's outcome is the outcome of its first non-passing entry, and `True` when there is none. |
| Selection.MissingKeyNeverSatisfies | cprnn/visualization/bpc_vs_hidden.py:18-24 | A key of `root_a` missing from `root_b` never lets the filter say yes. |
| Selection.NestedIgnoresCatchall | cprnn/visualization/bpc_vs_hidden.py:17-19 | A nested dict is checked with the default catch-all `'any'`, whatever catch-all the caller passed. |
| Selection.CatchallOnlyAtTopLevel | cprnn/visualization/bpc_vs_hidden.py:17-25 | A custom catch-all lets a top-level entry pass but not the same entry one dict down. |
| Selection.SelfSatisfies | cprnn/visualization/bpc_vs_hidden.py:14-30 | A config without lists satisfies itself under any catch-all. |
| Selection.ListValuedSelfFails | cprnn/visualization/bpc_vs_hidden.py:20-22 | A list value is read as a set of alternatives, so a config holding a list does not satisfy itself. |
| Selection.SplitJoin | cprnn/visualization/bpc_vs_hidden.py:34 | `'.'.join(s.split('.')) == s`, and no part holds the separator. |
| Selection.SplitAppend | cprnn/visualization/bpc_vs_hidden.py:34 | Splitting `p + '.' + q` gives the parts of `p` followed by the parts of `q`. |
| Selection.SplitPlain | cprnn/visualization/bpc_vs_hidden.py:34 | A string without the separator splits into itself alone. |
| Selection.GetLeafValueSingle | cprnn/visualization/bpc_vs_hidden.py:33-38 | `get_leaf_value(root, "k") == root["k"]` for a key without dots. |
| Selection.GetLeafValueDotted | cprnn/visualization/bpc_vs_hidden.py:33-38 | `get_leaf_value(root, "p.q")` is `get_leaf_value(get_leaf_value(root, "p"), "q")`, and it fails as the head lookup does. `root` is never changed. |
| Selection.GetLeafValue | cprnn/visualization/bpc_vs_hidden.py:33-38 | Characterised by Selection.GetLeafValueSingle and Selection.GetLeafValueDotted. |
| Selection.LeafValues | cprnn/visualization/bpc_vs_hidden.py:76-81 | Succeeds iff every attribute resolves, with one value per attribute, in order, each the `get_leaf_value` of that attribute. A failure carries the error of the first attribute that does not resolve. |
| Selection.GroupName | cprnn/visualization/bpc_vs_hidden.py:75-82 | For models named `2rnn` or `mirnnnew` only the first attribute is read: the name is its value, and it fails iff that lookup does, with its error. For other models every attribute is read: the name is their values in order, it succeeds iff all resolve, and a failure carries the first failing lookup's error. |
| Selection.LaterAttributesIgnored | cprnn/visualization/bpc_vs_hidden.py:77-79 | Because of the `break`, the group name of a `2rnn` or `mirnnnew` model is the one of `group_by[:1]`, so a missing later attribute never raises. |
| Selection.FindGroup | cprnn/visualization/bpc_vs_hidden.py:85 | Finds a group whose name equals the key, or reports that none does. |
| Selection.Add | cprnn/visualization/bpc_vs_hidden.py:85-92 | A new name opens one group at the end, holding one-element lists of the experiment's rank, bpc, hidden size and model name. A known name appends those four values to its own group's lists; every other group is unchanged. |
| Selection.AddKeepsGroups | cprnn/visualization/bpc_vs_hidden.py:85-92 | Recording an accepted experiment keeps the four lists of every group of equal length and the names distinct, and adds exactly one entry in total. |
| Selection.AddNewGroup | cprnn/visualization/bpc_vs_hidden.py:85-86 | The same for an experiment that opens a new group. |
| Selection.AddToGroup | cprnn/visualization/bpc_vs_hidden.py:88-92 | The same for an experiment that joins an existing group. |
| Selection.Accepted | cprnn/visualization/bpc_vs_hidden.py:59 | The filter is asked first; the epoch is read only if it passes. Accepted experiments are the ones Selection.GroupingMeaning places. |
| Selection.Process | cprnn/visualization/bpc_vs_hidden.py:59-92 | One iteration of the loop. Characterised by Selection.ProcessKeepsGroupsOf. |
| Selection.ProcessKeepsGroupsOf | cprnn/visualization/bpc_vs_hidden.py:59-92 | An iteration keeps the groups' meaning, now over one more experiment: distinct hashable names, every accepted experiment in a group of its name, and each group's lists holding exactly its members in order. |
| Selection.GroupFrom | cprnn/visualization/bpc_vs_hidden.py:51-92 | The rest of the loop. Characterised by Selection.GroupFromKeepsGroups and Selection.GroupingMeaning. |
| Selection.GroupFromGroupsOf | cprnn/visualization/bpc_vs_hidden.py:51-92 | The rest of the loop keeps the groups' meaning over every experiment seen so far. |
| Selection.GroupingMeaning | cprnn/visualization/bpc_vs_hidden.py:48-92 | Group names are pairwise unequal. Every accepted experiment is in a group whose name equals its own. Each group's four lists are the rank, bpc, hidden size and model name of exactly the accepted experiments of that name, in directory order. |
| Selection.GroupFromKeepsGroups | cprnn/visualization/bpc_vs_hidden.py:51-92 | Over the rest of the loop, the groups stay balanced and distinctly named, and grow by exactly the number of accepted experiments. |
| Selection.GroupExperiments | cprnn/visualization/bpc_vs_hidden.py:48-92 | The grouping loop agrees with the recursive definition. Its names are distinct and its lists of equal length, and it records each accepted experiment once, in the group of its name. Each group's lists are the values of exactly its accepted experiments, in directory order. Rejected and under-trained experiments (`epoch < 2`) record nothing. |
| ExperimentName.FreePrefix | train.py:73-78 | Finds the shortest free prefix length in range, or establishes that every prefix in range is taken. |
| ExperimentName.Abbreviate | train.py:72-78 | A leaf adds an entry iff some non-empty strict prefix of its key is free. The entry is appended under the shortest free prefix, with the leaf's value; no existing entry is overwritten, and otherwise nothing changes. |
| ExperimentName.NameFrom | train.py:64-80 | The recursion from one dict entry on. Characterised by ExperimentName.NameIsAbbreviateAll. |
| ExperimentName.ExperimentName | train.py:64-80 | `get_experiment_name` with a fresh dict. Characterised by ExperimentName.ExperimentNameProperties and ExperimentName.NestedKeysShareAbbrevs. |
| ExperimentName.NameIsAbbreviateAll | train.py:64-80 | Recursing into nested dicts with the shared dict is the same as abbreviating the flattened leaves in order. |
| ExperimentName.AbbreviateAllAppend | train.py:69-78 | Abbreviating two runs of leaves one after the other is the same as abbreviating them together. |
| ExperimentName.AbbreviateAllProperties | train.py:69-80 | Abbreviating only appends and keeps keys distinct. It adds at most one entry per leaf, and each new key is a non-empty strict prefix of some leaf's key. |
| ExperimentName.ExperimentNameProperties | train.py:64-80 | The name has distinct keys, at most one entry per leaf, and each key is a non-empty strict prefix of a leaf key. |
| ExperimentName.NestedKeysShareAbbrevs | train.py:69-71 | A key in a sub-dict competes for prefixes with the outer keys: `{lr: 1, opt: {lm: 2}}` gives only `{l: 1}`. |
| ExperimentName.ValidateConfig | train.py:88-89 | The run is refused exactly when "tokenizer is `'word'`" differs from "input size is not 0". A missing setting raises the lookup error. |
| ExperimentName.ZeroLikeInputSizes | train.py:88 | An input size given as `0`, `0.0` or `False` counts as no embedding. |
| ExperimentName.Put | train.py:93 | Storing a key makes it map to the value, adds at most one entry, and leaves every other key's lookup unchanged. |
| ExperimentName.PutKeepsOrder | train.py:93 | Storing a key keeps the insertion order: an existing key stays in place with every other key, and a new key is appended last. The experiment name depends on this order. |
| ExperimentName.Merge | train.py:93 | `{**d1, **d2}`. Characterised by ExperimentName.MergeLookup. |
| ExperimentName.MergeLookup | train.py:93 | In `{**d1, **d2}`, a key takes its value from the last entry of `d2` that has it, and otherwise from `d1`. |
| ExperimentName.TrialConfig | train.py:92-94 | The config a trial is named by. Characterised by ExperimentName.TrialConfigHoldsTrial. |
| ExperimentName.TrialConfigHoldsTrial | train.py:92-94 | The config a trial is named by has its `trial` and `tokenizer` entries from the loop, whatever `train` and `model` hold. |
| Training.Lower | train.py:153 | Lower-casing keeps the length and maps `A`-`Z` to `a`-`z` position by position. |
| Training.ModelFor | train.py:28-34 | A model name resolves iff its lower-cased form is one of the five registered names; otherwise `KeyError`. |
| Training.CpLstmIsNotRegistered | train.py:28-34 | A config naming the CP-LSTM cell in any letter case is refused. |
| Training.Decide | train.py:98-116 | Fresh start iff there is no directory or no latest checkpoint. An error iff the latest checkpoint exists without a best one. A skip carries a latest epoch of at least `epochs`. A resume starts one past the latest epoch, which is then at most `epochs`, with the best checkpoint's validation loss. |
| Training.Saved | train.py:210-249 | Every saved record holds the validation metrics in its `train_metrics` field. |
| Training.Checkpoint | train.py:206-249 | An epoch that beats the running best, or any epoch when there is none, writes both slots with itself and becomes the running best. Otherwise the best slot and running best stay. The latest slot is written with the epoch iff it improves, is a multiple of 5 or is the last; an epoch that does none of these changes nothing. No other slot is written. |
| Training.Through | train.py:190-249 | The epochs of a run, one `Checkpoint` after another. Characterised by Training.RunKeepsBest and Training.InterruptedRunResumes. |
| Training.StartIsCoherent | train.py:98-116 | A fresh start and a resume both begin coherent: a running best loss is the best checkpoint's loss, and a latest checkpoint never exists without a best one. A resume begins after the latest epoch. |
| Training.CheckpointKeepsCoherent | train.py:206-249 | Every epoch keeps the directory coherent. |
| Training.InterruptedRunResumes | train.py:98-116 | A run interrupted before any epoch leaves a coherent directory whose latest epoch precedes the interruption. A latest checkpoint there never lacks its best one. Before the last epoch, `main` resumes from the running best loss, no later than the interrupted epoch. |
| Training.RunKeepsBest | train.py:190-249 | After each prefix of the run, the running best bounds every loss seen. Once an epoch has beaten the incoming best, the best slot holds the first minimum and the running best is its loss. Until then both are untouched. |
| Training.Train | train.py:187-294 | It returns the last epoch's validation metrics iff there is an epoch to run and every epoch's `sample` returns. With no epoch to run it raises and writes nothing. Otherwise it raises at the first epoch whose `sample` raises, after that epoch's checkpoints. The directory is the one the epochs' `Checkpoint`s produce in order, up to where the run stops. On success the latest slot holds epoch `epochs`. If some epoch run beats the incoming best, the best slot holds the first such epoch with the lowest validation loss, strictly below the incoming best; otherwise it is untouched. A best slot that existed, or a fresh start, leaves one behind. |
| Training.FirstRaise | train.py:190-274 | The first epoch of the range whose `sample` raises: every earlier epoch samples, and it does not, unless it is one past the range. |
| Training.FirstRaiseAt | train.py:190-274 | An epoch that does not sample, preceded only by epochs that do, is the first raise. |
| Training.RunEnd | train.py:190-274 | A run with an epoch to run trains at least one epoch and at most up to `epochs`. |
| Training.RunSettles | train.py:190-249 | After the epochs of a run: the first minimum in the best slot once an epoch beat the incoming best, the best slot untouched otherwise, and a best slot present whenever one existed or the run started fresh. |
| Training.CheckpointStep | train.py:206-249 | One more epoch keeps what Training.RunKeepsBest states: the running best bounds every loss seen, the best slot holds the first minimum once any epoch has improved, and until then nothing about the best changes. |
| Training.BestSurvives | train.py:206-222 | A fresh run of at least one epoch writes a best checkpoint, and a best checkpoint present before the run remains. |
| Training.RunTrial | train.py:98-182 | A skipped trial leaves the directory untouched. Otherwise an unregistered model name raises `KeyError` before training and writes no checkpoint. A fresh start with `epochs < 1` raises. A completed trial leaves a directory whose decision is a skip at epoch `epochs`, so re-running it does nothing. A trial stopped by a raising `sample` leaves a directory `main` can decide on, resuming no later than one past the stopping epoch. |
| Sampling.Prime | train.py:303-305 | Feeding the prime fails iff one of its symbols is not registered, and otherwise yields a last prediction whenever the prime is non-empty. |
| Sampling.Generate | train.py:307-313 | The continuation is `n + 1` symbols, the first of which decodes the given prediction. |
| Sampling.DecodedReencodes | train.py:311 | Encoding a decoded prediction gives the prediction back. |
| Sampling.ReencodingIsIdentity | train.py:307-313 | Each post-prime call to `predict` is fed exactly the index predicted before it. |
| Sampling.SampleOf | train.py:297-316 | The sample is the prime followed by `max(size, 0) + 1` generated symbols. An empty prime raises, because no prediction exists; so does an unregistered prime symbol. |
| Sampling.ThePrimeNeedsItsSymbols | train.py:274 | The `sample(size=100, prime='The')` of every epoch raises when one of `T`, `h`, `e` is not a token, whatever the model predicts. |
| Sampling.Sample | train.py:297-316 | The two loops compute the reference definition and call `predict` `len(prime) + max(size, 0)` times. |
| Sampling.FeedPrime | train.py:303-305 | The first loop computes `Prime` with one call per prime symbol. |
| Sampling.Continue | train.py:307-313 | The second loop computes `Generate` with one call per extra symbol. |
| Sampling.GenerateStep | train.py:310-313 | The pending continuation is the last symbol followed by the continuation from the next prediction. |

## Left out

- The hyper-parameter search client and study orchestration in `train.py`: an external service.
- Config loading, `yaml.dump`, the summary writer, logging, and checkpoint file I/O. The directory is a map from slot to record, and a record keeps only the epoch and the three metrics (no model, optimizer, RNG state or parameter count).
- `train_epoch`, `evaluate` and `evaluate_qualitative`. These are floating-point torch work: autograd, Adam, clipping, cross-entropy and `exp`/`log`. Each epoch's metrics come from an `Oracle`.
- Device placement and `nn.DataParallel`: an execution strategy, not logic.
- `init_weights`. The random values of `a`, `b`, `ct` and `bias` are a `draw` parameter of `CpLstm.New`, with no bound on them. `init_weights` also re-draws the weights of the embedding and the decoder. A module passed to `__init__` is overwritten in place, and any weight it shares elsewhere with it. `CpLstm.New`'s `embedding` and `decoder` stand for the maps after that re-draw.
- The internals of `nn.Embedding` and `nn.Linear`: they are abstract maps.
- Floating point throughout. Numbers are exact reals, with no NaN or rounding, and nothing about `sigmoid` and `tanh` beyond `tanh(0) = 0`, which is taken as a precondition where it is needed.
- The `__main__` demo of `cp_lstm.py`: a usage script, not part of the cell.
- The trials loop of `main` and the folder-name string. `folder_name` formats values with `str.format`, which is not modelled. One trial is `Training.RunTrial`, and the config it is named by is `ExperimentName.TrialConfig`.
- The directory listing, `torch.load` and matplotlib plotting of the plot script. The loaded experiments are the input sequence of `Selection.GroupExperiments`, in listing order.
- The modules `PTBDataloader`, `load_object`, `AverageMeter` and the other recurrent cells are not part of this model.
- `CpLstm.Forward`: line 42 reads the batch size from dimension 0 of the embedded input while line 52 takes time steps along dimension 0. The model requires the two dimensions to be equal instead of choosing one reading.
- `CpLstm.Forward`: requires `init_states` to be exactly batch×hidden. Torch would also broadcast a one-row or 1-D `h` or `c` at lines 55 and 67.
- `CpLstm.Forward`: `squeeze` drops every size-one axis, which breaks the gate split when the batch or the hidden size is 1. The model requires both to be at least 2.
- `Training.Lower`: lower-cases ASCII letters only, because every registered name is ASCII.
- `Training.Train`: whether each epoch's `sample` call returns is a flag of the `Oracle`, not computed. `Sampling` models `sample` for a character vocabulary only, so the word-vocabulary case is covered by the flag alone.
- `Training.Train`: takes `i % 5` as Dafny's `%`, which agrees with Python's for the positive divisor 5, also on negative epochs.
- `Sampling.Sample`: `predict` is a pure function of the input index and a state. Top-k sampling and its random source are folded into that function.
- `Tokenizer.IxToChar`: `np.int32` and `np.int64` scalars, Python ints and bools are all `IntArg`. Any other numpy integer scalar is `OtherArg`, which raises `ValueError`. The type dispatch itself is not modelled: the caller picks the case.
- `Tokenizer.Vectorize`: numpy's output dtype is not modelled. `np.vectorize` calls `f` once more on the first element to infer it, which cannot change the outcome, and the model's nested arrays may be ragged, which an integer numpy array cannot be.

## Findings

| source | as written | input that shows it | evidently intended | confidence | as-written member | corrected member |
|---|---|---|---|---|---|---|
| cprnn/models/cp_lstm.py:30-68 | `bias` is allocated and initialised, but `forward` never adds it to the gate pre-activations. With no initial state the cell stays at zero forever, whatever its input. | Any input with `init_states=None` and `tanh(0) = 0`: every step's `h` and `c` are zero. | The bias is added per gate, as `bias[k·hidden + d]`, so a non-zero input or candidate bias moves the memory on the first step. | not executed | CpLstm.DefaultRunStaysZero, CpLstm.BiasNeverRead | CpLstm.BiasedStepFromZero, CpLstm.BiasedStepEquations, CpLstm.BiasMovesMemory |

A character vocabulary without one of `T`, `h` and `e` makes the `sample` call after every epoch raise (`Sampling.ThePrimeNeedsItsSymbols`). A word vocabulary without the one-character words `'T'`, `'h'` and `'e'` raises the same way at the lookup of train.py:305, which `Sampling` does not model. Such a run stops after its first epoch's checkpoints on every invocation, and `Training.Train` states this stop.

The start decision does not guarantee that `train` runs an epoch. A fresh start with `epochs` below 1 runs none, and the final `return valid_metrics` then raises. `Training.RunTrial` states this case.

=== FILE: config_tree.dfy ===
/** The nested configuration values that `train.py` and
    `cprnn/visualization/bpc_vs_hidden.py` walk: what YAML/OmegaConf turns
    into Python scalars, lists and insertion-ordered dicts, with Python's
    `==` on them and Python's `value[key]` subscript by a string key. */
module ConfigTree {
  import opened Results

  /** A scalar: `str`, `int`, `float`, `bool` or `None`. Floats are exact
      reals (no NaN). */
  datatype Atom = Str(s: string) | Int(i: int) | Float(r: real) | Bool(b: bool) | NoneAtom

  /** A dict keeps its entries in insertion order, which is the order
      Python iterates them in. */
  datatype Val = Leaf(a: Atom) | List(items: seq<Val>) | Dict(entries: seq<(string, Val)>)

  /** Why `value[key]` raised: `KeyError` on a dict without the key,
      `TypeError` on anything that is not a dict (a list wants an integer,
      a string wants an integer, a scalar is not subscriptable). */
  datatype LookupError = KeyMissing(key: string) | NotSubscriptable(key: string)

  /** The numeric value of a number in Python's numeric tower, in which
      `True == 1 == 1.0`. */
  function Numeric(a: Atom): Option<real> {
    match a
    case Int(i) => Some(i as real)
    case Float(r) => Some(r)
    case Bool(b) => Some(if b then 1.0 else 0.0)
    case _ => None
  }

  /** Python `==` on scalars. */
  predicate AtomEq(x: Atom, y: Atom) {
    match (x, y)
    case (Str(s), Str(t)) => s == t
    case (NoneAtom, NoneAtom) => true
    case _ => Numeric(x).Some? && Numeric(y).Some? && Numeric(x).value == Numeric(y).value
  }

  /** The first value stored under `key`, if any. */
  function Get(entries: seq<(string, Val)>, key: string): (r: Option<Val>)
    ensures r.Some? <==> exists i :: 0 <= i < |entries| && entries[i].0 == key
    ensures r.Some? ==> exists i :: 0 <= i < |entries| && entries[i] == (key, r.value)
  {
    if |entries| == 0 then None
    else if entries[0].0 == key then Some(entries[0].1)
    else
      var r := Get(entries[1..], key);
      assert r.Some? ==> exists i :: 0 <= i < |entries| - 1 && entries[1..][i] == (key, r.value);
      r
  }

  predicate HasKey(entries: seq<(string, Val)>, key: string) {
    exists i :: 0 <= i < |entries| && entries[i].0 == key
  }

  /** Python `==` on values: scalars by `AtomEq`, lists element by element
      in order, dicts by key set and value per key, ignoring order. */
  predicate Eq(x: Val, y: Val)
    decreases x
  {
    match x
    case Leaf(a) => y.Leaf? && AtomEq(a, y.a)
    case List(xs) =>
      && y.List? && |xs| == |y.items|
      && forall i :: 0 <= i < |xs| ==> Eq(xs[i], y.items[i])
    case Dict(es) =>
      && y.Dict?
      && (forall j :: 0 <= j < |y.entries| ==> HasKey(es, y.entries[j].0))
      && forall i :: 0 <= i < |es| ==> Get(y.entries, es[i].0).Some? && Eq(es[i].1, Get(y.entries, es[i].0).value)
  }

  /** Python's `x in xs` on a list. */
  predicate Member(x: Val, xs: seq<Val>) {
    exists i :: 0 <= i < |xs| && Eq(x, xs[i])
  }

  /** A Python string as a value. */
  function StrVal(s: string): Val {
    Leaf(Str(s))
  }

  /** `v[key]` for a string key. */
  function Index(v: Val, key: string): (r: Result<Val, LookupError>)
    ensures r.Success? <==> v.Dict? && HasKey(v.entries, key)
    ensures r.Success? ==> (key, r.value) in v.entries
    ensures r.Failure? ==> r.error == (if v.Dict? then KeyMissing(key) else NotSubscriptable(key))
  {
    if !v.Dict? then Failure(NotSubscriptable(key))
    else
      match Get(v.entries, key)
      case Some(w) => Success(w)
      case None => Failure(KeyMissing(key))
  }

  /** Successive subscripts `v[keys[0]][keys[1]]...`. */
  function Walk(v: Val, keys: seq<string>): Result<Val, LookupError>
    decreases |keys|
  {
    if |keys| == 0 then Success(v)
    else
      var w :- Index(v, keys[0]);
      Walk(w, keys[1..])
  }

  /** Continue a walk from the outcome of an earlier one. */
  function WalkOn(r: Result<Val, LookupError>, keys: seq<string>): Result<Val, LookupError> {
    match r
    case Success(v) => Walk(v, keys)
    case Failure(e) => Failure(e)
  }

  lemma {:induction false} WalkAppend(v: Val, k1: seq<string>, k2: seq<string>)
    ensures Walk(v, k1 + k2) == WalkOn(Walk(v, k1), k2)
    decreases |k1|
  {
    if |k1| > 0 {
      assert (k1 + k2)[0] == k1[0] && (k1 + k2)[1..] == k1[1..] + k2;
      match Index(v, k1[0])
      case Success(w) =>
        WalkAppend(w, k1[1..], k2);
        assert Walk(v, k1) == Walk(w, k1[1..]);
        assert Walk(v, k1 + k2) == Walk(w, k1[1..] + k2);
      case Failure(e) =>
        assert Walk(v, k1) == Failure(e);
        assert Walk(v, k1 + k2) == Failure(e);
    } else {
      assert k1 + k2 == k2;
    }
  }

  /** No dict anywhere in `v` holds the same key twice, as in every Python dict. */
  predicate UniqueKeys(v: Val)
    decreases v
  {
    match v
    case Leaf(_) => true
    case List(xs) => forall i :: 0 <= i < |xs| ==> UniqueKeys(xs[i])
    case Dict(es) =>
      && (forall i, j :: 0 <= i < j < |es| ==> es[i].0 != es[j].0)
      && forall i :: 0 <= i < |es| ==> UniqueKeys(es[i].1)
  }

  /** With unique keys, the value found under entry `i`'s key is entry `i`'s value. */
  lemma GetUnique(es: seq<(string, Val)>, i: nat)
    requires i < |es|
    requires forall p, q :: 0 <= p < q < |es| ==> es[p].0 != es[q].0
    ensures Get(es, es[i].0) == Some(es[i].1)
  {
    var r := Get(es, es[i].0);
    var j :| 0 <= j < |es| && es[j] == (es[i].0, r.value);
  }

  lemma AtomEqReflexive(a: Atom)
    ensures AtomEq(a, a)
  {
  }

  lemma AtomEqSymmetric(a: Atom, b: Atom)
    ensures AtomEq(a, b) <==> AtomEq(b, a)
  {
  }

  /** Python `==` is reflexive on every value whose dicts have unique keys. */
  lemma {:induction false} EqReflexive(v: Val)
    requires UniqueKeys(v)
    ensures Eq(v, v)
    decreases v
  {
    match v
    case Leaf(a) => AtomEqReflexive(a);
    case List(xs) =>
      forall i | 0 <= i < |xs| ensures Eq(xs[i], xs[i]) {
        EqReflexive(xs[i]);
      }
    case Dict(es) =>
      forall i | 0 <= i < |es|
        ensures Get(es, es[i].0).Some? && Eq(es[i].1, Get(es, es[i].0).value)
      {
        GetUnique(es, i);
        EqReflexive(es[i].1);
      }
  }

  /** Python `==` on scalars is transitive: strings by content, numbers by
      numeric value, `None` only with itself. */
  lemma AtomEqTransitive(a: Atom, b: Atom, c: Atom)
    requires AtomEq(a, b) && AtomEq(b, c)
    ensures AtomEq(a, c)
  {
  }
}

=== FILE: cp_lstm.dfy ===
/** The CP-factorised LSTM cell of `cprnn/models/cp_lstm.py`.

    The dense gate transform of an LSTM is replaced by three factors: `a`
    (hidden x 4r), `b` (input x 4r) and `ct` (4r x hidden). One step forms
    the Hadamard product `(h @ a) * (x_t @ b)`, reshapes it and `ct` into four
    rank blocks, contracts block `k` of the one with block `k` of the other
    to get the pre-activation of gate `k`, and applies the usual LSTM update
    with the gates in the fixed order forget, input, candidate, output.

    `sigmoid` and `tanh` are left uninterpreted: they are the fields of an
    `Activations` value, and the only fact ever used about them is
    `tanh(0) = 0`, as a precondition of the lemmas that need it. */
module CpLstm {
  import opened Results
  import opened Matrices

  datatype Activations = Activations(sigmoid: real -> real, tanh: real -> real)

  datatype Gate = Forget | Input | Candidate | Output

  /** The number of gates, the `4` of every reshape. */
  const GateCount: nat := 4

  /** The slice of the gate tensor that holds each gate. */
  function GateIndex(g: Gate): nat {
    match g
    case Forget => 0
    case Input => 1
    case Candidate => 2
    case Output => 3
  }

  /** The list `funcs`, indexed by gate slice: tanh for the candidate,
      sigmoid for the three others. */
  function Funcs(act: Activations): seq<real -> real> {
    [act.sigmoid, act.sigmoid, act.tanh, act.sigmoid]
  }

  /** The module's parameters and sizes. `embedding` and `decoder` stand for
      the `nn.Embedding` and `nn.Linear` layers (or the ones passed in),
      treated as opaque maps. */
  datatype CpLstm = CpLstm(
    inputSize: nat,
    hiddenSize: nat,
    vocabSize: nat,
    rank: nat,
    embedding: int -> seq<real>,
    decoder: seq<real> -> seq<real>,
    a: Matrix,
    b: Matrix,
    ct: Matrix,
    bias: seq<real>)

  /** The factor shapes fixed by the constructor. */
  predicate WellShaped(m: CpLstm) {
    && IsMatrix(m.a, m.hiddenSize, GateCount * m.rank)
    && IsMatrix(m.b, m.inputSize, GateCount * m.rank)
    && IsMatrix(m.ct, GateCount * m.rank, m.hiddenSize)
    && |m.bias| == GateCount * m.hiddenSize
  }

  /** The number of entries of the cell's own parameters `a`, `b`, `ct` and `bias`. */
  function CellParamCount(m: CpLstm): nat {
    Numel(m.a) + Numel(m.b) + Numel(m.ct) + |m.bias|
  }

  /** `__init__`. `init_weights` re-draws every parameter of the module at
      random; for the cell's own four the draw is the parameter `draw`,
      giving the value of entry `(row, col)` of parameter number `p` (0: `a`,
      1: `b`, 2: `ct`, 3: `bias`). `embedding` and `decoder` are the maps
      after `init_weights` has re-drawn their weights too. */
  function New(inputSize: nat, hiddenSize: nat, vocabSize: nat, rank: nat,
               embedding: int -> seq<real>, decoder: seq<real> -> seq<real>,
               draw: (nat, nat, nat) -> real): (m: CpLstm)
    ensures WellShaped(m)
    ensures m.inputSize == inputSize && m.hiddenSize == hiddenSize && m.vocabSize == vocabSize && m.rank == rank
    ensures CellParamCount(m) == 4 * rank * (2 * hiddenSize + inputSize) + 4 * hiddenSize
  {
    var r4 := GateCount * rank;
    var m := CpLstm(inputSize, hiddenSize, vocabSize, rank, embedding, decoder,
                    seq(hiddenSize, i requires 0 <= i => seq(r4, j requires 0 <= j => draw(0, i, j))),
                    seq(inputSize, i requires 0 <= i => seq(r4, j requires 0 <= j => draw(1, i, j))),
                    seq(r4, i requires 0 <= i => seq(hiddenSize, j requires 0 <= j => draw(2, i, j))),
                    seq(GateCount * hiddenSize, i requires 0 <= i => draw(3, 0, i)));
    NumelOfMatrix(m.a, hiddenSize, r4);
    NumelOfMatrix(m.b, inputSize, r4);
    NumelOfMatrix(m.ct, r4, hiddenSize);
    ParamCountArithmetic(inputSize, hiddenSize, rank);
    m
  }

  lemma ParamCountArithmetic(i: nat, h: nat, r: nat)
    ensures h * (GateCount * r) + i * (GateCount * r) + (GateCount * r) * h == 4 * r * (2 * h + i)
  {
    calc {
      h * (GateCount * r) + i * (GateCount * r) + (GateCount * r) * h;
      4 * (h * r) + 4 * (i * r) + 4 * (r * h);
      4 * r * (2 * h + i);
    }
  }

  /** The shapes one step needs: `h`, `c` and `x_t` share a batch of at
      least two rows (see `Squeeze`), and the hidden size is at least two. */
  predicate StepShapes(m: CpLstm, xt: Matrix, h: Matrix, c: Matrix) {
    && WellShaped(m)
    && |h| >= 2
    && m.hiddenSize >= 2
    && IsMatrix(h, |h|, m.hiddenSize)
    && IsMatrix(c, |h|, m.hiddenSize)
    && IsMatrix(xt, |h|, m.inputSize)
  }

  /** `torch.multiply(h_t @ self.a, x_t @ self.b)`: batch x 4r. */
  function Projection(m: CpLstm, h: Matrix, xt: Matrix): (p: Matrix)
    requires StepShapes(m, xt, h, h)
    ensures IsMatrix(p, |h|, GateCount * m.rank)
  {
    Hadamard(MatMul(h, m.a, m.hiddenSize, GateCount * m.rank), MatMul(xt, m.b, m.inputSize, GateCount * m.rank))
  }

  /** `.squeeze()` of a tensor of shape `(n, 4, 1, d)`. Torch drops every
      axis of size one; with `n` and `d` both different from one that is
      only the third axis. */
  function Squeeze(t: seq<seq<Matrix>>, d: nat): (s: seq<Matrix>)
    requires |t| != 1 && d != 1
    requires forall i :: 0 <= i < |t| ==> |t[i]| == GateCount
    requires forall i, k :: 0 <= i < |t| && 0 <= k < GateCount ==> IsMatrix(t[i][k], 1, d)
    ensures |s| == |t| && forall i :: 0 <= i < |t| ==> IsMatrix(s[i], GateCount, d)
  {
    seq(|t|, i requires 0 <= i < |t| =>
      seq(GateCount, k requires 0 <= k < GateCount && IsMatrix(t[i][k], 1, d) => t[i][k][0]))
  }

  /** `p.reshape(n, 4, 1, r)` for a batch x 4r matrix `p`. */
  function LeftBlocks(p: Matrix, r: nat): (g: Tensor4)
    requires IsMatrix(p, |p|, GateCount * r)
    ensures |g| == |p| && forall i :: 0 <= i < |p| ==> |g[i]| == GateCount
    ensures forall i, k :: 0 <= i < |p| && 0 <= k < GateCount ==> IsMatrix(g[i][k], 1, r)
  {
    NumelOfMatrix(p, |p|, GateCount * r);
    assert |p| * (GateCount * r) == |p| * GateCount * 1 * r;
    Reshape4(Flatten(p), |p|, GateCount, 1, r)
  }

  /** `ct.reshape(1, 4, r, d)` for a 4r x d matrix `ct`. */
  function RightBlocks(ct: Matrix, r: nat, d: nat): (c: Tensor4)
    requires IsMatrix(ct, GateCount * r, d)
    ensures |c| == 1 && |c[0]| == GateCount
    ensures forall k :: 0 <= k < GateCount ==> IsMatrix(c[0][k], r, d)
  {
    NumelOfMatrix(ct, GateCount * r, d);
    assert GateCount * r * d == 1 * GateCount * r * d;
    Reshape4(Flatten(ct), 1, GateCount, r, d)
  }

  /** The batched product of the two reshapes, the size-one leading axis of
      the right operand broadcast over the batch: shape `(n, 4, 1, d)`. */
  function BlockProduct(p: Matrix, ct: Matrix, r: nat, d: nat): (t: seq<seq<Matrix>>)
    requires IsMatrix(p, |p|, GateCount * r)
    requires IsMatrix(ct, GateCount * r, d)
    ensures |t| == |p| && forall i :: 0 <= i < |p| ==> |t[i]| == GateCount
    ensures forall i, k :: 0 <= i < |p| && 0 <= k < GateCount ==> IsMatrix(t[i][k], 1, d)
  {
    var g4, c4 := LeftBlocks(p, r), RightBlocks(ct, r, d);
    seq(|p|, i requires 0 <= i < |p| =>
      seq(GateCount, k requires 0 <= k < GateCount => MatMul(g4[i][k], c4[0][k], r, d)))
  }

  /** Lines 56-62: `p.reshape(n, 4, 1, r) @ ct.reshape(1, 4, r, d)`, then
      squeezed to `(n, 4, d)`. */
  function Contract(m: CpLstm, p: Matrix): (gates: seq<Matrix>)
    requires WellShaped(m) && |p| >= 2 && m.hiddenSize >= 2
    requires IsMatrix(p, |p|, GateCount * m.rank)
    ensures |gates| == |p| && forall i :: 0 <= i < |p| ==> IsMatrix(gates[i], GateCount, m.hiddenSize)
  {
    Squeeze(BlockProduct(p, m.ct, m.rank, m.hiddenSize), m.hiddenSize)
  }

  /** The terms of the intended contraction for gate slice `k`, batch row
      `n`, unit `d`: `(h@a)[n][k*r+j] * (x@b)[n][k*r+j] * ct[k*r+j][d]` for
      each `j < r`. */
  function PreTerms(m: CpLstm, h: Matrix, xt: Matrix, k: nat, n: nat, d: nat): (s: seq<real>)
    requires StepShapes(m, xt, h, h)
    requires k < GateCount && n < |h| && d < m.hiddenSize
    ensures |s| == m.rank
  {
    var r := m.rank;
    var ha := MatMul(h, m.a, m.hiddenSize, GateCount * r);
    var xb := MatMul(xt, m.b, m.inputSize, GateCount * r);
    seq(r, j requires 0 <= j < r => MulAddBound(k, j, GateCount, r); ha[n][k * r + j] * xb[n][k * r + j] * m.ct[k * r + j][d])
  }

  /** The intended meaning of the contraction, stated without any reshape:
      the pre-activation of gate slice `k` is the sum of its rank-`r` terms. */
  function PreActivation(m: CpLstm, h: Matrix, xt: Matrix, k: nat, n: nat, d: nat): real
    requires StepShapes(m, xt, h, h)
    requires k < GateCount && n < |h| && d < m.hiddenSize
  {
    Sum(PreTerms(m, h, xt, k, n, d))
  }

  /** Entry `(n, k, 0, l)` of the left reshape is entry `k*r + l` of row `n`. */
  lemma LeftBlocksEntry(p: Matrix, r: nat, n: nat, k: nat, l: nat)
    requires IsMatrix(p, |p|, GateCount * r)
    requires n < |p| && k < GateCount && l < r
    ensures k * r + l < GateCount * r
    ensures LeftBlocks(p, r)[n][k][0][l] == p[n][k * r + l]
  {
    NumelOfMatrix(p, |p|, GateCount * r);
    MulAddBound(k, l, GateCount, r);
    assert Offset4(GateCount, 1, r, n, k, 0, l) == n * (GateCount * r) + (k * r + l);
    FlattenIndex(p, |p|, GateCount * r, n, k * r + l);
  }

  /** Entry `(0, k, l, d)` of the right reshape is entry `(k*r + l, d)` of `ct`. */
  lemma RightBlocksEntry(ct: Matrix, r: nat, D: nat, k: nat, l: nat, d: nat)
    requires IsMatrix(ct, GateCount * r, D)
    requires k < GateCount && l < r && d < D
    ensures k * r + l < GateCount * r
    ensures RightBlocks(ct, r, D)[0][k][l][d] == ct[k * r + l][d]
  {
    NumelOfMatrix(ct, GateCount * r, D);
    MulAddBound(k, l, GateCount, r);
    assert Offset4(GateCount, r, D, 0, k, l, d) == (k * r + l) * D + d;
    FlattenIndex(ct, GateCount * r, D, k * r + l, d);
  }

  /** The sum contracted for gate slice `k`, batch row `n` and unit `d`:
      rank block `k` of row `n` of `p` against row block `k` of `ct`. */
  function BlockSum(p: Matrix, ct: Matrix, r: nat, D: nat, k: nat, n: nat, d: nat): real
    requires n < |p| && |p[n]| == GateCount * r
    requires IsMatrix(ct, GateCount * r, D)
    requires k < GateCount && d < D
  {
    Sum(BlockTerms(p, ct, r, D, k, n, d))
  }

  function BlockTerms(p: Matrix, ct: Matrix, r: nat, D: nat, k: nat, n: nat, d: nat): (s: seq<real>)
    requires n < |p| && |p[n]| == GateCount * r
    requires IsMatrix(ct, GateCount * r, D)
    requires k < GateCount && d < D
    ensures |s| == r
  {
    seq(r, l requires 0 <= l < r => MulAddBound(k, l, GateCount, r); p[n][k * r + l] * ct[k * r + l][d])
  }

  /** Entry `(n, k, 0, d)` of the batched product is the block sum. */
  lemma BlockProductEntry(p: Matrix, ct: Matrix, r: nat, D: nat, k: nat, n: nat, d: nat)
    requires IsMatrix(p, |p|, GateCount * r)
    requires IsMatrix(ct, GateCount * r, D)
    requires k < GateCount && n < |p| && d < D
    ensures BlockProduct(p, ct, r, D)[n][k][0][d] == BlockSum(p, ct, r, D, k, n, d)
  {
    var g4, c4 := LeftBlocks(p, r), RightBlocks(ct, r, D);
    var terms := BlockTerms(p, ct, r, D, k, n, d);
    forall l | 0 <= l < r
      ensures terms[l] == g4[n][k][0][l] * c4[0][k][l][d]
    {
      LeftBlocksEntry(p, r, n, k, l);
      RightBlocksEntry(ct, r, D, k, l, d);
    }
    MatMulEntry(g4[n][k], c4[0][k], r, D, 0, d, terms);
  }

  /** Entry `(n, k, d)` of the contraction is the block sum: the two
      reshapes line up rank block `k` of `p` with row block `k` of `ct`. */
  lemma ContractEntry(m: CpLstm, p: Matrix, k: nat, n: nat, d: nat)
    requires WellShaped(m) && |p| >= 2 && m.hiddenSize >= 2
    requires IsMatrix(p, |p|, GateCount * m.rank)
    requires k < GateCount && n < |p| && d < m.hiddenSize
    ensures Contract(m, p)[n][k][d] == BlockSum(p, m.ct, m.rank, m.hiddenSize, k, n, d)
  {
    BlockProductEntry(p, m.ct, m.rank, m.hiddenSize, k, n, d);
  }

  /** Entry `q` of row `n` of the Hadamard product is `(h@a)[n][q] * (x@b)[n][q]`. */
  lemma ProjectionEntry(m: CpLstm, h: Matrix, xt: Matrix, n: nat, q: nat)
    requires StepShapes(m, xt, h, h)
    requires n < |h| && q < GateCount * m.rank
    ensures Projection(m, h, xt)[n][q]
              == MatMul(h, m.a, m.hiddenSize, GateCount * m.rank)[n][q] * MatMul(xt, m.b, m.inputSize, GateCount * m.rank)[n][q]
  {
  }

  /** The contraction computes exactly `PreActivation`. */
  lemma ContractMeaning(m: CpLstm, h: Matrix, xt: Matrix, k: nat, n: nat, d: nat)
    requires StepShapes(m, xt, h, h)
    requires k < GateCount && n < |h| && d < m.hiddenSize
    ensures Contract(m, Projection(m, h, xt))[n][k][d] == PreActivation(m, h, xt, k, n, d)
  {
    var p := Projection(m, h, xt);
    var r := m.rank;
    ContractEntry(m, p, k, n, d);
    var lhs := BlockTerms(p, m.ct, r, m.hiddenSize, k, n, d);
    var rhs := PreTerms(m, h, xt, k, n, d);
    forall l | 0 <= l < r
      ensures lhs[l] == rhs[l]
    {
      TermAgrees(m, h, xt, k, n, d, l);
    }
    assert lhs == rhs;
  }

  lemma TermAgrees(m: CpLstm, h: Matrix, xt: Matrix, k: nat, n: nat, d: nat, l: nat)
    requires StepShapes(m, xt, h, h)
    requires k < GateCount && n < |h| && d < m.hiddenSize && l < m.rank
    ensures BlockTerms(Projection(m, h, xt), m.ct, m.rank, m.hiddenSize, k, n, d)[l] == PreTerms(m, h, xt, k, n, d)[l]
  {
    MulAddBound(k, l, GateCount, m.rank);
    ProjectionEntry(m, h, xt, n, k * m.rank + l);
  }

  datatype LstmState = LstmState(h: Matrix, c: Matrix)

  /** `gates[:, k, :]`. */
  function GateSlice(gates: seq<Matrix>, k: nat, d: nat): (s: Matrix)
    requires k < GateCount
    requires forall i :: 0 <= i < |gates| ==> IsMatrix(gates[i], GateCount, d)
    ensures IsMatrix(s, |gates|, d)
  {
    seq(|gates|, i requires 0 <= i < |gates| && IsMatrix(gates[i], GateCount, d) => gates[i][k])
  }

  /** Lines 64-68: the activations of the four gate slices and the update
      `c_t = f*c + i*g`, `h_t = o*tanh(c_t)`, from gate pre-activations. */
  function Advance(act: Activations, gates: seq<Matrix>, c: Matrix, d: nat): (s: LstmState)
    requires IsMatrix(c, |gates|, d)
    requires forall i :: 0 <= i < |gates| ==> IsMatrix(gates[i], GateCount, d)
    ensures IsMatrix(s.h, |gates|, d) && IsMatrix(s.c, |gates|, d)
  {
    var funcs := Funcs(act);
    var f := Apply(funcs[0], GateSlice(gates, 0, d));
    var i := Apply(funcs[1], GateSlice(gates, 1, d));
    var g := Apply(funcs[2], GateSlice(gates, 2, d));
    var o := Apply(funcs[3], GateSlice(gates, 3, d));
    var c' := Add(Hadamard(f, c), Hadamard(i, g));
    var h' := Hadamard(o, Apply(act.tanh, c'));
    LstmState(h', c')
  }

  /** The LSTM memory update for one unit, from the pre-activations of the
      forget, input and candidate gates and the previous memory `c`. */
  function MemoryUpdate(act: Activations, pf: real, pi: real, pg: real, c: real): real {
    act.sigmoid(pf) * c + act.sigmoid(pi) * act.tanh(pg)
  }

  /** The LSTM hidden update for one unit, from the output pre-activation
      and the new memory `c`. */
  function HiddenUpdate(act: Activations, po: real, c: real): real {
    act.sigmoid(po) * act.tanh(c)
  }

  /** The update in terms of the named gates: when slices 0 to 3 of row `n`,
      unit `u`, hold the pre-activations `pf`, `pi`, `pg`, `po` of the forget,
      input, candidate and output gates, the memory becomes
      `sigmoid(pf)*c + sigmoid(pi)*tanh(pg)` and the hidden value
      `sigmoid(po)*tanh(c')`. */
  lemma AdvanceEquations(act: Activations, gates: seq<Matrix>, c: Matrix, d: nat, n: nat, u: nat,
                         pf: real, pi: real, pg: real, po: real)
    requires IsMatrix(c, |gates|, d)
    requires forall i :: 0 <= i < |gates| ==> IsMatrix(gates[i], GateCount, d)
    requires n < |gates| && u < d
    requires IsMatrix(gates[n], GateCount, d)
    requires gates[n][0][u] == pf && gates[n][1][u] == pi && gates[n][2][u] == pg && gates[n][3][u] == po
    ensures Advance(act, gates, c, d).c[n][u] == MemoryUpdate(act, pf, pi, pg, c[n][u])
    ensures Advance(act, gates, c, d).h[n][u] == HiddenUpdate(act, po, Advance(act, gates, c, d).c[n][u])
  {
  }

  /** One iteration of the loop of `forward` (lines 52-68), giving the new
      `(h_t, c_t)`; its shape is batch x hidden whatever the rank. */
  function Step(m: CpLstm, act: Activations, xt: Matrix, s: LstmState): (s': LstmState)
    requires StepShapes(m, xt, s.h, s.c)
    ensures IsMatrix(s'.h, |s.h|, m.hiddenSize) && IsMatrix(s'.c, |s.h|, m.hiddenSize)
  {
    Advance(act, Contract(m, Projection(m, s.h, xt)), s.c, m.hiddenSize)
  }

  /** The pre-activation of gate `g`. */
  function Pre(m: CpLstm, g: Gate, h: Matrix, xt: Matrix, n: nat, d: nat): real
    requires StepShapes(m, xt, h, h)
    requires n < |h| && d < m.hiddenSize
  {
    PreActivation(m, h, xt, GateIndex(g), n, d)
  }

  /** The LSTM equations, entry by entry, with the gates in the order
      forget, input, candidate, output and the pre-activations given by the
      rank-`r` contraction. */
  lemma StepEquations(m: CpLstm, act: Activations, xt: Matrix, s: LstmState, n: nat, d: nat)
    requires StepShapes(m, xt, s.h, s.c)
    requires n < |s.h| && d < m.hiddenSize
    ensures Step(m, act, xt, s).c[n][d]
              == MemoryUpdate(act, Pre(m, Forget, s.h, xt, n, d), Pre(m, Input, s.h, xt, n, d), Pre(m, Candidate, s.h, xt, n, d), s.c[n][d])
    ensures Step(m, act, xt, s).h[n][d]
              == HiddenUpdate(act, Pre(m, Output, s.h, xt, n, d), Step(m, act, xt, s).c[n][d])
  {
    var gates := Contract(m, Projection(m, s.h, xt));
    GateEntries(m, s.h, xt, n, d);
    AdvanceEquations(act, gates, s.c, m.hiddenSize, n, d,
                     Pre(m, Forget, s.h, xt, n, d), Pre(m, Input, s.h, xt, n, d),
                     Pre(m, Candidate, s.h, xt, n, d), Pre(m, Output, s.h, xt, n, d));
  }

  /** The four gate slices of the contraction hold the intended
      pre-activations of the forget, input, candidate and output gates. */
  lemma GateEntries(m: CpLstm, h: Matrix, xt: Matrix, n: nat, d: nat)
    requires StepShapes(m, xt, h, h)
    requires n < |h| && d < m.hiddenSize
    ensures var gates := Contract(m, Projection(m, h, xt));
            && gates[n][0][d] == Pre(m, Forget, h, xt, n, d)
            && gates[n][1][d] == Pre(m, Input, h, xt, n, d)
            && gates[n][2][d] == Pre(m, Candidate, h, xt, n, d)
            && gates[n][3][d] == Pre(m, Output, h, xt, n, d)
  {
    ContractMeaning(m, h, xt, 0, n, d);
    ContractMeaning(m, h, xt, 1, n, d);
    ContractMeaning(m, h, xt, 2, n, d);
    ContractMeaning(m, h, xt, 3, n, d);
  }

  /** Every input step is a batch x input matrix with the batch of `s0`. */
  predicate RunShapes(m: CpLstm, x: seq<Matrix>, s0: LstmState) {
    && StepShapes(m, if |x| == 0 then Zeros(|s0.h|, m.inputSize) else x[0], s0.h, s0.c)
    && forall k :: 0 <= k < |x| ==> IsMatrix(x[k], |s0.h|, m.inputSize)
  }

  /** The state before step `t` of a trajectory started at `s0`. */
  function Current(states: seq<LstmState>, s0: LstmState): LstmState {
    if |states| == 0 then s0 else states[|states| - 1]
  }

  /** Both matrices of `s` are batch x hidden. */
  predicate Shaped(s: LstmState, batch: nat, hidden: nat) {
    IsMatrix(s.h, batch, hidden) && IsMatrix(s.c, batch, hidden)
  }

  /** A state reached from `s0` can take step `t`. */
  lemma CurrentShapes(m: CpLstm, x: seq<Matrix>, s0: LstmState, prev: seq<LstmState>)
    requires RunShapes(m, x, s0) && |prev| < |x|
    requires forall k :: 0 <= k < |prev| ==> Shaped(prev[k], |s0.h|, m.hiddenSize)
    ensures StepShapes(m, x[|prev|], Current(prev, s0).h, Current(prev, s0).c)
  {
    if |prev| > 0 {
      assert Shaped(prev[|prev| - 1], |s0.h|, m.hiddenSize);
    }
  }

  /** The states after each of the first `t` steps from `s0`, in order. */
  function Trajectory(m: CpLstm, act: Activations, x: seq<Matrix>, s0: LstmState, t: nat): (states: seq<LstmState>)
    requires RunShapes(m, x, s0) && t <= |x|
    ensures |states| == t
    ensures forall k :: 0 <= k < t ==> Shaped(states[k], |s0.h|, m.hiddenSize)
    decreases t
  {
    if t == 0 then []
    else
      var prev := Trajectory(m, act, x, s0, t - 1);
      CurrentShapes(m, x, s0, prev);
      prev + [Step(m, act, x[t - 1], Current(prev, s0))]
  }

  /** One more step extends the trajectory by the step from its last state. */
  lemma TrajectoryStep(m: CpLstm, act: Activations, x: seq<Matrix>, s0: LstmState, t: nat)
    requires RunShapes(m, x, s0) && t < |x|
    ensures StepShapes(m, x[t], Current(Trajectory(m, act, x, s0, t), s0).h, Current(Trajectory(m, act, x, s0, t), s0).c)
    ensures Trajectory(m, act, x, s0, t + 1)
              == Trajectory(m, act, x, s0, t) + [Step(m, act, x[t], Current(Trajectory(m, act, x, s0, t), s0))]
  {
    CurrentShapes(m, x, s0, Trajectory(m, act, x, s0, t));
  }

  /** Lines 45-49: the initial `(h, c)`: zeros when no state is passed,
      otherwise the pair unpacked in the order `(h, c)`. */
  function InitialState(m: CpLstm, initStates: Option<(Matrix, Matrix)>, batch: nat): (s: LstmState)
    ensures initStates.None? ==> ZeroState(s) && Shaped(s, batch, m.hiddenSize)
    ensures initStates.Some? ==> s.h == initStates.value.0 && s.c == initStates.value.1
  {
    match initStates
    case None => LstmState(Zeros(batch, m.hiddenSize), Zeros(batch, m.hiddenSize))
    case Some((h, c)) => LstmState(h, c)
  }

  /** `self.embedding(inp)`: one vector per (sequence, batch) position. */
  function Embed(m: CpLstm, inp: seq<seq<int>>): (x: seq<Matrix>)
    ensures |x| == |inp| && forall t :: 0 <= t < |inp| ==> |x[t]| == |inp[t]|
  {
    seq(|inp|, t requires 0 <= t < |inp| => seq(|inp[t]|, n requires 0 <= n < |inp[t]| => m.embedding(inp[t][n])))
  }

  /** `self.decoder(hidden_seq)`: the decoder applied to every hidden vector
      of every step. */
  function DecodeAll(m: CpLstm, hs: seq<Matrix>): (out: seq<seq<seq<real>>>)
    ensures |out| == |hs| && forall t :: 0 <= t < |hs| ==> |out[t]| == |hs[t]|
    ensures forall t, n :: 0 <= t < |hs| && 0 <= n < |hs[t]| ==> out[t][n] == m.decoder(hs[t][n])
  {
    seq(|hs|, t requires 0 <= t < |hs| => seq(|hs[t]|, n requires 0 <= n < |hs[t]| => m.decoder(hs[t][n])))
  }

  /** The hidden matrices of a sequence of states, in order. */
  function Hiddens(states: seq<LstmState>): (hs: seq<Matrix>)
    ensures |hs| == |states|
  {
    seq(|states|, k requires 0 <= k < |states| => states[k].h)
  }

  lemma HiddensAppend(states: seq<LstmState>, s: LstmState)
    ensures Hiddens(states + [s]) == Hiddens(states) + [s.h]
  {
    assert forall k :: 0 <= k < |states| ==> Hiddens(states + [s])[k] == Hiddens(states)[k];
  }

  /** What `forward` needs of its arguments: the embedded input is a square
      sequence x batch grid of input vectors (see `Forward`), and a state
      that is passed in is batch x hidden. */
  predicate ForwardArgs(m: CpLstm, inp: seq<seq<int>>, initStates: Option<(Matrix, Matrix)>) {
    && WellShaped(m) && m.hiddenSize >= 2
    && |inp| >= 2 && (forall t :: 0 <= t < |inp| ==> |inp[t]| == |inp|)
    && (forall t, n :: 0 <= t < |inp| && 0 <= n < |inp[t]| ==> |m.embedding(inp[t][n])| == m.inputSize)
    && (initStates.Some? ==>
          IsMatrix(initStates.value.0, |inp|, m.hiddenSize) && IsMatrix(initStates.value.1, |inp|, m.hiddenSize))
  }

  lemma ForwardShapes(m: CpLstm, inp: seq<seq<int>>, initStates: Option<(Matrix, Matrix)>)
    requires ForwardArgs(m, inp, initStates)
    ensures RunShapes(m, Embed(m, inp), InitialState(m, initStates, |inp|))
  {
    var x := Embed(m, inp);
    forall t | 0 <= t < |x|
      ensures IsMatrix(x[t], |inp|, m.inputSize)
    {
      assert |x[t]| == |inp[t]| == |inp|;
    }
  }

  /** `forward`. Line 42 reads dimension 0 of the embedded input as the batch
      size and dimension 1 as the sequence length, while line 52 indexes
      time steps along dimension 0; the two agree only when the dimensions
      are equal, so that is required. The loop runs the cell once per time
      step, in order, from the initial state; the output decodes the hidden
      matrix of every step, and the state comes back as `(c_t, h_t)`: memory
      first, the reverse of the `(h, c)` order `init_states` is read in. */
  method Forward(m: CpLstm, act: Activations, inp: seq<seq<int>>, initStates: Option<(Matrix, Matrix)>)
    returns (output: seq<seq<seq<real>>>, state: (Matrix, Matrix))
    requires ForwardArgs(m, inp, initStates)
    ensures RunShapes(m, Embed(m, inp), InitialState(m, initStates, |inp|))
    ensures var states := Trajectory(m, act, Embed(m, inp), InitialState(m, initStates, |inp|), |inp|);
            && output == DecodeAll(m, Hiddens(states))
            && state == (states[|inp| - 1].c, states[|inp| - 1].h)
  {
    var x := Embed(m, inp);
    ForwardShapes(m, inp, initStates);
    var batchSize, sequenceLength := |x|, |x[0]|;
    var hiddenSeq, s := RunSteps(m, act, x, InitialState(m, initStates, batchSize), sequenceLength);
    output := DecodeAll(m, hiddenSeq);
    state := (s.c, s.h);
  }

  /** The loop of lines 51-69: `steps` applications of the cell from `s0`,
      collecting each new hidden matrix in order and returning the last state. */
  method RunSteps(m: CpLstm, act: Activations, x: seq<Matrix>, s0: LstmState, steps: nat)
    returns (hiddenSeq: seq<Matrix>, s: LstmState)
    requires RunShapes(m, x, s0) && steps <= |x|
    ensures hiddenSeq == Hiddens(Trajectory(m, act, x, s0, steps))
    ensures s == Current(Trajectory(m, act, x, s0, steps), s0)
  {
    s := s0;
    hiddenSeq := [];
    var t := 0;
    while t < steps
      invariant 0 <= t <= steps
      invariant hiddenSeq == Hiddens(Trajectory(m, act, x, s0, t))
      invariant s == Current(Trajectory(m, act, x, s0, t), s0)
    {
      RunStepsAdvance(m, act, x, s0, t, hiddenSeq, s);
      s := Step(m, act, x[t], s);
      hiddenSeq := hiddenSeq + [s.h];
      t := t + 1;
    }
  }

  /** The loop invariant of `RunSteps` survives one more step. */
  lemma RunStepsAdvance(m: CpLstm, act: Activations, x: seq<Matrix>, s0: LstmState, t: nat,
                        hiddenSeq: seq<Matrix>, s: LstmState)
    requires RunShapes(m, x, s0) && t < |x|
    requires hiddenSeq == Hiddens(Trajectory(m, act, x, s0, t))
    requires s == Current(Trajectory(m, act, x, s0, t), s0)
    ensures StepShapes(m, x[t], s.h, s.c)
    ensures hiddenSeq + [Step(m, act, x[t], s).h] == Hiddens(Trajectory(m, act, x, s0, t + 1))
    ensures Step(m, act, x[t], s) == Current(Trajectory(m, act, x, s0, t + 1), s0)
  {
    TrajectoryStep(m, act, x, s0, t);
    HiddensAppend(Trajectory(m, act, x, s0, t), Step(m, act, x[t], s));
  }

  /** When either projection `h @ a` or `x_t @ b` vanishes, so does every
      pre-activation. */
  lemma ZeroProjectionPre(m: CpLstm, h: Matrix, xt: Matrix, k: nat, n: nat, d: nat)
    requires StepShapes(m, xt, h, h)
    requires k < GateCount && n < |h| && d < m.hiddenSize
    requires IsZero(MatMul(h, m.a, m.hiddenSize, GateCount * m.rank))
             || IsZero(MatMul(xt, m.b, m.inputSize, GateCount * m.rank))
    ensures PreActivation(m, h, xt, k, n, d) == 0.0
  {
    var terms := PreTerms(m, h, xt, k, n, d);
    forall j | 0 <= j < |terms|
      ensures terms[j] == 0.0
    {
      MulAddBound(k, j, GateCount, m.rank);
    }
    SumOfZeros(terms);
  }

  /** From a zero `(h, c)` the step returns a zero `(h, c)`, whatever the
      factors and the input: `h = 0` zeroes `h @ a`, hence every
      pre-activation, and without a bias the candidate is `tanh(0) = 0`. */
  lemma ZeroStateIsFixedPoint(m: CpLstm, act: Activations, xt: Matrix, s: LstmState)
    requires act.tanh(0.0) == 0.0
    requires StepShapes(m, xt, s.h, s.c)
    requires IsZero(s.h) && IsZero(s.c)
    ensures IsZero(Step(m, act, xt, s).h) && IsZero(Step(m, act, xt, s).c)
  {
    MatMulZeroLeft(s.h, m.a, m.hiddenSize, GateCount * m.rank);
    forall n, d | 0 <= n < |s.h| && 0 <= d < m.hiddenSize
      ensures Step(m, act, xt, s).c[n][d] == 0.0 && Step(m, act, xt, s).h[n][d] == 0.0
    {
      ZeroProjectionPre(m, s.h, xt, GateIndex(Candidate), n, d);
      StepEquations(m, act, xt, s, n, d);
    }
  }

  /** Both matrices of a state are zero. */
  predicate ZeroState(s: LstmState) {
    IsZero(s.h) && IsZero(s.c)
  }

  /** With no initial state, every state of the run is zero: the cell as
      written outputs `decoder(0)` at every step, whatever its input. */
  lemma {:induction false} DefaultRunStaysZero(m: CpLstm, act: Activations, x: seq<Matrix>, t: nat)
    requires act.tanh(0.0) == 0.0
    requires |x| > 0 && RunShapes(m, x, InitialState(m, None, |x[0]|))
    requires t <= |x|
    ensures forall k :: 0 <= k < t ==> ZeroState(Trajectory(m, act, x, InitialState(m, None, |x[0]|), t)[k])
  {
    var s0 := InitialState(m, None, |x[0]|);
    if t > 0 {
      DefaultRunStaysZero(m, act, x, t - 1);
      var prev := Trajectory(m, act, x, s0, t - 1);
      var cur := Current(prev, s0);
      assert ZeroState(cur) by {
        if t - 1 > 0 {
          assert cur == prev[t - 2];
        }
      }
      ZeroStateIsFixedPoint(m, act, x[t - 1], cur);
      var next := Step(m, act, x[t - 1], cur);
      assert Trajectory(m, act, x, s0, t) == prev + [next];
    }
  }

  /** With an all-zero factor `a` or `b` every pre-activation is zero. */
  lemma ZeroFactorPre(m: CpLstm, h: Matrix, xt: Matrix, n: nat, d: nat)
    requires StepShapes(m, xt, h, h)
    requires IsZero(m.a) || IsZero(m.b)
    requires n < |h| && d < m.hiddenSize
    ensures Pre(m, Forget, h, xt, n, d) == 0.0 && Pre(m, Input, h, xt, n, d) == 0.0
    ensures Pre(m, Candidate, h, xt, n, d) == 0.0 && Pre(m, Output, h, xt, n, d) == 0.0
  {
    if IsZero(m.a) {
      MatMulZeroRight(h, m.a, m.hiddenSize, GateCount * m.rank);
    } else {
      MatMulZeroRight(xt, m.b, m.inputSize, GateCount * m.rank);
    }
    ZeroProjectionPre(m, h, xt, GateIndex(Forget), n, d);
    ZeroProjectionPre(m, h, xt, GateIndex(Input), n, d);
    ZeroProjectionPre(m, h, xt, GateIndex(Candidate), n, d);
    ZeroProjectionPre(m, h, xt, GateIndex(Output), n, d);
  }

  /** With an all-zero factor `a` or `b`, from any state the step is the
      LSTM update with every pre-activation zero (see `ZeroGatesUpdate`):
      the input plays no part. */
  lemma ZeroFactorStep(m: CpLstm, act: Activations, xt: Matrix, s: LstmState, n: nat, d: nat)
    requires StepShapes(m, xt, s.h, s.c)
    requires IsZero(m.a) || IsZero(m.b)
    requires n < |s.h| && d < m.hiddenSize
    ensures Step(m, act, xt, s).c[n][d] == MemoryUpdate(act, 0.0, 0.0, 0.0, s.c[n][d])
    ensures Step(m, act, xt, s).h[n][d] == HiddenUpdate(act, 0.0, Step(m, act, xt, s).c[n][d])
  {
    ZeroFactorPre(m, s.h, xt, n, d);
    StepEquations(m, act, xt, s, n, d);
  }

  /** With every pre-activation zero the memory is scaled by `sigmoid(0)`,
      and the hidden value is `sigmoid(0)` times the squashed memory. */
  lemma ZeroGatesUpdate(act: Activations, c: real)
    requires act.tanh(0.0) == 0.0
    ensures MemoryUpdate(act, 0.0, 0.0, 0.0, c) == act.sigmoid(0.0) * c
    ensures HiddenUpdate(act, 0.0, c) == act.sigmoid(0.0) * act.tanh(c)
  {
  }

  /** `bias` is allocated but never read: two cells that differ only in
      their bias run through identical states. */
  lemma {:induction false} BiasNeverRead(m: CpLstm, bias: seq<real>, act: Activations, x: seq<Matrix>, s0: LstmState, t: nat)
    requires RunShapes(m, x, s0) && t <= |x|
    requires |bias| == |m.bias|
    ensures RunShapes(m.(bias := bias), x, s0)
    ensures Trajectory(m.(bias := bias), act, x, s0, t) == Trajectory(m, act, x, s0, t)
  {
    var m' := m.(bias := bias);
    assert WellShaped(m');
    if t > 0 {
      BiasNeverRead(m, bias, act, x, s0, t - 1);
      var prev := Trajectory(m, act, x, s0, t - 1);
      assert Step(m', act, x[t - 1], Current(prev, s0)) == Step(m, act, x[t - 1], Current(prev, s0));
    }
  }

  /** The per-gate bias an LSTM cell adds to each pre-activation: `bias`,
      read as four blocks of `hidden_size`, with block `k` added to gate
      slice `k`. */
  function AddBias(gates: seq<Matrix>, bias: seq<real>, d: nat): (z: seq<Matrix>)
    requires |bias| == GateCount * d
    requires forall i :: 0 <= i < |gates| ==> IsMatrix(gates[i], GateCount, d)
    ensures |z| == |gates| && forall i :: 0 <= i < |gates| ==> IsMatrix(z[i], GateCount, d)
  {
    seq(|gates|, i requires 0 <= i < |gates| && IsMatrix(gates[i], GateCount, d) =>
      seq(GateCount, k requires 0 <= k < GateCount =>
        seq(d, u requires 0 <= u < d => MulAddBound(k, u, GateCount, d); gates[i][k][u] + bias[k * d + u])))
  }

  /** The pre-activation of gate `g` with its bias block added. */
  function BiasedPre(m: CpLstm, g: Gate, h: Matrix, xt: Matrix, n: nat, d: nat): real
    requires StepShapes(m, xt, h, h)
    requires n < |h| && d < m.hiddenSize
  {
    MulAddBound(GateIndex(g), d, GateCount, m.hiddenSize);
    Pre(m, g, h, xt, n, d) + m.bias[GateIndex(g) * m.hiddenSize + d]
  }

  /** The step with the bias added to each gate's pre-activation. Each entry
      follows the LSTM equations with pre-activation
      `PreActivation + bias[k*hidden + d]` for gate slice `k`. */
  function BiasedStep(m: CpLstm, act: Activations, xt: Matrix, s: LstmState): (s': LstmState)
    requires StepShapes(m, xt, s.h, s.c)
    ensures IsMatrix(s'.h, |s.h|, m.hiddenSize) && IsMatrix(s'.c, |s.h|, m.hiddenSize)
  {
    var d := m.hiddenSize;
    Advance(act, AddBias(Contract(m, Projection(m, s.h, xt)), m.bias, d), s.c, d)
  }

  /** Entry `(n, d)` of `BiasedStep` follows the LSTM equations with the
      biased pre-activations. */
  lemma BiasedStepEquations(m: CpLstm, act: Activations, xt: Matrix, s: LstmState, n: nat, d: nat)
    requires StepShapes(m, xt, s.h, s.c)
    requires n < |s.h| && d < m.hiddenSize
    ensures BiasedStep(m, act, xt, s).c[n][d]
              == MemoryUpdate(act, BiasedPre(m, Forget, s.h, xt, n, d), BiasedPre(m, Input, s.h, xt, n, d),
                              BiasedPre(m, Candidate, s.h, xt, n, d), s.c[n][d])
    ensures BiasedStep(m, act, xt, s).h[n][d]
              == HiddenUpdate(act, BiasedPre(m, Output, s.h, xt, n, d), BiasedStep(m, act, xt, s).c[n][d])
  {
    var D := m.hiddenSize;
    var biased := AddBias(Contract(m, Projection(m, s.h, xt)), m.bias, D);
    BiasedGateEntries(m, s.h, xt, n, d);
    AdvanceEquations(act, biased, s.c, D, n, d,
                     BiasedPre(m, Forget, s.h, xt, n, d), BiasedPre(m, Input, s.h, xt, n, d),
                     BiasedPre(m, Candidate, s.h, xt, n, d), BiasedPre(m, Output, s.h, xt, n, d));
  }

  lemma AddBiasEntry(gates: seq<Matrix>, bias: seq<real>, d: nat, n: nat, k: nat, u: nat)
    requires |bias| == GateCount * d
    requires forall i :: 0 <= i < |gates| ==> IsMatrix(gates[i], GateCount, d)
    requires n < |gates| && k < GateCount && u < d
    ensures k * d + u < |bias|
    ensures IsMatrix(gates[n], GateCount, d)
    ensures AddBias(gates, bias, d)[n][k][u] == gates[n][k][u] + bias[k * d + u]
  {
    MulAddBound(k, u, GateCount, d);
  }

  /** The four gate slices of the biased contraction hold the biased
      pre-activations. */
  lemma BiasedGateEntries(m: CpLstm, h: Matrix, xt: Matrix, n: nat, d: nat)
    requires StepShapes(m, xt, h, h)
    requires n < |h| && d < m.hiddenSize
    ensures var biased := AddBias(Contract(m, Projection(m, h, xt)), m.bias, m.hiddenSize);
            && biased[n][0][d] == BiasedPre(m, Forget, h, xt, n, d)
            && biased[n][1][d] == BiasedPre(m, Input, h, xt, n, d)
            && biased[n][2][d] == BiasedPre(m, Candidate, h, xt, n, d)
            && biased[n][3][d] == BiasedPre(m, Output, h, xt, n, d)
  {
    BiasedGateEntry(m, h, xt, Forget, n, d);
    BiasedGateEntry(m, h, xt, Input, n, d);
    BiasedGateEntry(m, h, xt, Candidate, n, d);
    BiasedGateEntry(m, h, xt, Output, n, d);
  }

  lemma BiasedGateEntry(m: CpLstm, h: Matrix, xt: Matrix, g: Gate, n: nat, d: nat)
    requires StepShapes(m, xt, h, h)
    requires n < |h| && d < m.hiddenSize
    ensures AddBias(Contract(m, Projection(m, h, xt)), m.bias, m.hiddenSize)[n][GateIndex(g)][d]
              == BiasedPre(m, g, h, xt, n, d)
  {
    ContractMeaning(m, h, xt, GateIndex(g), n, d);
    AddBiasEntry(Contract(m, Projection(m, h, xt)), m.bias, m.hiddenSize, n, GateIndex(g), d);
  }

  /** From the default zero state, each biased pre-activation is the bias
      entry of its gate. */
  lemma BiasedPreFromZero(m: CpLstm, xt: Matrix, n: nat, d: nat)
    requires WellShaped(m) && m.hiddenSize >= 2 && |xt| >= 2 && IsMatrix(xt, |xt|, m.inputSize)
    requires n < |xt| && d < m.hiddenSize
    ensures var h := InitialState(m, None, |xt|).h;
            && BiasedPre(m, Forget, h, xt, n, d) == m.bias[d]
            && BiasedPre(m, Input, h, xt, n, d) == m.bias[m.hiddenSize + d]
            && BiasedPre(m, Candidate, h, xt, n, d) == m.bias[2 * m.hiddenSize + d]
  {
    BiasedPreFromZeroAt(m, Forget, xt, n, d);
    BiasedPreFromZeroAt(m, Input, xt, n, d);
    BiasedPreFromZeroAt(m, Candidate, xt, n, d);
    BiasOffsets(m.hiddenSize, d);
  }

  lemma BiasedPreFromZeroAt(m: CpLstm, g: Gate, xt: Matrix, n: nat, d: nat)
    requires WellShaped(m) && m.hiddenSize >= 2 && |xt| >= 2 && IsMatrix(xt, |xt|, m.inputSize)
    requires n < |xt| && d < m.hiddenSize
    ensures GateIndex(g) * m.hiddenSize + d < |m.bias|
    ensures BiasedPre(m, g, InitialState(m, None, |xt|).h, xt, n, d) == m.bias[GateIndex(g) * m.hiddenSize + d]
  {
    var h := InitialState(m, None, |xt|).h;
    MulAddBound(GateIndex(g), d, GateCount, m.hiddenSize);
    MatMulZeroLeft(h, m.a, m.hiddenSize, GateCount * m.rank);
    ZeroProjectionPre(m, h, xt, GateIndex(g), n, d);
  }

  /** The offsets of the first three gate blocks of the bias vector. */
  lemma BiasOffsets(hidden: nat, d: nat)
    ensures GateIndex(Forget) * hidden + d == d
    ensures GateIndex(Input) * hidden + d == hidden + d
    ensures GateIndex(Candidate) * hidden + d == 2 * hidden + d
  {
  }

  /** From the default zero state every pre-activation is zero. */
  lemma PreFromZero(m: CpLstm, xt: Matrix, n: nat, d: nat)
    requires WellShaped(m) && m.hiddenSize >= 2 && |xt| >= 2 && IsMatrix(xt, |xt|, m.inputSize)
    requires n < |xt| && d < m.hiddenSize
    ensures var h := InitialState(m, None, |xt|).h;
            && StepShapes(m, xt, h, h)
            && Pre(m, Forget, h, xt, n, d) == 0.0 && Pre(m, Input, h, xt, n, d) == 0.0
            && Pre(m, Candidate, h, xt, n, d) == 0.0 && Pre(m, Output, h, xt, n, d) == 0.0
  {
    var h := InitialState(m, None, |xt|).h;
    MatMulZeroLeft(h, m.a, m.hiddenSize, GateCount * m.rank);
    ZeroProjectionPre(m, h, xt, GateIndex(Forget), n, d);
    ZeroProjectionPre(m, h, xt, GateIndex(Input), n, d);
    ZeroProjectionPre(m, h, xt, GateIndex(Candidate), n, d);
    ZeroProjectionPre(m, h, xt, GateIndex(Output), n, d);
  }

  /** With the bias added, the first step from the default zero state
      updates the memory from the bias blocks alone. */
  lemma BiasedStepFromZero(m: CpLstm, act: Activations, xt: Matrix, n: nat, d: nat)
    requires WellShaped(m) && m.hiddenSize >= 2 && |xt| >= 2 && IsMatrix(xt, |xt|, m.inputSize)
    requires n < |xt| && d < m.hiddenSize
    ensures var s0 := InitialState(m, None, |xt|);
            BiasedStep(m, act, xt, s0).c[n][d]
              == MemoryUpdate(act, m.bias[d], m.bias[m.hiddenSize + d], m.bias[2 * m.hiddenSize + d], 0.0)
  {
    var s0 := InitialState(m, None, |xt|);
    BiasedPreFromZero(m, xt, n, d);
    BiasedStepEquations(m, act, xt, s0, n, d);
  }

  /** From a zero memory the update is the input gate times the candidate. */
  lemma MemoryFromZero(act: Activations, pf: real, pi: real, pg: real)
    ensures MemoryUpdate(act, pf, pi, pg, 0.0) == act.sigmoid(pi) * act.tanh(pg)
  {
  }

  /** With the bias added, the first step from the default zero state moves
      the memory of unit `d` whenever its candidate bias is non-zero, for
      any activations where sigmoid is positive and tanh vanishes only at
      zero (as the real ones do). The cell as written stays at zero from
      the same state (`DefaultRunStaysZero`). */
  lemma BiasMovesMemory(m: CpLstm, act: Activations, xt: Matrix, n: nat, d: nat)
    requires WellShaped(m) && m.hiddenSize >= 2 && |xt| >= 2 && IsMatrix(xt, |xt|, m.inputSize)
    requires n < |xt| && d < m.hiddenSize
    requires forall x :: act.sigmoid(x) > 0.0
    requires forall x :: x != 0.0 ==> act.tanh(x) != 0.0
    requires m.bias[2 * m.hiddenSize + d] != 0.0
    ensures BiasedStep(m, act, xt, InitialState(m, None, |xt|)).c[n][d] != 0.0
  {
    var bi, bg := m.bias[m.hiddenSize + d], m.bias[2 * m.hiddenSize + d];
    BiasedStepFromZero(m, act, xt, n, d);
    MemoryFromZero(act, m.bias[d], bi, bg);
    NonZeroProduct(act.sigmoid(bi), act.tanh(bg));
  }

  lemma NonZeroProduct(x: real, y: real)
    requires x != 0.0 && y != 0.0
    ensures x * y != 0.0
  {
  }
}

=== FILE: experiment_name.dfy ===
/** Run identification in `train.py`: the config check that ties the word
    tokenizer to an embedding size, the per-trial config that `main` builds
    by merging dicts, and `get_experiment_name`, which gives every leaf key
    of that config the shortest prefix not yet taken. */
module ExperimentName {
  import opened Results
  import opened ConfigTree

  /** The abbreviation dict: insertion-ordered pairs of prefix and value. */
  type Abbrevs = seq<(string, Val)>

  predicate DistinctKeys(d: seq<(string, Val)>) {
    forall p, q :: 0 <= p < q < |d| ==> d[p].0 != d[q].0
  }

  /** The first prefix length `l` in `[i, |key|)` with `key[..l]` free. */
  function FreePrefix(abbrevs: Abbrevs, key: string, i: nat): (r: Option<nat>)
    requires 1 <= i
    ensures r.Some? ==> && i <= r.value < |key|
                        && !HasKey(abbrevs, key[..r.value])
                        && forall l :: i <= l < r.value ==> HasKey(abbrevs, key[..l])
    ensures r.None? ==> forall l :: i <= l < |key| ==> HasKey(abbrevs, key[..l])
    decreases |key| - i
  {
    if i >= |key| then None
    else if !HasKey(abbrevs, key[..i]) then Some(i)
    else FreePrefix(abbrevs, key, i + 1)
  }

  /** `a` is a non-empty strict prefix of `key`. */
  predicate StrictPrefix(a: string, key: string) {
    1 <= |a| < |key| && a == key[..|a|]
  }

  /** The inner `while` loop for one leaf: store `value` under the shortest
      non-empty strict prefix of `key` that is not yet a key, if there is
      one, and never overwrite an existing entry. */
  function Abbreviate(abbrevs: Abbrevs, key: string, value: Val): (r: Abbrevs)
    ensures |r| == |abbrevs| + 1 <==> exists l :: 1 <= l < |key| && !HasKey(abbrevs, key[..l])
    ensures |r| != |abbrevs| + 1 ==> r == abbrevs
    ensures |r| == |abbrevs| + 1 ==>
              && r[..|abbrevs|] == abbrevs
              && r[|abbrevs|].1 == value
              && StrictPrefix(r[|abbrevs|].0, key)
              && !HasKey(abbrevs, r[|abbrevs|].0)
              && forall l :: 1 <= l < |r[|abbrevs|].0| ==> HasKey(abbrevs, key[..l])
  {
    match FreePrefix(abbrevs, key, 1)
    case None => abbrevs
    case Some(l) =>
      var r := abbrevs + [(key[..l], value)];
      assert r[..|abbrevs|] == abbrevs;
      r
  }

  /** `get_experiment_name(configs, abbrevs)` from entry `i` of the dict
      `v` on: a dict value recurses into the same abbreviation dict, any
      other value is abbreviated. */
  function NameFrom(v: Val, i: nat, abbrevs: Abbrevs): Abbrevs
    requires v.Dict? && i <= |v.entries|
    decreases v, |v.entries| - i
  {
    if i == |v.entries| then abbrevs
    else
      var key := v.entries[i].0;
      var value := v.entries[i].1;
      assert v.entries[i] in v.entries;
      var next := if value.Dict? then NameFrom(value, 0, abbrevs) else Abbreviate(abbrevs, key, value);
      NameFrom(v, i + 1, next)
  }

  /** `get_experiment_name(configs)` with a fresh abbreviation dict. */
  function ExperimentName(configs: Val): Abbrevs
    requires configs.Dict?
  {
    NameFrom(configs, 0, [])
  }

  /** The non-dict entries of `v` from entry `i` on, nested dicts expanded
      in place: the order in which the recursion meets the leaves. */
  function LeavesFrom(v: Val, i: nat): seq<(string, Val)>
    requires v.Dict? && i <= |v.entries|
    decreases v, |v.entries| - i
  {
    if i == |v.entries| then []
    else
      var value := v.entries[i].1;
      assert v.entries[i] in v.entries;
      (if value.Dict? then LeavesFrom(value, 0) else [v.entries[i]]) + LeavesFrom(v, i + 1)
  }

  /** Abbreviate a flat list of leaves in order. */
  function AbbreviateAll(abbrevs: Abbrevs, leaves: seq<(string, Val)>): Abbrevs
    decreases |leaves|
  {
    if |leaves| == 0 then abbrevs
    else AbbreviateAll(Abbreviate(abbrevs, leaves[0].0, leaves[0].1), leaves[1..])
  }

  lemma {:induction false} AbbreviateAllAppend(abbrevs: Abbrevs, xs: seq<(string, Val)>, ys: seq<(string, Val)>)
    ensures AbbreviateAll(abbrevs, xs + ys) == AbbreviateAll(AbbreviateAll(abbrevs, xs), ys)
    decreases |xs|
  {
    if |xs| == 0 {
      assert xs + ys == ys;
    } else {
      assert (xs + ys)[0] == xs[0] && (xs + ys)[1..] == xs[1..] + ys;
      AbbreviateAllAppend(Abbreviate(abbrevs, xs[0].0, xs[0].1), xs[1..], ys);
    }
  }

  /** Recursing into nested dicts with the shared abbreviation dict is the
      same as abbreviating the leaves one after another. */
  lemma {:induction false} NameIsAbbreviateAll(v: Val, i: nat, abbrevs: Abbrevs)
    requires v.Dict? && i <= |v.entries|
    ensures NameFrom(v, i, abbrevs) == AbbreviateAll(abbrevs, LeavesFrom(v, i))
    decreases v, |v.entries| - i
  {
    if i < |v.entries| {
      var value := v.entries[i].1;
      assert v.entries[i] in v.entries;
      if value.Dict? {
        NameIsAbbreviateAll(value, 0, abbrevs);
        var next := NameFrom(value, 0, abbrevs);
        NameIsAbbreviateAll(v, i + 1, next);
        AbbreviateAllAppend(abbrevs, LeavesFrom(value, 0), LeavesFrom(v, i + 1));
      } else {
        var next := Abbreviate(abbrevs, v.entries[i].0, value);
        NameIsAbbreviateAll(v, i + 1, next);
        assert ([v.entries[i]] + LeavesFrom(v, i + 1))[1..] == LeavesFrom(v, i + 1);
      }
    }
  }

  /** `a` abbreviates the key of one of `leaves`. */
  ghost predicate AbbreviatesSome(a: string, leaves: seq<(string, Val)>) {
    exists m :: 0 <= m < |leaves| && StrictPrefix(a, leaves[m].0)
  }

  /** Abbreviating leaves only appends, keeps the keys distinct, adds at
      most one entry per leaf, and every added key abbreviates a leaf key. */
  lemma {:induction false} AbbreviateAllProperties(abbrevs: Abbrevs, leaves: seq<(string, Val)>)
    requires DistinctKeys(abbrevs)
    ensures var r := AbbreviateAll(abbrevs, leaves);
            && |abbrevs| <= |r| <= |abbrevs| + |leaves|
            && r[..|abbrevs|] == abbrevs
            && DistinctKeys(r)
            && forall j :: |abbrevs| <= j < |r| ==> AbbreviatesSome(r[j].0, leaves)
    decreases |leaves|
  {
    if |leaves| > 0 {
      var next := Abbreviate(abbrevs, leaves[0].0, leaves[0].1);
      if |next| == |abbrevs| + 1 {
        forall p | 0 <= p < |abbrevs| ensures next[p].0 != next[|abbrevs|].0 {
          assert next[p] == abbrevs[p];
        }
      }
      AbbreviateAllProperties(next, leaves[1..]);
      var r := AbbreviateAll(next, leaves[1..]);
      assert r[..|abbrevs|] == next[..|next|][..|abbrevs|];
      forall j | |abbrevs| <= j < |r| ensures AbbreviatesSome(r[j].0, leaves) {
        if j < |next| {
          assert r[j] == next[j];
          assert StrictPrefix(r[j].0, leaves[0].0);
        } else {
          var m :| 0 <= m < |leaves| - 1 && StrictPrefix(r[j].0, leaves[1..][m].0);
          assert leaves[1..][m] == leaves[m + 1];
        }
      }
    }
  }

  /** The experiment name: distinct keys, at most one per leaf of the
      config, each a non-empty strict prefix of a leaf key. */
  lemma ExperimentNameProperties(configs: Val)
    requires configs.Dict?
    ensures var r := ExperimentName(configs);
            && DistinctKeys(r)
            && |r| <= |LeavesFrom(configs, 0)|
            && forall j :: 0 <= j < |r| ==> AbbreviatesSome(r[j].0, LeavesFrom(configs, 0))
  {
    NameIsAbbreviateAll(configs, 0, []);
    AbbreviateAllProperties([], LeavesFrom(configs, 0));
  }

  /** Nested dicts share the abbreviation dict: a key inside a sub-dict
      competes for prefixes with the keys around it, and the key of the
      sub-dict itself is never abbreviated. In `{"lr": 1, "opt": {"lm": 2}}`
      the leaf `lm` gets no entry, its only strict prefix `l` being taken. */
  lemma NestedKeysShareAbbrevs()
    ensures ExperimentName(Dict([("lr", Leaf(Int(1))), ("opt", Dict([("lm", Leaf(Int(2)))]))]))
            == [("l", Leaf(Int(1)))]
  {
    var inner := Dict([("lm", Leaf(Int(2)))]);
    var v := Dict([("lr", Leaf(Int(1))), ("opt", inner)]);
    var a1 := Abbreviate([], "lr", Leaf(Int(1)));
    assert "lr"[..1] == "l";
    assert a1 == [("l", Leaf(Int(1)))];
    assert HasKey(a1, "lm"[..1]);
    assert "lm"[..1] == "l";
    assert Abbreviate(a1, "lm", Leaf(Int(2))) == a1;
    assert NameFrom(inner, 0, a1) == a1;
    assert NameFrom(v, 1, a1) == a1;
  }

  /** Why the run is refused before anything starts. */
  datatype ConfigError = MissingSetting(e: LookupError) | EmbeddingMismatch

  /** The check in `main`: a word tokenizer needs a non-zero `input_size`
      (an embedding), a character tokenizer needs `input_size == 0`. */
  function ValidateConfig(args: Val): (r: Result<(), ConfigError>)
    ensures Walk(args, ["data", "tokenizer"]).Failure? ==> r == Failure(MissingSetting(Walk(args, ["data", "tokenizer"]).error))
    ensures Walk(args, ["data", "tokenizer"]).Success? && Walk(args, ["model", "input_size"]).Failure? ==>
              r == Failure(MissingSetting(Walk(args, ["model", "input_size"]).error))
    ensures Walk(args, ["data", "tokenizer"]).Success? && Walk(args, ["model", "input_size"]).Success? ==>
              var word := Eq(Walk(args, ["data", "tokenizer"]).value, StrVal("word"));
              var embedded := !Eq(Walk(args, ["model", "input_size"]).value, Leaf(Int(0)));
              (r.Success? <==> (word && embedded) || (!word && !embedded))
              && (r.Failure? ==> r.error == EmbeddingMismatch)
  {
    match Walk(args, ["data", "tokenizer"])
    case Failure(e) => Failure(MissingSetting(e))
    case Success(tokenizer) =>
      match Walk(args, ["model", "input_size"])
      case Failure(e) => Failure(MissingSetting(e))
      case Success(inputSize) =>
        if Eq(tokenizer, StrVal("word")) != !Eq(inputSize, Leaf(Int(0))) then Failure(EmbeddingMismatch)
        else Success(())
  }

  /** An input size given as `0.0` or `False` counts as no embedding, as
      `0.0 != 0` and `False != 0` are false in Python. */
  lemma ZeroLikeInputSizes(args: Val, tokenizer: Val, z: Atom)
    requires z == Float(0.0) || z == Bool(false)
    requires Walk(args, ["data", "tokenizer"]) == Success(tokenizer)
    requires Walk(args, ["model", "input_size"]) == Success(Leaf(z))
    ensures ValidateConfig(args).Success? <==> !Eq(tokenizer, StrVal("word"))
  {
    assert Eq(Leaf(z), Leaf(Int(0)));
  }

  /** `{**d1, **d2}`: keys of `d2` replace values of `d1` in place, new keys
      are appended in `d2`'s order. */
  function Merge(d1: seq<(string, Val)>, d2: seq<(string, Val)>): (r: seq<(string, Val)>)
    decreases |d2|
  {
    if |d2| == 0 then d1 else Merge(Put(d1, d2[0].0, d2[0].1), d2[1..])
  }

  /** `d[key] = value` on an insertion-ordered dict. */
  function Put(d: seq<(string, Val)>, key: string, value: Val): (r: seq<(string, Val)>)
    ensures |r| == |d| || |r| == |d| + 1
    ensures forall k :: HasKey(r, k) <==> HasKey(d, k) || k == key
    ensures Get(r, key) == Some(value)
    ensures forall k :: k != key ==> Get(r, k) == Get(d, k)
    decreases |d|
  {
    if |d| == 0 then
      HasKeyCons((key, value), []);
      assert [(key, value)] + [] == [(key, value)];
      [(key, value)]
    else
      HasKeyCons(d[0], d[1..]);
      assert d == [d[0]] + d[1..];
      if d[0].0 == key then
        HasKeyCons((key, value), d[1..]);
        [(key, value)] + d[1..]
      else
        var rest := Put(d[1..], key, value);
        HasKeyCons(d[0], rest);
        [d[0]] + rest
  }

  /** `d[key] = value` keeps the insertion order: an existing key keeps its
      position, and a new key is appended last. */
  lemma {:induction false} PutKeepsOrder(d: seq<(string, Val)>, key: string, value: Val)
    ensures HasKey(d, key) ==> |Put(d, key, value)| == |d| && forall i :: 0 <= i < |d| ==> Put(d, key, value)[i].0 == d[i].0
    ensures !HasKey(d, key) ==> Put(d, key, value) == d + [(key, value)]
    decreases |d|
  {
    if |d| > 0 {
      HasKeyCons(d[0], d[1..]);
      assert d == [d[0]] + d[1..];
      if d[0].0 != key {
        PutKeepsOrder(d[1..], key, value);
        var rest := Put(d[1..], key, value);
        assert Put(d, key, value) == [d[0]] + rest;
        if !HasKey(d, key) {
          assert [d[0]] + (d[1..] + [(key, value)]) == d + [(key, value)];
        }
      }
    }
  }

  lemma HasKeyCons(e: (string, Val), d: seq<(string, Val)>)
    ensures forall k :: HasKey([e] + d, k) <==> e.0 == k || HasKey(d, k)
  {
    forall k ensures HasKey([e] + d, k) <==> e.0 == k || HasKey(d, k) {
      assert ([e] + d)[0] == e;
      if HasKey(d, k) {
        var i :| 0 <= i < |d| && d[i].0 == k;
        assert ([e] + d)[i + 1].0 == k;
      }
      if HasKey([e] + d, k) && e.0 != k {
        var i :| 0 <= i < |d| + 1 && ([e] + d)[i].0 == k;
        assert d[i - 1].0 == k;
      }
    }
  }

  lemma GetCons(e: (string, Val), d: seq<(string, Val)>, k: string)
    ensures Get([e] + d, k) == if e.0 == k then Some(e.1) else Get(d, k)
  {
    assert ([e] + d)[1..] == d;
  }

  /** The merged dict answers a lookup from the last dict that has the key. */
  lemma {:induction false} MergeLookup(d1: seq<(string, Val)>, d2: seq<(string, Val)>, k: string)
    ensures Get(Merge(d1, d2), k) == if HasKey(d2, k) then LastGet(d2, k) else Get(d1, k)
    decreases |d2|
  {
    if |d2| > 0 {
      var e, t := d2[0], d2[1..];
      MergeLookup(Put(d1, e.0, e.1), t, k);
      assert d2 == [e] + t;
      HasKeyCons(e, t);
      assert HasKey(d2, k) <==> e.0 == k || HasKey(t, k);
    }
  }

  /** The value of the last entry with key `k`: the one `dict()` keeps. */
  function LastGet(d: seq<(string, Val)>, k: string): Option<Val>
    decreases |d|
  {
    if |d| == 0 then None
    else if HasKey(d[1..], k) then LastGet(d[1..], k)
    else if d[0].0 == k then Some(d[0].1)
    else None
  }

  /** The config one trial is named by: the `train` and `model` sections,
      then the tokenizer and the trial number. */
  function TrialConfig(train: seq<(string, Val)>, model: seq<(string, Val)>, tokenizer: Val, trial: int): Val {
    Dict(Merge(Merge(train, model), [("tokenizer", tokenizer), ("trial", Leaf(Int(trial)))]))
  }

  /** The trial number of the config is the loop's trial number, whatever
      the sections hold. */
  lemma TrialConfigHoldsTrial(train: seq<(string, Val)>, model: seq<(string, Val)>, tokenizer: Val, trial: int)
    ensures Get(TrialConfig(train, model, tokenizer, trial).entries, "trial") == Some(Leaf(Int(trial)))
    ensures Get(TrialConfig(train, model, tokenizer, trial).entries, "tokenizer") == Some(tokenizer)
  {
    var d2 := [("tokenizer", tokenizer), ("trial", Leaf(Int(trial)))];
    MergeLookup(Merge(train, model), d2, "trial");
    MergeLookup(Merge(train, model), d2, "tokenizer");
    assert HasKey(d2, "trial") && HasKey(d2, "tokenizer");
    assert d2[1..] == [("trial", Leaf(Int(trial)))];
    assert "tokenizer" != "trial" by { assert "tokenizer"[1] != "trial"[1]; }
    assert !HasKey(d2[1..], "tokenizer");
    assert d2[1..][1..] == [];
  }
}

=== FILE: matrices.dfy ===
/** Dense real matrices as sequences of rows, with the handful of tensor
    operations the CP-LSTM cell uses: matrix product, element-wise product,
    element-wise maps, row-major flattening and the four-dimensional
    row-major reshape. All arithmetic is on exact reals. */
module Matrices {

  type Matrix = seq<seq<real>>

  /** `m` has `rows` rows of `cols` entries each. */
  predicate IsMatrix(m: Matrix, rows: nat, cols: nat) {
    |m| == rows && forall i :: 0 <= i < rows ==> |m[i]| == cols
  }

  /** Every entry of `m` is zero. */
  predicate IsZero(m: Matrix) {
    forall i, j :: 0 <= i < |m| && 0 <= j < |m[i]| ==> m[i][j] == 0.0
  }

  /** `torch.zeros(rows, cols)`. */
  function Zeros(rows: nat, cols: nat): (z: Matrix)
    ensures IsMatrix(z, rows, cols) && IsZero(z)
  {
    seq(rows, _ => seq(cols, _ => 0.0))
  }

  function Sum(s: seq<real>): real {
    if |s| == 0 then 0.0 else Sum(s[..|s| - 1]) + s[|s| - 1]
  }

  lemma {:induction false} SumOfZeros(s: seq<real>)
    requires forall i :: 0 <= i < |s| ==> s[i] == 0.0
    ensures Sum(s) == 0.0
  {
    if |s| > 0 {
      SumOfZeros(s[..|s| - 1]);
    }
  }

  /** The products `x[i][l] * y[l][j]`, `l < k`, whose sum is entry `(i, j)`
      of `x @ y`. */
  function RowCol(x: Matrix, y: Matrix, k: nat, i: nat, j: nat): (s: seq<real>)
    requires i < |x| && |x[i]| == k
    requires |y| == k && forall l :: 0 <= l < k ==> j < |y[l]|
    ensures |s| == k
  {
    seq(k, l requires 0 <= l < k => x[i][l] * y[l][j])
  }

  /** `x @ y` for `x` with rows of length `k` and a `k`-by-`c` matrix `y`. */
  function MatMul(x: Matrix, y: Matrix, k: nat, c: nat): (z: Matrix)
    requires forall i :: 0 <= i < |x| ==> |x[i]| == k
    requires IsMatrix(y, k, c)
    ensures IsMatrix(z, |x|, c)
  {
    seq(|x|, i requires 0 <= i < |x| => seq(c, j requires 0 <= j < c => Sum(RowCol(x, y, k, i, j))))
  }

  /** Entry `(i, j)` of `x @ y` is the sum of any sequence of the products
      `x[i][l] * y[l][j]`, `l < k`, in order. */
  lemma MatMulEntry(x: Matrix, y: Matrix, k: nat, c: nat, i: nat, j: nat, terms: seq<real>)
    requires forall i :: 0 <= i < |x| ==> |x[i]| == k
    requires IsMatrix(y, k, c)
    requires i < |x| && j < c
    requires |terms| == k && forall l :: 0 <= l < k ==> terms[l] == x[i][l] * y[l][j]
    ensures MatMul(x, y, k, c)[i][j] == Sum(terms)
  {
    var s := RowCol(x, y, k, i, j);
    assert forall l :: 0 <= l < k ==> s[l] == terms[l];
    assert s == terms;
  }

  /** A product whose left factor is zero is zero, whatever the right factor. */
  lemma MatMulZeroLeft(x: Matrix, y: Matrix, k: nat, c: nat)
    requires forall i :: 0 <= i < |x| ==> |x[i]| == k
    requires IsMatrix(y, k, c)
    requires IsZero(x)
    ensures IsZero(MatMul(x, y, k, c))
  {
    forall i, j | 0 <= i < |x| && 0 <= j < c
      ensures MatMul(x, y, k, c)[i][j] == 0.0
    {
      SumOfZeros(RowCol(x, y, k, i, j));
    }
  }

  /** A product whose right factor is zero is zero, whatever the left factor. */
  lemma MatMulZeroRight(x: Matrix, y: Matrix, k: nat, c: nat)
    requires forall i :: 0 <= i < |x| ==> |x[i]| == k
    requires IsMatrix(y, k, c)
    requires IsZero(y)
    ensures IsZero(MatMul(x, y, k, c))
  {
    forall i, j | 0 <= i < |x| && 0 <= j < c
      ensures MatMul(x, y, k, c)[i][j] == 0.0
    {
      SumOfZeros(RowCol(x, y, k, i, j));
    }
  }

  /** `torch.multiply(x, y)` on two matrices of one shape. */
  function Hadamard(x: Matrix, y: Matrix): (z: Matrix)
    requires |x| == |y| && forall i :: 0 <= i < |x| ==> |x[i]| == |y[i]|
    ensures |z| == |x| && forall i :: 0 <= i < |x| ==> |z[i]| == |x[i]|
  {
    seq(|x|, i requires 0 <= i < |x| => seq(|x[i]|, j requires 0 <= j < |x[i]| => x[i][j] * y[i][j]))
  }

  /** `x + y` on two matrices of one shape. */
  function Add(x: Matrix, y: Matrix): (z: Matrix)
    requires |x| == |y| && forall i :: 0 <= i < |x| ==> |x[i]| == |y[i]|
    ensures |z| == |x| && forall i :: 0 <= i < |x| ==> |z[i]| == |x[i]|
  {
    seq(|x|, i requires 0 <= i < |x| => seq(|x[i]|, j requires 0 <= j < |x[i]| => x[i][j] + y[i][j]))
  }

  /** An element-wise activation such as `torch.sigmoid`. */
  function Apply(f: real -> real, m: Matrix): (z: Matrix)
    ensures |z| == |m| && forall i :: 0 <= i < |m| ==> |z[i]| == |m[i]|
  {
    seq(|m|, i requires 0 <= i < |m| => seq(|m[i]|, j requires 0 <= j < |m[i]| => f(m[i][j])))
  }

  /** The row-major storage order of a matrix: its rows one after another. */
  function Flatten(m: Matrix): seq<real> {
    if |m| == 0 then [] else m[0] + Flatten(m[1..])
  }

  /** `numel()` of a matrix. */
  function Numel(m: Matrix): nat {
    |Flatten(m)|
  }

  lemma {:induction false} NumelOfMatrix(m: Matrix, rows: nat, cols: nat)
    requires IsMatrix(m, rows, cols)
    ensures Numel(m) == rows * cols
  {
    if rows > 0 {
      NumelOfMatrix(m[1..], rows - 1, cols);
      assert rows * cols == cols + (rows - 1) * cols;
    }
  }

  /** Entry `(i, j)` of a `rows`-by-`cols` matrix sits at offset `i*cols + j`
      of its row-major storage. */
  lemma {:induction false} FlattenIndex(m: Matrix, rows: nat, cols: nat, i: nat, j: nat)
    requires IsMatrix(m, rows, cols)
    requires i < rows && j < cols
    ensures i * cols + j < |Flatten(m)|
    ensures Flatten(m)[i * cols + j] == m[i][j]
  {
    assert Flatten(m) == m[0] + Flatten(m[1..]);
    if i > 0 {
      FlattenIndex(m[1..], rows - 1, cols, i - 1, j);
      RowOffsetShift(i, cols, j);
    }
  }

  /** Skipping one row of `cols` entries moves a row-major offset back by `cols`. */
  lemma RowOffsetShift(i: nat, cols: nat, j: nat)
    requires i > 0
    ensures i * cols + j == cols + ((i - 1) * cols + j)
  {
  }

  /** `a*B + b` stays below `A*B` when `a < A` and `b < B`. */
  lemma MulAddBound(a: nat, b: nat, A: nat, B: nat)
    requires a < A && b < B
    ensures a * B + b < A * B
  {
    assert (a + 1) * B <= A * B;
  }

  /** The row-major offset of index `(i, k, z, j)` in a tensor of shape
      `(s0, s1, s2, s3)`. */
  function Offset4(s1: nat, s2: nat, s3: nat, i: nat, k: nat, z: nat, j: nat): nat {
    ((i * s1 + k) * s2 + z) * s3 + j
  }

  lemma Offset4Bound(s0: nat, s1: nat, s2: nat, s3: nat, i: nat, k: nat, z: nat, j: nat)
    requires i < s0 && k < s1 && z < s2 && j < s3
    ensures Offset4(s1, s2, s3, i, k, z, j) < s0 * s1 * s2 * s3
  {
    MulAddBound(i, k, s0, s1);
    MulAddBound(i * s1 + k, z, s0 * s1, s2);
    MulAddBound((i * s1 + k) * s2 + z, j, s0 * s1 * s2, s3);
  }

  type Tensor4 = seq<seq<seq<seq<real>>>>

  /** `reshape(s0, s1, s2, s3)` of row-major storage `data`: entry
      `(i, k, z, j)` of the result is element `Offset4(...)` of `data`. */
  function Reshape4(data: seq<real>, s0: nat, s1: nat, s2: nat, s3: nat): (t: Tensor4)
    requires |data| == s0 * s1 * s2 * s3
    ensures |t| == s0
    ensures forall i :: 0 <= i < s0 ==> |t[i]| == s1
    ensures forall i, k :: 0 <= i < s0 && 0 <= k < s1 ==> IsMatrix(t[i][k], s2, s3)
  {
    seq(s0, i requires 0 <= i < s0 =>
      seq(s1, k requires 0 <= k < s1 =>
        seq(s2, z requires 0 <= z < s2 =>
          seq(s3, j requires 0 <= j < s3 =>
            Offset4Bound(s0, s1, s2, s3, i, k, z, j);
            data[Offset4(s1, s2, s3, i, k, z, j)]))))
  }
}

=== FILE: results.dfy ===
/** Failure-compatible wrappers used by every other module: a value that may
    be absent (a Python `None`) and a computation that may raise. */
module Results {

  /** `None` models Python's `None`; `Some` carries a present value. */
  datatype Option<+T> = None | Some(value: T)

  /** `Failure` models a raised exception, `Success` a normal return. Usable
      with `:-`, so a failing step aborts the rest of the computation exactly
      as an uncaught exception does. */
  datatype Result<+T, +E> = Success(value: T) | Failure(error: E) {

    predicate IsFailure() {
      Failure?
    }

    function PropagateFailure<U>(): Result<U, E>
      requires Failure?
    {
      Failure(error)
    }

    function Extract(): T
      requires Success?
    {
      value
    }
  }
}

=== FILE: sampling.dfy ===
/** `sample` of `train.py`: feed a prime string through a model one symbol
    at a time, then let the model continue from its own predictions.

    The model's `predict` (top-k sampling on a recurrent state) is a
    parameter: a function from an input index and a state to an output
    index and the next state. */
module Sampling {
  import opened Results
  import opened Tokenizer

  datatype SampleError =
    | Tokenizing(e: TokenizerError<char>)
      /** The prime was empty, so no prediction exists to decode
          (`output_id` is unbound). */
    | NoPrediction

  /** Feed the prime's symbols in order, keeping the last output index. */
  function Prime<S>(t: CharacterTokenizer<char>, predict: (int, S) -> (int, S), s: S, prime: string, last: Option<int>)
    : (r: Result<(Option<int>, S), SampleError>)
    requires Valid(t)
    ensures r.Success? && |prime| > 0 ==> r.value.0.Some?
    ensures r.Success? && |prime| == 0 ==> r.value == (last, s)
    ensures r.Failure? <==> exists k :: 0 <= k < |prime| && prime[k] !in t.tokens
    ensures r.Failure? ==> r.error.Tokenizing?
    decreases |prime|
  {
    if |prime| == 0 then Success((last, s))
    else
      var ix := CharToIx(t, prime[0]);
      if ix.Failure? then Failure(Tokenizing(ix.error))
      else
        var r := Prime(t, predict, predict(ix.value, s).1, prime[1..], Some(predict(ix.value, s).0));
        assert forall k :: 1 <= k < |prime| ==> prime[k] == prime[1..][k - 1];
        r
  }

  /** Decode `id`, then `n` more times: re-encode the last symbol, predict,
      and decode the prediction. */
  function Generate<S>(t: CharacterTokenizer<char>, predict: (int, S) -> (int, S), id: int, s: S, n: nat)
    : (r: Result<string, SampleError>)
    requires Valid(t)
    ensures r.Success? ==> |r.value| == n + 1 && IndexToSymbol(t, id) == Success(r.value[0])
    decreases n
  {
    var c := IndexToSymbol(t, id);
    if c.Failure? then Failure(Tokenizing(c.error))
    else if n == 0 then Success([c.value])
    else
      DecodedReencodes(t, id);
      var out := predict(CharToIx(t, c.value).value, s);
      var rest := Generate(t, predict, out.0, out.1, n - 1);
      if rest.Failure? then Failure(rest.error) else Success([c.value] + rest.value)
  }

  /** A decoded index is registered, and encoding its symbol gives it back. */
  lemma DecodedReencodes(t: CharacterTokenizer<char>, id: int)
    requires Valid(t)
    requires IndexToSymbol(t, id).Success?
    ensures CharToIx(t, IndexToSymbol(t, id).value) == Success(id)
  {
  }

  /** The same continuation when the model is fed the predicted index itself. */
  function GenerateById<S>(t: CharacterTokenizer<char>, predict: (int, S) -> (int, S), id: int, s: S, n: nat)
    : (r: Result<string, SampleError>)
    decreases n
  {
    var c := IndexToSymbol(t, id);
    if c.Failure? then Failure(Tokenizing(c.error))
    else if n == 0 then Success([c.value])
    else
      var out := predict(id, s);
      var rest := GenerateById(t, predict, out.0, out.1, n - 1);
      if rest.Failure? then Failure(rest.error) else Success([c.value] + rest.value)
  }

  /** Re-encoding a decoded prediction gives the prediction back, so the
      model is fed exactly the indices it produced. */
  lemma {:induction false} ReencodingIsIdentity<S>(t: CharacterTokenizer<char>, predict: (int, S) -> (int, S), id: int, s: S, n: nat)
    requires Valid(t)
    ensures Generate(t, predict, id, s, n) == GenerateById(t, predict, id, s, n)
    decreases n
  {
    if id in t.ixToChar && n > 0 {
      DecodedReencodes(t, id);
      var out := predict(id, s);
      ReencodingIsIdentity(t, predict, out.0, out.1, n - 1);
    }
  }

  /** `result` with `p` put in front of a successful string. */
  function Prepend(p: string, result: Result<string, SampleError>): Result<string, SampleError> {
    if result.Failure? then result else Success(p + result.value)
  }

  /** The string `sample(model, tokenizer, size, prime)` returns, or why it raises. */
  function SampleOf<S>(t: CharacterTokenizer<char>, predict: (int, S) -> (int, S), s0: S, size: int, prime: string)
    : (r: Result<string, SampleError>)
    requires Valid(t)
    ensures |prime| == 0 ==> r == Failure(NoPrediction)
    ensures r.Success? ==>
              && |r.value| == |prime| + (if size < 0 then 0 else size) + 1
              && r.value[..|prime|] == prime
    ensures (exists k :: 0 <= k < |prime| && prime[k] !in t.tokens) ==> r.Failure? && r.error.Tokenizing?
  {
    var fed := Prime(t, predict, s0, prime, None);
    if fed.Failure? then Failure(fed.error)
    else if fed.value.0.None? then Failure(NoPrediction)
    else Prepend(prime, Generate(t, predict, fed.value.0.value, fed.value.1, if size < 0 then 0 else size))
  }

  /** The call `train` makes after every epoch, `sample(size=100,
      prime='The')`, raises whenever one of `T`, `h`, `e` is not a token of
      the vocabulary, whatever the model predicts. */
  lemma ThePrimeNeedsItsSymbols<S>(t: CharacterTokenizer<char>, predict: (int, S) -> (int, S), s0: S)
    requires Valid(t)
    requires 'T' !in t.tokens || 'h' !in t.tokens || 'e' !in t.tokens
    ensures SampleOf(t, predict, s0, 100, "The").Failure?
    ensures SampleOf(t, predict, s0, 100, "The").error.Tokenizing?
  {
    var prime := "The";
    assert prime[0] == 'T' && prime[1] == 'h' && prime[2] == 'e';
    assert exists k :: 0 <= k < |prime| && prime[k] !in t.tokens;
  }

  /** `sample`. `calls` counts the calls to `predict`. */
  method Sample<S>(t: CharacterTokenizer<char>, predict: (int, S) -> (int, S), s0: S, size: int, prime: string)
    returns (r: Result<string, SampleError>, calls: nat)
    requires Valid(t)
    ensures r == SampleOf(t, predict, s0, size, prime)
    ensures r.Success? ==> calls == |prime| + (if size < 0 then 0 else size)
  {
    var fed;
    fed, calls := FeedPrime(t, predict, s0, prime);
    if fed.Failure? {
      return Failure(fed.error), calls;
    }
    var (last, s) := fed.value;
    if last.None? {
      return Failure(NoPrediction), calls;
    }
    var more;
    r, more := Continue(t, predict, last.value, s, if size < 0 then 0 else size, prime);
    calls := calls + more;
  }

  /** The first loop of `sample`: one prediction per prime symbol. */
  method FeedPrime<S>(t: CharacterTokenizer<char>, predict: (int, S) -> (int, S), s0: S, prime: string)
    returns (r: Result<(Option<int>, S), SampleError>, calls: nat)
    requires Valid(t)
    ensures r == Prime(t, predict, s0, prime, None)
    ensures r.Success? ==> calls == |prime|
  {
    var s := s0;
    var last: Option<int> := None;
    var i := 0;
    calls := 0;
    while i < |prime|
      invariant 0 <= i <= |prime|
      invariant Prime(t, predict, s0, prime, None) == Prime(t, predict, s, prime[i..], last)
      invariant calls == i
    {
      assert prime[i..][0] == prime[i] && prime[i..][1..] == prime[i + 1..];
      var ix := CharToIx(t, prime[i]);
      if ix.Failure? {
        return Failure(Tokenizing(ix.error)), calls;
      }
      var out := predict(ix.value, s);
      last, s := Some(out.0), out.1;
      calls, i := calls + 1, i + 1;
    }
    return Success((last, s)), calls;
  }

  /** The decoding of the last prime prediction and the second loop of
      `sample`: `n` more predictions, each fed the symbol appended last. */
  method Continue<S>(t: CharacterTokenizer<char>, predict: (int, S) -> (int, S), o0: int, s0: S, n: nat, prime: string)
    returns (r: Result<string, SampleError>, calls: nat)
    requires Valid(t)
    ensures r == Prepend(prime, Generate(t, predict, o0, s0, n))
    ensures r.Success? ==> calls == n
  {
    calls := 0;
    var c := IndexToSymbol(t, o0);
    if c.Failure? {
      return Failure(Tokenizing(c.error)), calls;
    }
    // `chars` of the source is `done + [cur]`.
    var done, cur := prime, c.value;
    var o, s := o0, s0;
    var k := 0;
    while k < n
      invariant 0 <= k <= n
      invariant |done| == |prime| + k
      invariant IndexToSymbol(t, o) == Success(cur)
      invariant Prepend(prime, Generate(t, predict, o0, s0, n)) == Prepend(done, Generate(t, predict, o, s, n - k))
      invariant calls == k
    {
      GenerateStep(t, predict, o, s, n - k, done, cur);
      var ix := CharToIx(t, cur).value;
      var out := predict(ix, s);
      o, s := out.0, out.1;
      c := IndexToSymbol(t, o);
      if c.Failure? {
        return Failure(Tokenizing(c.error)), calls;
      }
      done, cur := done + [cur], c.value;
      calls, k := calls + 1, k + 1;
    }
    assert Generate(t, predict, o, s, 0) == Success([cur]);
    return Success(done + [cur]), calls;
  }

  /** One iteration of the generation loop: the pending continuation from
      `id` is its decoded symbol `cur` followed by the continuation from the
      prediction for `cur`'s index, which is `id` again. */
  lemma GenerateStep<S>(t: CharacterTokenizer<char>, predict: (int, S) -> (int, S), id: int, s: S, n: nat, done: string, cur: char)
    requires Valid(t)
    requires n > 0
    requires IndexToSymbol(t, id) == Success(cur)
    ensures CharToIx(t, cur) == Success(id)
    ensures var out := predict(id, s);
            var c := IndexToSymbol(t, out.0);
            && Prepend(done, Generate(t, predict, id, s, n)) == Prepend(done + [cur], Generate(t, predict, out.0, out.1, n - 1))
            && (c.Failure? ==> Generate(t, predict, out.0, out.1, n - 1) == Failure(Tokenizing(c.error)))
  {
    DecodedReencodes(t, id);
    var out := predict(id, s);
    var rest := Generate(t, predict, out.0, out.1, n - 1);
    if rest.Success? {
      assert done + ([cur] + rest.value) == done + [cur] + rest.value;
    }
  }
}

=== FILE: selection.dfy ===
/** Experiment selection for the hidden-size plot of
    `cprnn/visualization/bpc_vs_hidden.py`: the recursive config filter
    `satisfies_conditions`, the dotted-path lookup `get_leaf_value`, and the
    accumulation of accepted experiments into groups of four parallel lists. */
module Selection {
  import opened Results
  import opened ConfigTree

  /** What the plot script can raise: a failed subscript, `.items()` on a
      value that is not a dict, or hashing a group name that holds a list
      or a dict. */
  datatype SelectionError = Lookup(e: LookupError) | NotAMapping | Unhashable

  /** The default and only catch-all the script passes: the string `'any'`. */
  const AnyCatchall: Val := StrVal("any")

  /** Experiments whose best checkpoint is from an earlier epoch are skipped. */
  const MinEpochs: int := 2

  /** The check of one non-dict entry of `root_a` against `root_b`'s value:
      a list is a set of alternatives, anything else must be equal or be the
      catch-all. */
  predicate LeafPasses(value: Val, bv: Val, catchall: Val) {
    if bv.List? then Member(value, bv.items) else Eq(value, bv) || Eq(bv, catchall)
  }

  /** `satisfies_conditions(root_a, root_b, catchall)`. */
  function Satisfies(a: Val, b: Val, catchall: Val): Result<bool, SelectionError>
    decreases a, 2
  {
    if !a.Dict? then Failure(NotAMapping) else SatisfiesFrom(a, b, catchall, 0)
  }

  /** The loop over `root_a.items()` from entry `i` on: the first entry that
      fails or raises decides. */
  function SatisfiesFrom(a: Val, b: Val, catchall: Val, i: nat): Result<bool, SelectionError>
    requires a.Dict? && i <= |a.entries|
    decreases a, 1, |a.entries| - i
  {
    if i == |a.entries| then Success(true)
    else
      var ok :- EntryCheck(a, b, catchall, i);
      if !ok then Success(false) else SatisfiesFrom(a, b, catchall, i + 1)
  }

  /** The body of the loop for entry `i`: `root_b[key]` is read first; a dict
      value recurses with the default catch-all. */
  function EntryCheck(a: Val, b: Val, catchall: Val, i: nat): Result<bool, SelectionError>
    requires a.Dict? && i < |a.entries|
    decreases a, 0
  {
    var key := a.entries[i].0;
    var value := a.entries[i].1;
    assert a.entries[i] in a.entries;
    match Index(b, key)
    case Failure(e) => Failure(Lookup(e))
    case Success(bv) =>
      if value.Dict? then Satisfies(value, bv, AnyCatchall) else Success(LeafPasses(value, bv, catchall))
  }

  /** Every entry in `[i, j)` passes. */
  predicate PassUntil(a: Val, b: Val, catchall: Val, i: nat, j: nat)
    requires a.Dict? && i <= j <= |a.entries|
  {
    forall l :: i <= l < j ==> EntryCheck(a, b, catchall, l) == Success(true)
  }

  /** The loop's outcome from entry `i` as a statement about its entries:
      true iff every entry passes, and otherwise the outcome (false or an
      exception) of the first entry that does not pass. */
  predicate OutcomeByEntries(a: Val, b: Val, catchall: Val, i: nat)
    requires a.Dict? && i <= |a.entries|
  {
    && (SatisfiesFrom(a, b, catchall, i) == Success(true) <==> PassUntil(a, b, catchall, i, |a.entries|))
    && forall j :: i <= j < |a.entries| && PassUntil(a, b, catchall, i, j) && EntryCheck(a, b, catchall, j) != Success(true) ==>
         SatisfiesFrom(a, b, catchall, i) == EntryCheck(a, b, catchall, j)
  }

  lemma {:induction false} SatisfiesFromMeaning(a: Val, b: Val, catchall: Val, i: nat)
    requires a.Dict? && i <= |a.entries|
    ensures OutcomeByEntries(a, b, catchall, i)
    decreases |a.entries| - i
  {
    if i < |a.entries| {
      if EntryCheck(a, b, catchall, i) == Success(true) {
        SatisfiesFromMeaning(a, b, catchall, i + 1);
        OutcomeAfterPass(a, b, catchall, i);
      } else {
        OutcomeAtStop(a, b, catchall, i);
      }
    }
  }

  /** A passing entry defers the outcome to the entries after it. */
  lemma OutcomeAfterPass(a: Val, b: Val, catchall: Val, i: nat)
    requires a.Dict? && i < |a.entries|
    requires EntryCheck(a, b, catchall, i) == Success(true)
    requires OutcomeByEntries(a, b, catchall, i + 1)
    ensures OutcomeByEntries(a, b, catchall, i)
  {
    var n := |a.entries|;
    assert SatisfiesFrom(a, b, catchall, i) == SatisfiesFrom(a, b, catchall, i + 1);
    forall j | i < j <= n
      ensures PassUntil(a, b, catchall, i, j) == PassUntil(a, b, catchall, i + 1, j)
    {
      PassShift(a, b, catchall, i, j);
    }
  }

  lemma PassShift(a: Val, b: Val, catchall: Val, i: nat, j: nat)
    requires a.Dict? && i < j <= |a.entries|
    requires EntryCheck(a, b, catchall, i) == Success(true)
    ensures PassUntil(a, b, catchall, i, j) == PassUntil(a, b, catchall, i + 1, j)
  {
  }

  /** An entry that fails or raises decides the outcome. */
  lemma OutcomeAtStop(a: Val, b: Val, catchall: Val, i: nat)
    requires a.Dict? && i < |a.entries|
    requires EntryCheck(a, b, catchall, i) != Success(true)
    ensures OutcomeByEntries(a, b, catchall, i)
  {
    assert !PassUntil(a, b, catchall, i, |a.entries|);
    forall j | i <= j < |a.entries| && PassUntil(a, b, catchall, i, j)
      ensures j == i
    {
    }
  }

  /** An empty `root_a` is satisfied by anything; otherwise the outcome is
      decided entry by entry in `root_a`'s order. */
  lemma SatisfiesMeaning(a: Val, b: Val, catchall: Val)
    requires a.Dict?
    ensures a.entries == [] ==> Satisfies(a, b, catchall) == Success(true)
    ensures Satisfies(a, b, catchall) == Success(true) <==> PassUntil(a, b, catchall, 0, |a.entries|)
    ensures forall j :: 0 <= j < |a.entries| && PassUntil(a, b, catchall, 0, j) && EntryCheck(a, b, catchall, j) != Success(true) ==>
              Satisfies(a, b, catchall) == EntryCheck(a, b, catchall, j)
  {
    SatisfiesFromMeaning(a, b, catchall, 0);
  }

  /** A key of `root_a` that `root_b` lacks never lets the filter say yes. */
  lemma MissingKeyNeverSatisfies(a: Val, b: Val, catchall: Val, j: nat)
    requires a.Dict? && j < |a.entries|
    requires !(b.Dict? && HasKey(b.entries, a.entries[j].0))
    ensures Satisfies(a, b, catchall) != Success(true)
  {
    SatisfiesMeaning(a, b, catchall);
    assert EntryCheck(a, b, catchall, j).Failure?;
  }

  /** A nested dict is checked with the default catch-all `'any'`, whatever
      catch-all the caller passed. */
  lemma NestedIgnoresCatchall(a: Val, b: Val, c1: Val, c2: Val, i: nat)
    requires a.Dict? && i < |a.entries|
    requires a.entries[i].1.Dict?
    ensures EntryCheck(a, b, c1, i) == EntryCheck(a, b, c2, i)
  {
  }

  /** The catch-all is honoured at the top level but not one dict down:
      `{"k": 1}` passes `{"k": "*"}` with catch-all `"*"`, while
      `{"m": {"k": 1}}` fails `{"m": {"k": "*"}}` with the same catch-all. */
  lemma CatchallOnlyAtTopLevel()
    ensures var inner := Dict([("k", Leaf(Int(1)))]);
            var pattern := Dict([("k", StrVal("*"))]);
            && Satisfies(inner, pattern, StrVal("*")) == Success(true)
            && Satisfies(Dict([("m", inner)]), Dict([("m", pattern)]), StrVal("*")) == Success(false)
  {
    var inner := Dict([("k", Leaf(Int(1)))]);
    var pattern := Dict([("k", StrVal("*"))]);
    assert Index(pattern, "k") == Success(StrVal("*"));
    assert Index(Dict([("m", pattern)]), "m") == Success(pattern);
    assert |"*"| != |"any"|;
    assert !LeafPasses(Leaf(Int(1)), StrVal("*"), AnyCatchall);
    assert EntryCheck(inner, pattern, AnyCatchall, 0) == Success(false);
    assert Satisfies(inner, pattern, AnyCatchall) == Success(false);
    assert EntryCheck(Dict([("m", inner)]), Dict([("m", pattern)]), StrVal("*"), 0) == Success(false);
  }

  /** No list anywhere in `v`. */
  predicate NoLists(v: Val)
    decreases v
  {
    match v
    case Leaf(_) => true
    case List(_) => false
    case Dict(es) => forall i :: 0 <= i < |es| ==> NoLists(es[i].1)
  }

  /** A list-free config satisfies itself, under any catch-all. */
  lemma {:induction false} SelfSatisfies(a: Val, catchall: Val)
    requires a.Dict? && UniqueKeys(a) && NoLists(a)
    ensures Satisfies(a, a, catchall) == Success(true)
    decreases a, 1
  {
    SelfSatisfiesFrom(a, a.entries, catchall, 0);
  }

  lemma {:induction false} SelfSatisfiesFrom(a: Val, es: seq<(string, Val)>, catchall: Val, i: nat)
    requires a == Dict(es) && UniqueKeys(a) && NoLists(a) && i <= |es|
    ensures SatisfiesFrom(a, a, catchall, i) == Success(true)
    decreases a, 0, |es| - i
  {
    if i < |es| {
      var value := es[i].1;
      assert es[i] in es;
      GetUnique(es, i);
      assert Index(a, es[i].0) == Success(value);
      if value.Dict? {
        SelfSatisfies(value, AnyCatchall);
      } else {
        EqReflexive(value);
      }
      SelfSatisfiesFrom(a, es, catchall, i + 1);
    }
  }

  /** A list value is read as a set of alternatives, so a config holding a
      list does not satisfy itself: `[1, 2] in [1, 2]` is false. */
  lemma ListValuedSelfFails()
    ensures var a := Dict([("h", List([Leaf(Int(1)), Leaf(Int(2))]))]);
            Satisfies(a, a, AnyCatchall) == Success(false)
  {
    var xs := List([Leaf(Int(1)), Leaf(Int(2))]);
    var a := Dict([("h", xs)]);
    assert Index(a, "h") == Success(xs);
    assert !Eq(xs, xs.items[0]) && !Eq(xs, xs.items[1]);
  }

  /** `str.split(sep)`: the maximal runs between separators, always at
      least one (possibly empty) part. */
  function Split(s: string, sep: char): (parts: seq<string>)
    ensures |parts| >= 1
    decreases |s|
  {
    if |s| == 0 then [""] else SplitCons(s[0], Split(s[1..], sep), sep)
  }

  /** The parts of `[c] + s` from the parts of `s`: a separator opens a new
      empty first part, any other character joins the first part. */
  function SplitCons(c: char, parts: seq<string>, sep: char): (r: seq<string>)
    requires |parts| >= 1
    ensures |r| >= 1
  {
    if c == sep then [""] + parts else [[c] + parts[0]] + parts[1..]
  }

  lemma SplitConsAppend(c: char, xs: seq<string>, ys: seq<string>, sep: char)
    requires |xs| >= 1
    ensures SplitCons(c, xs + ys, sep) == SplitCons(c, xs, sep) + ys
  {
    if c != sep {
      assert (xs + ys)[1..] == xs[1..] + ys;
    }
  }

  /** `sep.join(parts)`. */
  function Join(parts: seq<string>, sep: char): string
    requires |parts| >= 1
  {
    if |parts| == 1 then parts[0] else parts[0] + [sep] + Join(parts[1..], sep)
  }

  /** Splitting loses nothing: joining the parts gives the string back, and
      no part holds the separator. */
  lemma {:induction false} SplitJoin(s: string, sep: char)
    ensures Join(Split(s, sep), sep) == s
    ensures forall k :: 0 <= k < |Split(s, sep)| ==> sep !in Split(s, sep)[k]
    decreases |s|
  {
    if |s| > 0 {
      SplitJoin(s[1..], sep);
      var rest := Split(s[1..], sep);
      if s[0] == sep {
        assert Split(s, sep)[1..] == rest;
      } else {
        var parts := Split(s, sep);
        assert parts[1..] == rest[1..];
        if |rest| > 1 {
          assert Join(rest, sep) == rest[0] + [sep] + Join(rest[1..], sep);
        }
        assert s == [s[0]] + s[1..];
      }
    }
  }

  /** A separator splits the string into the parts before it and after it. */
  lemma {:induction false} SplitAppend(p: string, q: string, sep: char)
    ensures Split(p + [sep] + q, sep) == Split(p, sep) + Split(q, sep)
    decreases |p|
  {
    var s := p + [sep] + q;
    if |p| == 0 {
      assert s[0] == sep && s[1..] == q;
    } else {
      assert s[0] == p[0] && s[1..] == p[1..] + [sep] + q;
      SplitAppend(p[1..], q, sep);
      SplitConsAppend(p[0], Split(p[1..], sep), Split(q, sep), sep);
    }
  }

  /** A string without the separator is one part. */
  lemma {:induction false} SplitPlain(s: string, sep: char)
    requires sep !in s
    ensures Split(s, sep) == [s]
    decreases |s|
  {
    if |s| > 0 {
      SplitPlain(s[1..], sep);
      assert s == [s[0]] + s[1..];
    }
  }

  /** `get_leaf_value(root, addr_string)`. Python walks a deep copy of
      `root`; the model is pure, so `root` is untouched by construction. */
  function GetLeafValue(root: Val, addr: string): Result<Val, LookupError> {
    Walk(root, Split(addr, '.'))
  }

  /** A key without dots is a single subscript. */
  lemma GetLeafValueSingle(root: Val, key: string)
    requires '.' !in key
    ensures GetLeafValue(root, key) == Index(root, key)
  {
    SplitPlain(key, '.');
    assert [key][1..] == [];
    match Index(root, key)
    case Success(w) =>
      assert Walk(w, []) == Success(w);
      assert Walk(root, [key]) == Walk(w, []);
    case Failure(e) =>
      assert Walk(root, [key]) == Failure(e);
  }

  /** A dotted path is the lookup of its tail in the value of its head. */
  lemma GetLeafValueDotted(root: Val, p: string, q: string)
    ensures GetLeafValue(root, p + "." + q) == WalkOn(GetLeafValue(root, p), Split(q, '.'))
    ensures GetLeafValue(root, p).Success? ==>
              GetLeafValue(root, p + "." + q) == GetLeafValue(GetLeafValue(root, p).value, q)
    ensures GetLeafValue(root, p).Failure? ==>
              GetLeafValue(root, p + "." + q) == Failure(GetLeafValue(root, p).error)
  {
    SplitAppend(p, q, '.');
    WalkAppend(root, Split(p, '.'), Split(q, '.'));
  }

  /** One loaded experiment: its `configs.yaml` and the fields read from its
      `model_best.pth`. */
  datatype Experiment = Experiment(config: Val, epoch: int, bpc: real, rank: Val, hidden: Val, modelName: Val)

  /** The four parallel lists of a group: rank, bpc, hidden size, model name. */
  datatype Group = Group(ranks: seq<Val>, bpcs: seq<real>, hiddens: seq<Val>, names: seq<Val>)

  /** `groups`, in insertion order: group name tuple and its lists. */
  type Groups = seq<(seq<Val>, Group)>

  predicate Balanced(g: Group) {
    |g.bpcs| == |g.ranks| && |g.hiddens| == |g.ranks| && |g.names| == |g.ranks|
  }

  predicate AllBalanced(gs: Groups) {
    forall i :: 0 <= i < |gs| ==> Balanced(gs[i].1)
  }

  /** The number of experiments recorded across all groups. */
  function Total(gs: Groups): nat {
    if |gs| == 0 then 0 else Total(gs[..|gs| - 1]) + |gs[|gs| - 1].1.ranks|
  }

  /** Python `==` on two group name tuples. */
  predicate KeyEq(k1: seq<Val>, k2: seq<Val>) {
    |k1| == |k2| && forall i :: 0 <= i < |k1| ==> Eq(k1[i], k2[i])
  }

  /** No two groups have equal names, as for the keys of a Python dict. */
  predicate DistinctNames(gs: Groups) {
    forall i, j :: 0 <= i < j < |gs| ==> !KeyEq(gs[i].0, gs[j].0)
  }

  /** A tuple can be a dict key only if it holds no list or dict. */
  predicate Hashable(key: seq<Val>) {
    forall i :: 0 <= i < |key| ==> key[i].Leaf?
  }

  /** The experiment passes the filter and was trained long enough. The
      epoch is only looked at when the filter passes. */
  function Accepted(args: Val, e: Experiment): Result<bool, SelectionError> {
    var ok :- Satisfies(e.config, args, AnyCatchall);
    Success(ok && e.epoch >= MinEpochs)
  }

  /** Attribute `k` is the first of `attrs` whose lookup in `cfg` fails, and it fails with `e`. */
  predicate FailsFirstAt(cfg: Val, attrs: seq<string>, k: int, e: LookupError) {
    && 0 <= k < |attrs|
    && GetLeafValue(cfg, attrs[k]) == Failure(e)
    && forall j :: 0 <= j < k ==> GetLeafValue(cfg, attrs[j]).Success?
  }

  /** The values of `attrs` in `cfg`, in order; the first failed lookup raises. */
  function LeafValues(cfg: Val, attrs: seq<string>): (r: Result<seq<Val>, SelectionError>)
    ensures r.Success? <==> forall k :: 0 <= k < |attrs| ==> GetLeafValue(cfg, attrs[k]).Success?
    ensures r.Success? ==> |r.value| == |attrs|
    ensures r.Success? ==> forall k :: 0 <= k < |attrs| ==> GetLeafValue(cfg, attrs[k]) == Success(r.value[k])
    ensures r.Failure? ==> r.error.Lookup? && exists k :: FailsFirstAt(cfg, attrs, k, r.error.e)
  {
    if |attrs| == 0 then Success([])
    else
      match GetLeafValue(cfg, attrs[0])
      case Failure(e) =>
        assert FailsFirstAt(cfg, attrs, 0, e);
        Failure(Lookup(e))
      case Success(v) =>
        var rest := LeafValues(cfg, attrs[1..]);
        if rest.Failure? then
          FailsFirstShift(cfg, attrs, rest.error.e);
          Failure(rest.error)
        else
          assert forall k :: 1 <= k < |attrs| ==> attrs[k] == attrs[1..][k - 1];
          Success([v] + rest.value)
  }

  /** A first failure among all attributes but the first, after a first
      attribute that resolves, is the first failure among all of them. */
  lemma FailsFirstShift(cfg: Val, attrs: seq<string>, e: LookupError)
    requires |attrs| > 0 && GetLeafValue(cfg, attrs[0]).Success?
    requires exists k :: FailsFirstAt(cfg, attrs[1..], k, e)
    ensures exists k :: FailsFirstAt(cfg, attrs, k, e)
  {
    var k :| FailsFirstAt(cfg, attrs[1..], k, e);
    assert FailsFirstAt(cfg, attrs, k + 1, e) by {
      forall j | 0 <= j < k + 1 ensures GetLeafValue(cfg, attrs[j]).Success? {
        if j > 0 {
          assert attrs[j] == attrs[1..][j - 1];
        }
      }
    }
  }

  /** The models whose group name is their first `group_by` attribute alone:
      the loop over `group_by` breaks after its first iteration. */
  predicate ReadsFirstOnly(groupBy: seq<string>, modelName: Val) {
    |groupBy| > 0 && (Eq(modelName, StrVal("2rnn")) || Eq(modelName, StrVal("mirnnnew")))
  }

  /** The group name: for models named `2rnn` or `mirnnnew` only the first
      `group_by` attribute, for all others every attribute. */
  function GroupName(cfg: Val, groupBy: seq<string>, modelName: Val): (r: Result<seq<Val>, SelectionError>)
    ensures ReadsFirstOnly(groupBy, modelName) ==> (r.Success? <==> GetLeafValue(cfg, groupBy[0]).Success?)
    ensures ReadsFirstOnly(groupBy, modelName) && r.Success? ==>
              |r.value| == 1 && GetLeafValue(cfg, groupBy[0]) == Success(r.value[0])
    ensures ReadsFirstOnly(groupBy, modelName) && r.Failure? ==>
              r == Failure(Lookup(GetLeafValue(cfg, groupBy[0]).error))
    ensures !ReadsFirstOnly(groupBy, modelName) ==>
              (r.Success? <==> forall k :: 0 <= k < |groupBy| ==> GetLeafValue(cfg, groupBy[k]).Success?)
    ensures !ReadsFirstOnly(groupBy, modelName) && r.Success? ==>
              |r.value| == |groupBy|
                  && forall k :: 0 <= k < |groupBy| ==> GetLeafValue(cfg, groupBy[k]) == Success(r.value[k])
    ensures !ReadsFirstOnly(groupBy, modelName) && r.Failure? ==>
              r.error.Lookup? && exists k :: FailsFirstAt(cfg, groupBy, k, r.error.e)
  {
    if ReadsFirstOnly(groupBy, modelName) then
      match GetLeafValue(cfg, groupBy[0])
      case Failure(e) => Failure(Lookup(e))
      case Success(v) => Success([v])
    else
      LeafValues(cfg, groupBy)
  }

  /** For `2rnn` and `mirnnnew` the attributes after the first are never
      read: the group name is the one of `group_by[:1]`, so a missing later
      attribute never raises. */
  lemma LaterAttributesIgnored(cfg: Val, groupBy: seq<string>, modelName: Val)
    requires ReadsFirstOnly(groupBy, modelName)
    ensures GroupName(cfg, groupBy, modelName) == GroupName(cfg, groupBy[..1], modelName)
  {
    assert groupBy[..1][0] == groupBy[0];
  }

  /** The index of the group whose name equals `key`, if any. */
  function FindGroup(gs: Groups, key: seq<Val>): (r: Option<nat>)
    ensures r.Some? ==> r.value < |gs| && KeyEq(gs[r.value].0, key)
    ensures r.None? ==> forall i :: 0 <= i < |gs| ==> !KeyEq(gs[i].0, key)
  {
    if |gs| == 0 then None
    else if KeyEq(gs[0].0, key) then Some(0)
    else
      match FindGroup(gs[1..], key)
      case Some(i) => Some(i + 1)
      case None => None
  }

  /** Record `e` under `key`: append to the equal-named group, or open a
      new group at the end. */
  function Add(gs: Groups, key: seq<Val>, e: Experiment): (r: Groups)
    ensures FindGroup(gs, key).None? ==> |r| == |gs| + 1 && r[..|gs|] == gs && r[|gs|].0 == key
    ensures FindGroup(gs, key).None? ==> r[|gs|].1 == Group([e.rank], [e.bpc], [e.hidden], [e.modelName])
    ensures FindGroup(gs, key).Some? ==> |r| == |gs| && forall i :: 0 <= i < |gs| ==> r[i].0 == gs[i].0
    ensures FindGroup(gs, key).Some? ==>
              var g := gs[FindGroup(gs, key).value].1;
              r[FindGroup(gs, key).value].1 == Group(g.ranks + [e.rank], g.bpcs + [e.bpc], g.hiddens + [e.hidden], g.names + [e.modelName])
    ensures forall i :: 0 <= i < |gs| && Some(i) != FindGroup(gs, key) ==> r[i] == gs[i]
  {
    match FindGroup(gs, key)
    case None => gs + [(key, Group([e.rank], [e.bpc], [e.hidden], [e.modelName]))]
    case Some(i) =>
      var g := gs[i].1;
      gs[i := (gs[i].0, Group(g.ranks + [e.rank], g.bpcs + [e.bpc], g.hiddens + [e.hidden], g.names + [e.modelName]))]
  }

  /** One iteration of the loop over the experiment directories. */
  function Process(args: Val, groupBy: seq<string>, gs: Groups, e: Experiment): Result<Groups, SelectionError> {
    var ok :- Accepted(args, e);
    if !ok then Success(gs)
    else
      var key :- GroupName(e.config, groupBy, e.modelName);
      if !Hashable(key) then Failure(Unhashable) else Success(Add(gs, key, e))
  }

  /** The rest of the loop from `gs` on. */
  function GroupFrom(args: Val, groupBy: seq<string>, gs: Groups, exps: seq<Experiment>): Result<Groups, SelectionError>
    decreases |exps|
  {
    if |exps| == 0 then Success(gs)
    else
      var gs' :- Process(args, groupBy, gs, exps[0]);
      GroupFrom(args, groupBy, gs', exps[1..])
  }

  /** The number of experiments the filter accepts. */
  function AcceptedCount(args: Val, exps: seq<Experiment>): nat
    decreases |exps|
  {
    if |exps| == 0 then 0
    else (if Accepted(args, exps[0]) == Success(true) then 1 else 0) + AcceptedCount(args, exps[1..])
  }

  lemma {:induction false} TotalUpdate(gs: Groups, i: nat, g: (seq<Val>, Group))
    requires i < |gs|
    ensures Total(gs[i := g]) == Total(gs) - |gs[i].1.ranks| + |g.1.ranks|
    decreases |gs|
  {
    var n := |gs| - 1;
    if i < n {
      TotalUpdate(gs[..n], i, g);
      assert gs[i := g][..n] == gs[..n][i := g];
    } else {
      assert gs[i := g][..n] == gs[..n];
    }
  }

  /** Accepting an experiment adds exactly one entry to exactly one group and
      keeps the groups balanced and distinctly named. */
  lemma AddKeepsGroups(gs: Groups, key: seq<Val>, e: Experiment)
    requires AllBalanced(gs) && DistinctNames(gs) && Hashable(key)
    ensures AllBalanced(Add(gs, key, e)) && DistinctNames(Add(gs, key, e))
    ensures Total(Add(gs, key, e)) == Total(gs) + 1
  {
    match FindGroup(gs, key)
    case None => AddNewGroup(gs, key, e);
    case Some(i) => AddToGroup(gs, key, e, i);
  }

  lemma AddNewGroup(gs: Groups, key: seq<Val>, e: Experiment)
    requires AllBalanced(gs) && DistinctNames(gs)
    requires FindGroup(gs, key).None?
    ensures AllBalanced(Add(gs, key, e)) && DistinctNames(Add(gs, key, e))
    ensures Total(Add(gs, key, e)) == Total(gs) + 1
  {
    var r := Add(gs, key, e);
    assert r[..|r| - 1] == gs;
  }

  lemma AddToGroup(gs: Groups, key: seq<Val>, e: Experiment, i: nat)
    requires AllBalanced(gs) && DistinctNames(gs)
    requires FindGroup(gs, key) == Some(i)
    ensures AllBalanced(Add(gs, key, e)) && DistinctNames(Add(gs, key, e))
    ensures Total(Add(gs, key, e)) == Total(gs) + 1
  {
    var r := Add(gs, key, e);
    TotalUpdate(gs, i, r[i]);
    assert r == gs[i := r[i]];
  }

  /** The loop's invariant: balanced, distinctly named groups that have
      grown by one entry per accepted experiment. */
  lemma {:induction false} GroupFromKeepsGroups(args: Val, groupBy: seq<string>, gs: Groups, exps: seq<Experiment>)
    requires AllBalanced(gs) && DistinctNames(gs)
    ensures GroupFrom(args, groupBy, gs, exps).Success? ==>
              var r := GroupFrom(args, groupBy, gs, exps).value;
              AllBalanced(r) && DistinctNames(r) && Total(r) == Total(gs) + AcceptedCount(args, exps)
    decreases |exps|
  {
    if |exps| > 0 {
      var e := exps[0];
      var step := Process(args, groupBy, gs, e);
      if step.Success? {
        if Accepted(args, e) == Success(true) {
          var key := GroupName(e.config, groupBy, e.modelName).value;
          AddKeepsGroups(gs, key, e);
        }
        GroupFromKeepsGroups(args, groupBy, step.value, exps[1..]);
      }
    }
  }

  /** `e` is accepted and its group name equals `key`. */
  predicate InGroup(args: Val, groupBy: seq<string>, e: Experiment, key: seq<Val>) {
    && Accepted(args, e) == Success(true)
    && GroupName(e.config, groupBy, e.modelName).Success?
    && KeyEq(GroupName(e.config, groupBy, e.modelName).value, key)
  }

  /** The accepted experiments of `exps` whose group name equals `key`, in order. */
  function Members(args: Val, groupBy: seq<string>, exps: seq<Experiment>, key: seq<Val>): seq<Experiment>
    decreases |exps|
  {
    if |exps| == 0 then []
    else
      var last := exps[|exps| - 1];
      Members(args, groupBy, exps[..|exps| - 1], key) + (if InGroup(args, groupBy, last, key) then [last] else [])
  }

  /** The four lists of a group holding the experiments `ms`, in order. */
  function GroupOf(ms: seq<Experiment>): (g: Group)
    ensures Balanced(g) && |g.ranks| == |ms|
  {
    Group(seq(|ms|, j requires 0 <= j < |ms| => ms[j].rank),
          seq(|ms|, j requires 0 <= j < |ms| => ms[j].bpc),
          seq(|ms|, j requires 0 <= j < |ms| => ms[j].hidden),
          seq(|ms|, j requires 0 <= j < |ms| => ms[j].modelName))
  }

  lemma GroupOfSnoc(ms: seq<Experiment>, e: Experiment)
    ensures var g := GroupOf(ms);
            GroupOf(ms + [e]) == Group(g.ranks + [e.rank], g.bpcs + [e.bpc], g.hiddens + [e.hidden], g.names + [e.modelName])
  {
    var g, g' := GroupOf(ms), GroupOf(ms + [e]);
    assert g'.ranks == g.ranks + [e.rank];
    assert g'.bpcs == g.bpcs + [e.bpc];
    assert g'.hiddens == g.hiddens + [e.hidden];
    assert g'.names == g.names + [e.modelName];
  }

  predicate NamesHashable(gs: Groups) {
    forall i :: 0 <= i < |gs| ==> Hashable(gs[i].0)
  }

  /** Every accepted experiment of `seen` has a hashable group name equal
      to the name of some group of `gs`. */
  predicate Covered(args: Val, groupBy: seq<string>, seen: seq<Experiment>, gs: Groups) {
    forall p :: 0 <= p < |seen| && Accepted(args, seen[p]) == Success(true) ==>
      && GroupName(seen[p].config, groupBy, seen[p].modelName).Success?
      && Hashable(GroupName(seen[p].config, groupBy, seen[p].modelName).value)
      && exists i :: 0 <= i < |gs| && KeyEq(gs[i].0, GroupName(seen[p].config, groupBy, seen[p].modelName).value)
  }

  /** The groups built from the experiments `seen`: distinct hashable
      names, every accepted experiment covered, and each group's lists
      holding exactly its members in order. */
  predicate GroupsOf(args: Val, groupBy: seq<string>, seen: seq<Experiment>, gs: Groups) {
    && DistinctNames(gs) && NamesHashable(gs)
    && Covered(args, groupBy, seen, gs)
    && Contents(args, groupBy, seen, gs)
  }

  /** Each group's lists hold exactly its members among `seen`, in order. */
  predicate Contents(args: Val, groupBy: seq<string>, seen: seq<Experiment>, gs: Groups) {
    forall i :: 0 <= i < |gs| ==> gs[i].1 == GroupOf(Members(args, groupBy, seen, gs[i].0))
  }

  lemma KeyEqSymmetric(k1: seq<Val>, k2: seq<Val>)
    requires Hashable(k1) && KeyEq(k1, k2)
    ensures KeyEq(k2, k1)
  {
    forall i | 0 <= i < |k1| ensures Eq(k2[i], k1[i]) {
      AtomEqSymmetric(k1[i].a, k2[i].a);
    }
  }

  lemma KeyEqTransitive(k1: seq<Val>, k2: seq<Val>, k3: seq<Val>)
    requires Hashable(k1) && KeyEq(k1, k2) && KeyEq(k2, k3)
    ensures KeyEq(k1, k3)
  {
    forall i | 0 <= i < |k1| ensures Eq(k1[i], k3[i]) {
      AtomEqTransitive(k1[i].a, k2[i].a, k3[i].a);
    }
  }

  /** A name no group carries has no member among covered experiments. */
  lemma {:induction false} NoMembers(args: Val, groupBy: seq<string>, seen: seq<Experiment>, gs: Groups, key: seq<Val>)
    requires NamesHashable(gs) && Covered(args, groupBy, seen, gs)
    requires forall i :: 0 <= i < |gs| ==> !KeyEq(gs[i].0, key)
    ensures Members(args, groupBy, seen, key) == []
    decreases |seen|
  {
    if |seen| > 0 {
      var n := |seen| - 1;
      var front := seen[..n];
      assert Covered(args, groupBy, front, gs) by {
        forall p | 0 <= p < |front| ensures front[p] == seen[p] { }
      }
      NoMembers(args, groupBy, front, gs, key);
      var e := seen[n];
      if InGroup(args, groupBy, e, key) {
        var name := GroupName(e.config, groupBy, e.modelName).value;
        var i :| 0 <= i < |gs| && KeyEq(gs[i].0, name);
        KeyEqTransitive(gs[i].0, name, key);
        assert false;
      }
    }
  }

  /** Processing one more experiment keeps `GroupsOf`. */
  lemma ProcessKeepsGroupsOf(args: Val, groupBy: seq<string>, seen: seq<Experiment>, gs: Groups, e: Experiment)
    requires GroupsOf(args, groupBy, seen, gs)
    requires Process(args, groupBy, gs, e).Success?
    ensures GroupsOf(args, groupBy, seen + [e], Process(args, groupBy, gs, e).value)
  {
    var seen' := seen + [e];
    assert seen'[..|seen|] == seen;
    var gs' := Process(args, groupBy, gs, e).value;
    if Accepted(args, e) == Success(true) {
      var key := GroupName(e.config, groupBy, e.modelName).value;
      AddGroupsOf(args, groupBy, seen, gs, e, key);
    } else {
      forall i | 0 <= i < |gs| ensures gs[i].1 == GroupOf(Members(args, groupBy, seen', gs[i].0)) {
        assert !InGroup(args, groupBy, e, gs[i].0);
      }
      assert Covered(args, groupBy, seen', gs) by {
        forall p | 0 <= p < |seen'| && Accepted(args, seen'[p]) == Success(true)
          ensures p < |seen| && seen'[p] == seen[p]
        {
        }
      }
    }
  }

  /** Recording an accepted experiment under its name keeps `GroupsOf`. */
  lemma AddGroupsOf(args: Val, groupBy: seq<string>, seen: seq<Experiment>, gs: Groups, e: Experiment, key: seq<Val>)
    requires GroupsOf(args, groupBy, seen, gs)
    requires Accepted(args, e) == Success(true)
    requires GroupName(e.config, groupBy, e.modelName) == Success(key) && Hashable(key)
    ensures GroupsOf(args, groupBy, seen + [e], Add(gs, key, e))
  {
    AddKeepsGroups(gs, key, e);
    AddCovered(args, groupBy, seen, gs, e, key);
    match FindGroup(gs, key)
    case None => AddContentsNew(args, groupBy, seen, gs, e, key);
    case Some(j) => AddContentsExisting(args, groupBy, seen, gs, e, key, j);
  }

  lemma AddCovered(args: Val, groupBy: seq<string>, seen: seq<Experiment>, gs: Groups, e: Experiment, key: seq<Val>)
    requires Covered(args, groupBy, seen, gs) && NamesHashable(gs)
    requires GroupName(e.config, groupBy, e.modelName) == Success(key) && Hashable(key)
    ensures Covered(args, groupBy, seen + [e], Add(gs, key, e))
    ensures NamesHashable(Add(gs, key, e))
  {
    var seen', gs' := seen + [e], Add(gs, key, e);
    forall p | 0 <= p < |seen'| && Accepted(args, seen'[p]) == Success(true)
      ensures exists i :: 0 <= i < |gs'| && KeyEq(gs'[i].0, GroupName(seen'[p].config, groupBy, seen'[p].modelName).value)
    {
      if p < |seen| {
        assert seen'[p] == seen[p];
        var i :| 0 <= i < |gs| && KeyEq(gs[i].0, GroupName(seen[p].config, groupBy, seen[p].modelName).value);
        assert gs'[i].0 == gs[i].0;
      } else if FindGroup(gs, key).None? {
        EqKeyReflexive(key);
        assert KeyEq(gs'[|gs|].0, key);
      } else {
        var j := FindGroup(gs, key).value;
        assert gs'[j].0 == gs[j].0;
      }
    }
  }

  lemma AddContentsNew(args: Val, groupBy: seq<string>, seen: seq<Experiment>, gs: Groups, e: Experiment, key: seq<Val>)
    requires GroupsOf(args, groupBy, seen, gs)
    requires Accepted(args, e) == Success(true)
    requires GroupName(e.config, groupBy, e.modelName) == Success(key) && Hashable(key)
    requires FindGroup(gs, key).None?
    ensures Contents(args, groupBy, seen + [e], Add(gs, key, e))
  {
    var gs' := Add(gs, key, e);
    NoMembers(args, groupBy, seen, gs, key);
    EqKeyReflexive(key);
    MembersGain(args, groupBy, seen, e, key, key);
    GroupOfSingle(e);
    assert gs'[|gs|].1 == GroupOf(Members(args, groupBy, seen + [e], key));
    forall i | 0 <= i < |gs| ensures gs'[i].1 == GroupOf(Members(args, groupBy, seen + [e], gs'[i].0)) {
      MembersKept(args, groupBy, seen, e, key, gs[i].0);
    }
  }

  lemma AddContentsExisting(args: Val, groupBy: seq<string>, seen: seq<Experiment>, gs: Groups, e: Experiment, key: seq<Val>, j: nat)
    requires GroupsOf(args, groupBy, seen, gs)
    requires Accepted(args, e) == Success(true)
    requires GroupName(e.config, groupBy, e.modelName) == Success(key) && Hashable(key)
    requires FindGroup(gs, key) == Some(j)
    ensures Contents(args, groupBy, seen + [e], Add(gs, key, e))
  {
    var gs' := Add(gs, key, e);
    MembersGain(args, groupBy, seen, e, key, gs[j].0);
    GroupOfSnoc(Members(args, groupBy, seen, gs[j].0), e);
    forall i | 0 <= i < |gs| && i != j ensures gs'[i].1 == GroupOf(Members(args, groupBy, seen + [e], gs'[i].0)) {
      if KeyEq(gs[i].0, key) {
        if i < j {
          KeyEqSymmetric(gs[j].0, key);
          KeyEqTransitive(gs[i].0, key, gs[j].0);
        } else {
          KeyEqSymmetric(gs[i].0, key);
          KeyEqTransitive(gs[j].0, key, gs[i].0);
        }
      }
      MembersKept(args, groupBy, seen, e, key, gs[i].0);
    }
  }

  /** An experiment named `key` is not a member under a name unequal to `key`. */
  lemma MembersKept(args: Val, groupBy: seq<string>, seen: seq<Experiment>, e: Experiment, key: seq<Val>, name: seq<Val>)
    requires GroupName(e.config, groupBy, e.modelName) == Success(key) && Hashable(key)
    requires !KeyEq(name, key)
    ensures Members(args, groupBy, seen + [e], name) == Members(args, groupBy, seen, name)
  {
    MembersSnoc(args, groupBy, seen, e, name);
    if KeyEq(key, name) {
      KeyEqSymmetric(key, name);
    }
  }

  /** An accepted experiment named `key` is the newest member under a name equal to `key`. */
  lemma MembersGain(args: Val, groupBy: seq<string>, seen: seq<Experiment>, e: Experiment, key: seq<Val>, name: seq<Val>)
    requires Accepted(args, e) == Success(true)
    requires GroupName(e.config, groupBy, e.modelName) == Success(key) && Hashable(name)
    requires KeyEq(name, key)
    ensures Members(args, groupBy, seen + [e], name) == Members(args, groupBy, seen, name) + [e]
  {
    MembersSnoc(args, groupBy, seen, e, name);
    KeyEqSymmetric(name, key);
  }

  lemma MembersSnoc(args: Val, groupBy: seq<string>, seen: seq<Experiment>, e: Experiment, key: seq<Val>)
    ensures Members(args, groupBy, seen + [e], key)
              == Members(args, groupBy, seen, key) + (if InGroup(args, groupBy, e, key) then [e] else [])
  {
    assert (seen + [e])[..|seen|] == seen;
  }

  lemma GroupOfSingle(e: Experiment)
    ensures GroupOf([e]) == Group([e.rank], [e.bpc], [e.hidden], [e.modelName])
  {
    var g := GroupOf([e]);
    assert g.ranks == [e.rank] && g.bpcs == [e.bpc] && g.hiddens == [e.hidden] && g.names == [e.modelName];
  }

  /** A hashable name equals itself. */
  lemma EqKeyReflexive(key: seq<Val>)
    requires Hashable(key)
    ensures KeyEq(key, key)
  {
    forall i | 0 <= i < |key| ensures Eq(key[i], key[i]) {
      AtomEqReflexive(key[i].a);
    }
  }

  /** The rest of the loop keeps `GroupsOf`, over the experiments seen so far. */
  lemma {:induction false} GroupFromGroupsOf(args: Val, groupBy: seq<string>, seen: seq<Experiment>, gs: Groups, exps: seq<Experiment>)
    requires GroupsOf(args, groupBy, seen, gs)
    ensures GroupFrom(args, groupBy, gs, exps).Success? ==>
              GroupsOf(args, groupBy, seen + exps, GroupFrom(args, groupBy, gs, exps).value)
    decreases |exps|
  {
    if |exps| > 0 {
      var step := Process(args, groupBy, gs, exps[0]);
      if step.Success? {
        ProcessKeepsGroupsOf(args, groupBy, seen, gs, exps[0]);
        GroupFromGroupsOf(args, groupBy, seen + [exps[0]], step.value, exps[1..]);
        assert seen + [exps[0]] + exps[1..] == seen + exps;
      }
    } else {
      assert seen + exps == seen;
    }
  }

  /** What the grouping computes: group names are pairwise unequal, every
      accepted experiment lands in the group whose name equals its own, and
      each group's four lists are the rank, bpc, hidden size and model name
      of exactly those experiments, in directory order. */
  lemma GroupingMeaning(args: Val, groupBy: seq<string>, exps: seq<Experiment>)
    ensures GroupFrom(args, groupBy, [], exps).Success? ==>
              var r := GroupFrom(args, groupBy, [], exps).value;
              && DistinctNames(r)
              && (forall p :: 0 <= p < |exps| && Accepted(args, exps[p]) == Success(true) ==>
                    exists i :: 0 <= i < |r| && InGroup(args, groupBy, exps[p], r[i].0))
              && (forall i :: 0 <= i < |r| ==> r[i].1 == GroupOf(Members(args, groupBy, exps, r[i].0)))
  {
    assert [] + exps == exps;
    GroupFromGroupsOf(args, groupBy, [], [], exps);
    if GroupFrom(args, groupBy, [], exps).Success? {
      CoveredInGroup(args, groupBy, exps, GroupFrom(args, groupBy, [], exps).value);
    }
  }

  /** A covered experiment is a member of a group. */
  lemma CoveredInGroup(args: Val, groupBy: seq<string>, exps: seq<Experiment>, r: Groups)
    requires NamesHashable(r) && Covered(args, groupBy, exps, r)
    ensures forall p :: 0 <= p < |exps| && Accepted(args, exps[p]) == Success(true) ==>
              exists i :: 0 <= i < |r| && InGroup(args, groupBy, exps[p], r[i].0)
  {
    forall p | 0 <= p < |exps| && Accepted(args, exps[p]) == Success(true)
      ensures exists i :: 0 <= i < |r| && InGroup(args, groupBy, exps[p], r[i].0)
    {
      var name := GroupName(exps[p].config, groupBy, exps[p].modelName).value;
      var i :| 0 <= i < |r| && KeyEq(r[i].0, name);
      KeyEqSymmetric(r[i].0, name);
    }
  }

  /** The grouping loop of the plot script over the loaded experiments, in
      directory-listing order. */
  method GroupExperiments(args: Val, groupBy: seq<string>, exps: seq<Experiment>)
    returns (r: Result<Groups, SelectionError>)
    ensures r == GroupFrom(args, groupBy, [], exps)
    ensures r.Success? ==> AllBalanced(r.value) && DistinctNames(r.value)
    ensures r.Success? ==> Total(r.value) == AcceptedCount(args, exps)
    ensures r.Success? ==> forall p :: 0 <= p < |exps| && Accepted(args, exps[p]) == Success(true) ==>
              exists i :: 0 <= i < |r.value| && InGroup(args, groupBy, exps[p], r.value[i].0)
    ensures r.Success? ==> forall i :: 0 <= i < |r.value| ==> r.value[i].1 == GroupOf(Members(args, groupBy, exps, r.value[i].0))
  {
    GroupFromKeepsGroups(args, groupBy, [], exps);
    GroupingMeaning(args, groupBy, exps);
    var gs: Groups := [];
    var i := 0;
    while i < |exps|
      invariant 0 <= i <= |exps|
      invariant GroupFrom(args, groupBy, gs, exps[i..]) == GroupFrom(args, groupBy, [], exps)
    {
      var step := Process(args, groupBy, gs, exps[i]);
      assert exps[i..][1..] == exps[i + 1..];
      if step.Failure? {
        return Failure(step.error);
      }
      gs := step.value;
      i := i + 1;
    }
    r := Success(gs);
  }
}

=== FILE: tokenizer.dfy ===
/** The character tokenizer of `cprnn/features/tokenizer.py`: a vocabulary
    held three ways at once (the token list, the symbol-to-index map and the
    index-to-symbol map) that must agree, grown append-only by `AddToken`,
    and the encoding/decoding operations built on it.

    The symbol type `T` is generic: the same class holds characters or
    words. */
module Tokenizer {
  import opened Results

  /** The exceptions the Python class can raise: `KeyError` on an unknown
      symbol, `KeyError` on an unknown index, `ValueError` on an argument
      that is neither an integer nor an array, and the `ValueError` that
      `np.vectorize` without `otypes` raises on an array with no elements. */
  datatype TokenizerError<T> = UnknownSymbol(symbol: T) | UnknownIndex(index: int) | NotAnIndex | EmptyArray

  /** `tokens` is `_tokens`, `charToIx` is `char_to_ix_dct` and `ixToChar`
      is `ix_to_char_dct`. */
  datatype CharacterTokenizer<T> = CharacterTokenizer(tokens: seq<T>, charToIx: map<T, int>, ixToChar: map<int, T>)

  /** A numpy integer array of any shape: a 0-d array is an `Elem`, every
      further dimension an `Axis` over its sub-arrays. */
  datatype NdArray<E> = Elem(e: E) | Axis(items: seq<NdArray<E>>)

  /** The dynamic type of the argument of `ix_to_char`: `IntArg` is a
      Python `int` or `bool` or a `np.int32` or `np.int64` scalar; any other
      type, other numpy integer scalars included, is `OtherArg`. */
  datatype IndexArg = IntArg(i: int) | ArrayArg(indices: NdArray<int>) | OtherArg

  /** What `ix_to_char` returns: one symbol for an integer, an array of
      symbols for an array. */
  datatype Decoded<T> = Symbol(symbol: T) | Symbols(symbols: NdArray<T>)

  predicate Distinct<T(==,!new)>(s: seq<T>) {
    forall i, j :: 0 <= i < j < |s| ==> s[i] != s[j]
  }

  /** The class invariant: the token list has no repeats, the two maps are
      defined exactly on the registered symbols and on `[0, |tokens|)`, and
      position `i` of the list is the symbol with index `i` in both maps. */
  ghost predicate Valid<T(!new)>(t: CharacterTokenizer<T>) {
    && Distinct(t.tokens)
    && (forall c :: c in t.charToIx <==> c in t.tokens)
    && (forall i :: i in t.ixToChar <==> 0 <= i < |t.tokens|)
    && (forall i :: 0 <= i < |t.tokens| ==> t.charToIx[t.tokens[i]] == i && t.ixToChar[i] == t.tokens[i])
  }

  /** The `vocab_size` property: the size of `char_to_ix_dct`. */
  function VocabSize<T(==,!new)>(t: CharacterTokenizer<T>): nat {
    |t.charToIx|
  }

  lemma {:induction false} DistinctCardinality<T(!new)>(s: seq<T>)
    requires Distinct(s)
    ensures |set x | x in s| == |s|
  {
    if |s| > 0 {
      var rest := s[1..];
      DistinctCardinality(rest);
      assert (set x | x in s) == (set x | x in rest) + {s[0]};
      assert s[0] !in (set x | x in rest);
    }
  }

  /** The vocabulary size of a valid tokenizer is the length of its token list. */
  lemma VocabSizeIsTokenCount<T(!new)>(t: CharacterTokenizer<T>)
    requires Valid(t)
    ensures VocabSize(t) == |t.tokens|
    ensures |t.ixToChar| == |t.tokens|
  {
    DistinctCardinality(t.tokens);
    assert t.charToIx.Keys == set x | x in t.tokens;
    RangeMapCardinality(t.ixToChar, |t.tokens|);
  }

  /** A map defined exactly on `[0, n)` has `n` entries. */
  lemma {:induction false} RangeMapCardinality<V>(m: map<int, V>, n: nat)
    requires forall i :: i in m <==> 0 <= i < n
    ensures |m| == n
  {
    if n == 0 {
      assert forall k :: k !in m;
      assert m.Keys == {};
    } else {
      var m' := m - {n - 1};
      assert m'.Keys == m.Keys - {n - 1};
      RangeMapCardinality(m', n - 1);
      assert n - 1 in m.Keys;
    }
  }

  /** `order` lists every distinct element of `tokens` exactly once: one of
      the orders in which `list(set(tokens))` may come out. */
  ghost predicate Enumerates<T(!new)>(order: seq<T>, tokens: seq<T>) {
    Distinct(order) && forall x :: x in order <==> x in tokens
  }

  function TokensOf<T>(tokens: Option<seq<T>>): seq<T> {
    match tokens
    case None => []
    case Some(s) => s
  }

  /** The constructor. Python leaves the iteration order of `set(tokens)`
      unspecified, so the order is a parameter: any enumeration of the
      distinct tokens. The vocabulary size is then the number of distinct
      input tokens. */
  function Init<T(==,!new)>(tokens: Option<seq<T>>, order: seq<T>): (t: CharacterTokenizer<T>)
    requires Enumerates(order, TokensOf(tokens))
    ensures Valid(t)
    ensures t.tokens == order
    ensures VocabSize(t) == |set x | x in TokensOf(tokens)|
  {
    var t := FromOrder(order);
    VocabSizeIsTokenCount(t);
    DistinctCardinality(order);
    assert (set x | x in order) == (set x | x in TokensOf(tokens));
    t
  }

  /** The tokenizer whose indices are the positions in `order`. */
  function FromOrder<T(==,!new)>(order: seq<T>): (t: CharacterTokenizer<T>)
    requires Distinct(order)
    ensures Valid(t) && t.tokens == order
  {
    var t := CharacterTokenizer(order, map i | 0 <= i < |order| :: order[i] := i, map i | 0 <= i < |order| :: order[i]);
    assert forall c :: c in t.charToIx <==> c in order by {
      forall c ensures c in t.charToIx <==> c in order {
        if c in order {
          var i :| 0 <= i < |order| && order[i] == c;
          assert c in t.charToIx;
        }
      }
    }
    t
  }

  /** One enumeration of the distinct elements of `s`: first occurrences in order. */
  function FirstOccurrences<T(==,!new)>(s: seq<T>): (order: seq<T>)
    ensures Enumerates(order, s)
  {
    if |s| == 0 then []
    else
      var rest := FirstOccurrences(s[..|s| - 1]);
      var last := s[|s| - 1];
      assert forall x :: x in s <==> x in s[..|s| - 1] || x == last by {
        assert s == s[..|s| - 1] + [last];
      }
      if last in rest then rest else rest + [last]
  }

  /** `add_token`: returns the index of `token`, registering it first under
      the next free index when it is unseen. */
  function AddToken<T(==,!new)>(t: CharacterTokenizer<T>, token: T): (r: (CharacterTokenizer<T>, int))
    requires Valid(t)
    ensures Valid(r.0)
    ensures token in t.charToIx ==> r == (t, t.charToIx[token])
    ensures token !in t.charToIx ==>
              && r.1 == VocabSize(t)
              && VocabSize(r.0) == VocabSize(t) + 1
              && r.0.tokens == t.tokens + [token]
              && (forall c :: c in t.charToIx ==> c in r.0.charToIx && r.0.charToIx[c] == t.charToIx[c])
              && (forall i :: i in t.ixToChar ==> i in r.0.ixToChar && r.0.ixToChar[i] == t.ixToChar[i])
    ensures 0 <= r.1 < |r.0.tokens| && r.0.tokens[r.1] == token
  {
    VocabSizeIsTokenCount(t);
    if token in t.charToIx then (t, t.charToIx[token]) else (Register(t, token), |t.tokens|)
  }

  /** The unseen `token` appended to all three views under the next free index. */
  function Register<T(==,!new)>(t: CharacterTokenizer<T>, token: T): (t': CharacterTokenizer<T>)
    requires Valid(t) && token !in t.charToIx
    ensures Valid(t')
    ensures t'.tokens == t.tokens + [token]
    ensures t'.charToIx == t.charToIx[token := |t.tokens|]
    ensures t'.ixToChar == t.ixToChar[|t.tokens| := token]
    ensures VocabSize(t') == VocabSize(t) + 1 == |t.tokens| + 1
  {
    VocabSizeIsTokenCount(t);
    var t' := CharacterTokenizer(t.tokens + [token], t.charToIx[token := |t.charToIx|], t.ixToChar[|t.ixToChar| := token]);
    assert Valid(t');
    t'
  }

  /** `char_to_ix`: the index of a registered symbol, `KeyError` otherwise. */
  function CharToIx<T(==,!new)>(t: CharacterTokenizer<T>, c: T): (r: Result<int, TokenizerError<T>>)
    requires Valid(t)
    ensures r.Success? <==> c in t.tokens
    ensures r.Success? ==> 0 <= r.value < |t.tokens| && t.tokens[r.value] == c
    ensures r.Failure? ==> r.error == UnknownSymbol(c)
  {
    if c in t.charToIx then Success(t.charToIx[c]) else Failure(UnknownSymbol(c))
  }

  /** `ix_to_char_dct[i]`: the symbol at position `i` of the token list. */
  function IndexToSymbol<T(!new)>(t: CharacterTokenizer<T>, i: int): (r: Result<T, TokenizerError<T>>)
    ensures Valid(t) ==> (r.Success? <==> 0 <= i < |t.tokens|)
    ensures Valid(t) && r.Success? ==> r.value == t.tokens[i]
    ensures r.Failure? ==> r.error == UnknownIndex(i)
  {
    if i in t.ixToChar then Success(t.ixToChar[i]) else Failure(UnknownIndex(i))
  }

  /** Every element of the array is a registered index. */
  predicate AllRegistered<T>(t: CharacterTokenizer<T>, a: NdArray<int>) {
    match a
    case Elem(i) => i in t.ixToChar
    case Axis(items) => forall k :: 0 <= k < |items| ==> AllRegistered(t, items[k])
  }

  /** `b` has the shape of `a` and each element of `b` is the symbol of the
      index at the same position of `a`. */
  predicate DecodedPointwise<T(==,!new)>(t: CharacterTokenizer<T>, a: NdArray<int>, b: NdArray<T>) {
    match (a, b)
    case (Elem(i), Elem(c)) => i in t.ixToChar && t.ixToChar[i] == c
    case (Axis(xs), Axis(ys)) => |xs| == |ys| && forall k :: 0 <= k < |xs| ==> DecodedPointwise(t, xs[k], ys[k])
    case _ => false
  }

  predicate SameShape<A, B>(a: NdArray<A>, b: NdArray<B>) {
    match (a, b)
    case (Elem(_), Elem(_)) => true
    case (Axis(xs), Axis(ys)) => |xs| == |ys| && forall k :: 0 <= k < |xs| ==> SameShape(xs[k], ys[k])
    case _ => false
  }

  /** `a` has at least one element: its numpy `size` is not zero. */
  predicate HasElement<E>(a: NdArray<E>) {
    match a
    case Elem(_) => true
    case Axis(items) => exists k :: 0 <= k < |items| && HasElement(items[k])
  }

  /** `a` holds the element `i` somewhere. */
  predicate Holds<E(==)>(a: NdArray<E>, i: E) {
    match a
    case Elem(e) => e == i
    case Axis(items) => exists k :: 0 <= k < |items| && Holds(items[k], i)
  }

  lemma {:induction false} PointwiseKeepsShape<T(!new)>(t: CharacterTokenizer<T>, a: NdArray<int>, b: NdArray<T>)
    requires DecodedPointwise(t, a, b)
    ensures SameShape(a, b)
  {
    match (a, b)
    case (Elem(_), Elem(_)) =>
    case (Axis(xs), Axis(ys)) =>
      forall k | 0 <= k < |xs| ensures SameShape(xs[k], ys[k]) {
        PointwiseKeepsShape(t, xs[k], ys[k]);
      }
  }

  /** The lookup `f` of `ix_to_char` applied to every element of an array. */
  function DecodeArray<T(==,!new)>(t: CharacterTokenizer<T>, a: NdArray<int>): (r: Result<NdArray<T>, TokenizerError<T>>)
    ensures r.Success? <==> AllRegistered(t, a)
    ensures r.Success? ==> DecodedPointwise(t, a, r.value)
    ensures r.Failure? ==> r.error.UnknownIndex? && Holds(a, r.error.index) && r.error.index !in t.ixToChar
    decreases a, 1
  {
    match a
    case Elem(i) =>
      if i in t.ixToChar then Success(Elem(t.ixToChar[i])) else Failure(UnknownIndex(i))
    case Axis(items) =>
      var ys :- DecodeItems(t, a, 0);
      Success(Axis(ys))
  }

  function DecodeItems<T(==,!new)>(t: CharacterTokenizer<T>, a: NdArray<int>, from: nat): (r: Result<seq<NdArray<T>>, TokenizerError<T>>)
    requires a.Axis? && from <= |a.items|
    ensures r.Success? <==> forall k :: from <= k < |a.items| ==> AllRegistered(t, a.items[k])
    ensures r.Success? ==> (|r.value| == |a.items| - from
                        && forall k :: from <= k < |a.items| ==> DecodedPointwise(t, a.items[k], r.value[k - from]))
    ensures r.Failure? ==> r.error.UnknownIndex? && Holds(a, r.error.index) && r.error.index !in t.ixToChar
    decreases a, 0, |a.items| - from
  {
    if from == |a.items| then Success([])
    else
      var y :- DecodeArray(t, a.items[from]);
      var ys :- DecodeItems(t, a, from + 1);
      Success([y] + ys)
  }

  /** `np.vectorize(f)(a)` with no `otypes`: an array without elements is
      refused with `ValueError`, any other one is decoded element by element. */
  function Vectorize<T(==,!new)>(t: CharacterTokenizer<T>, a: NdArray<int>): (r: Result<NdArray<T>, TokenizerError<T>>)
    ensures r.Success? <==> HasElement(a) && AllRegistered(t, a)
    ensures !HasElement(a) ==> r == Failure(EmptyArray)
    ensures r.Success? ==> SameShape(a, r.value) && DecodedPointwise(t, a, r.value)
    ensures HasElement(a) && r.Failure? ==> r.error.UnknownIndex? && Holds(a, r.error.index) && r.error.index !in t.ixToChar
  {
    if !HasElement(a) then Failure(EmptyArray)
    else
      var b :- DecodeArray(t, a);
      PointwiseKeepsShape(t, a, b);
      Success(b)
  }

  /** `ix_to_char`: an integer is looked up, an array is decoded element by
      element, anything else raises `ValueError`. */
  function IxToChar<T(==,!new)>(t: CharacterTokenizer<T>, ix: IndexArg): (r: Result<Decoded<T>, TokenizerError<T>>)
    ensures ix.OtherArg? ==> r == Failure(NotAnIndex)
    ensures ix.IntArg? ==> (r.Success? <==> ix.i in t.ixToChar)
    ensures ix.IntArg? && r.Success? ==> r.value == Symbol(t.ixToChar[ix.i])
    ensures ix.IntArg? && r.Failure? ==> r.error == UnknownIndex(ix.i)
    ensures ix.ArrayArg? ==> (r.Success? <==> HasElement(ix.indices) && AllRegistered(t, ix.indices))
    ensures ix.ArrayArg? && !HasElement(ix.indices) ==> r == Failure(EmptyArray)
    ensures ix.ArrayArg? && r.Success? ==>
              r.value.Symbols? && SameShape(ix.indices, r.value.symbols) && DecodedPointwise(t, ix.indices, r.value.symbols)
    ensures ix.ArrayArg? && HasElement(ix.indices) && r.Failure? ==>
              r.error.UnknownIndex? && Holds(ix.indices, r.error.index) && r.error.index !in t.ixToChar
  {
    match ix
    case ArrayArg(a) =>
      var b :- Vectorize(t, a);
      Success(Symbols(b))
    case IntArg(i) =>
      var c :- IndexToSymbol(t, i);
      Success(Symbol(c))
    case OtherArg =>
      Failure(NotAnIndex)
  }

  /** `tokenize`: the indices of the symbols of `sentence`, in order; the
      first unregistered symbol fails the whole call. */
  function Tokenize<T(==,!new)>(t: CharacterTokenizer<T>, sentence: seq<T>): (r: Result<seq<int>, TokenizerError<T>>)
    requires Valid(t)
    ensures r.Success? <==> forall k :: 0 <= k < |sentence| ==> sentence[k] in t.charToIx
    ensures r.Success? ==> |r.value| == |sentence|
    ensures r.Success? ==> forall k :: 0 <= k < |sentence| ==> r.value[k] == t.charToIx[sentence[k]]
    ensures r.Failure? ==>
              exists k :: && 0 <= k < |sentence|
                          && sentence[k] !in t.charToIx
                          && r.error == UnknownSymbol(sentence[k])
                          && forall j :: 0 <= j < k ==> sentence[j] in t.charToIx
  {
    if |sentence| == 0 then Success([])
    else
      var i :- CharToIx(t, sentence[0]);
      var rest :- Tokenize(t, sentence[1..]);
      Success([i] + rest)
  }

  /** Decoding the index of a registered symbol gives the symbol back. */
  lemma SymbolRoundTrip<T(!new)>(t: CharacterTokenizer<T>, c: T)
    requires Valid(t)
    requires c in t.charToIx
    ensures CharToIx(t, c).Success?
    ensures IxToChar(t, IntArg(CharToIx(t, c).value)) == Success(Symbol(c))
  {
  }

  /** Encoding the symbol of an index below the vocabulary size gives the
      index back; the symbol is the token list's entry at that position. */
  lemma IndexRoundTrip<T(!new)>(t: CharacterTokenizer<T>, i: int)
    requires Valid(t)
    requires 0 <= i < VocabSize(t)
    ensures VocabSize(t) == |t.tokens|
    ensures IxToChar(t, IntArg(i)) == Success(Symbol(t.tokens[i]))
    ensures CharToIx(t, t.tokens[i]) == Success(i)
  {
    VocabSizeIsTokenCount(t);
  }

  /** An index at or above the vocabulary size, or below zero, is unknown. */
  lemma IndexOutOfRange<T(!new)>(t: CharacterTokenizer<T>, i: int)
    requires Valid(t)
    requires i < 0 || i >= VocabSize(t)
    ensures IxToChar(t, IntArg(i)) == Failure(UnknownIndex(i))
  {
    VocabSizeIsTokenCount(t);
  }

  /** Registering a token twice is the same as registering it once. */
  lemma AddTokenIdempotent<T(!new)>(t: CharacterTokenizer<T>, token: T)
    requires Valid(t)
    ensures AddToken(AddToken(t, token).0, token) == AddToken(t, token)
  {
  }

  /** Registering two tokens in turn keeps every index of the first. */
  lemma AddTokenStable<T(!new)>(t: CharacterTokenizer<T>, x: T, y: T)
    requires Valid(t)
    ensures var (t1, i) := AddToken(t, x);
            var (t2, _) := AddToken(t1, y);
            CharToIx(t2, x) == Success(i) && IxToChar(t2, IntArg(i)) == Success(Symbol(x))
  {
  }
}

=== FILE: training.dfy ===
/** The run control of `train.py`: which model class a config names, the
    fresh / resume / skip decision `main` takes from an experiment's
    directory, and the epoch loop of `train` with its rule for writing the
    `model_best.pth` and `model_latest.pth` checkpoints.

    Training and evaluation themselves are not modelled: the metrics of
    each epoch come from an oracle, and the directory is a map from
    checkpoint slot to saved record. */
module Training {
  import opened Results

  /** The dict `evaluate` returns. */
  datatype Metrics = Metrics(loss: real, ppl: real, bpc: real)

  /** The fields of a checkpoint that the run control reads or the plot
      script uses; the model and optimizer states are left out. */
  datatype Record = Record(epoch: int, trainMetrics: Metrics, validMetrics: Metrics, testMetrics: Metrics)

  datatype Slot = Best | Latest

  /** The checkpoint files present in an experiment directory. */
  type Store = map<Slot, Record>

  /** The validation and test metrics after each epoch, and whether the
      epoch's `sample(model, size=100, prime='The')` returns. `Sampling`
      states when it raises for a character vocabulary: whenever one of
      `T`, `h`, `e` is not a token, as in a word vocabulary. */
  datatype Oracle = Oracle(valid: int -> Metrics, test: int -> Metrics, sampled: int -> bool)

  datatype TrainError =
    | UnknownModel(name: string)
    | MissingBest
    | UnboundValidMetrics
      /** The `sample` call after epoch `epoch` raised. */
    | SampleRaised(epoch: int)

  /** The model classes of `_models`, by lower-cased name. */
  datatype ModelKind = CpRnn | SecondOrderRnn | LstmPt | MRnn | MiRnn

  /** ASCII lower-casing, as `str.lower()` on the names in use. */
  function Lower(s: string): (r: string)
    ensures |r| == |s|
    ensures forall k :: 0 <= k < |s| ==> r[k] == if 'A' <= s[k] <= 'Z' then (s[k] as int + 32) as char else s[k]
  {
    if |s| == 0 then []
    else [if 'A' <= s[0] <= 'Z' then (s[0] as int + 32) as char else s[0]] + Lower(s[1..])
  }

  /** `_models[name.lower()]`. */
  function ModelFor(name: string): (r: Result<ModelKind, TrainError>)
    ensures r.Success? <==> Lower(name) in ["cprnn", "2rnn", "lstmpt", "mrnn", "mirnn"]
    ensures r.Failure? ==> r.error == UnknownModel(name)
  {
    var key := Lower(name);
    if key == "cprnn" then Success(CpRnn)
    else if key == "2rnn" then Success(SecondOrderRnn)
    else if key == "lstmpt" then Success(LstmPt)
    else if key == "mrnn" then Success(MRnn)
    else if key == "mirnn" then Success(MiRnn)
    else Failure(UnknownModel(name))
  }

  /** The CP-LSTM cell is not among the registered classes, so a config
      naming it fails in `main` before training starts. */
  lemma CpLstmIsNotRegistered(name: string)
    requires Lower(name) == "cplstm"
    ensures ModelFor(name) == Failure(UnknownModel(name))
  {
  }

  /** What `main` does with one trial's directory. */
  datatype Start = Fresh | Skip(latestEpoch: int) | Resume(fromEpoch: int, bestLoss: real)

  /** The decision of `main`. `dir` is `None` when the output directory does
      not exist. Both checkpoints are loaded before the epoch comparison, so
      a missing `model_best.pth` raises even when the run would be skipped. */
  function Decide(dir: Option<Store>, epochs: int): (r: Result<Start, TrainError>)
    ensures r == Success(Fresh) <==> dir.None? || Latest !in dir.value
    ensures r.Failure? <==> dir.Some? && Latest in dir.value && Best !in dir.value
    ensures r.Failure? ==> r.error == MissingBest
    ensures r.Success? && r.value.Skip? ==>
              dir.Some? && Latest in dir.value && r.value.latestEpoch == dir.value[Latest].epoch >= epochs
    ensures r.Success? && r.value.Resume? ==>
              && dir.Some? && Latest in dir.value && Best in dir.value
              && r.value.fromEpoch == dir.value[Latest].epoch + 1 <= epochs
              && r.value.bestLoss == dir.value[Best].validMetrics.loss
  {
    match dir
    case None => Success(Fresh)
    case Some(store) =>
      if Latest !in store then Success(Fresh)
      else if Best !in store then Failure(MissingBest)
      else if store[Latest].epoch >= epochs then Success(Skip(store[Latest].epoch))
      else Success(Resume(store[Latest].epoch + 1, store[Best].validMetrics.loss))
  }

  /** The record saved after epoch `i`. Its `train_metrics` field holds the
      validation metrics, as in all three saves of `train`. */
  function Saved(oracle: Oracle, i: int): (rec: Record)
    ensures rec.trainMetrics == rec.validMetrics
  {
    Record(i, oracle.valid(i), oracle.valid(i), oracle.test(i))
  }

  /** The checkpoint store and `best_valid_loss` between epochs. */
  datatype TrainState = TrainState(store: Store, best: Option<real>)

  /** Epoch `i` improves on the running best validation loss (any loss does
      when there is none yet). */
  predicate Improves(oracle: Oracle, st: TrainState, i: int) {
    st.best.None? || oracle.valid(i).loss < st.best.value
  }

  /** Epoch `i`: an improvement on the best validation loss writes both
      slots with epoch `i` and becomes the running best; otherwise only
      every fifth epoch and the last one write the latest slot, and any
      other epoch leaves the directory as it was. */
  function Checkpoint(oracle: Oracle, epochs: int, st: TrainState, i: int): (st': TrainState)
    ensures Improves(oracle, st, i) ==>
              && Best in st'.store && st'.store[Best] == Saved(oracle, i)
              && st'.best == Some(oracle.valid(i).loss)
    ensures !Improves(oracle, st, i) ==>
              && (Best in st'.store <==> Best in st.store)
              && (Best in st.store ==> st'.store[Best] == st.store[Best])
              && st'.best == st.best
    ensures Improves(oracle, st, i) || i % 5 == 0 || i == epochs ==>
              Latest in st'.store && st'.store[Latest] == Saved(oracle, i)
    ensures !(Improves(oracle, st, i) || i % 5 == 0 || i == epochs) ==> st' == st
    ensures st'.store.Keys <= st.store.Keys + {Best, Latest}
  {
    var rec := Saved(oracle, i);
    if st.best.None? || rec.validMetrics.loss < st.best.value then
      TrainState(st.store[Best := rec][Latest := rec], Some(rec.validMetrics.loss))
    else if i % 5 == 0 || i == epochs then
      TrainState(st.store[Latest := rec], st.best)
    else st
  }

  /** The state of a run from epoch `start`, begun in state `st`, once the
      epochs before `end` have been run. */
  function Through(oracle: Oracle, epochs: int, st: TrainState, start: int, end: int): TrainState
    decreases end - start
  {
    if end <= start then st else Checkpoint(oracle, epochs, Through(oracle, epochs, st, start, end - 1), end - 1)
  }

  /** What holds between two epochs: the running best loss is the loss of
      the best checkpoint, and a latest checkpoint never exists without a
      best one and a running best loss. */
  ghost predicate Coherent(st: TrainState) {
    && (st.best.Some? ==> Best in st.store && st.best.value == st.store[Best].validMetrics.loss)
    && (Latest in st.store ==> Best in st.store && st.best.Some?)
  }

  /** The state `main` hands to `train` is coherent, and a resumed run
      starts after the epoch of the latest checkpoint. */
  lemma StartIsCoherent(dir: Option<Store>, epochs: int)
    requires Decide(dir, epochs).Success?
    ensures Decide(dir, epochs).value.Fresh? ==>
              Coherent(TrainState(if dir.Some? then dir.value else map[], None))
    ensures Decide(dir, epochs).value.Resume? ==>
              && Coherent(TrainState(dir.value, Some(Decide(dir, epochs).value.bestLoss)))
              && dir.value[Latest].epoch < Decide(dir, epochs).value.fromEpoch
  {
  }

  /** Every epoch keeps a state coherent. */
  lemma CheckpointKeepsCoherent(oracle: Oracle, epochs: int, st: TrainState, i: int)
    requires Coherent(st)
    ensures Coherent(Checkpoint(oracle, epochs, st, i))
  {
  }

  /** A run stopped before any epoch `end` leaves a coherent directory
      whose latest checkpoint is older than `end`. So `main` never finds
      `MissingBest` there: if a latest checkpoint exists, it resumes with
      the running best loss at or before epoch `end`, or it skips once
      epoch `epochs` is saved. */
  lemma {:induction false} InterruptedRunResumes(oracle: Oracle, epochs: int, st: TrainState, start: int, end: int)
    requires Coherent(st)
    requires Latest in st.store ==> st.store[Latest].epoch < start
    requires start <= end
    ensures var st' := Through(oracle, epochs, st, start, end);
            && Coherent(st')
            && (Latest in st'.store ==> st'.store[Latest].epoch < end)
            && (Latest in st'.store ==> Decide(Some(st'.store), epochs).Success?)
            && (Latest in st'.store && end <= epochs ==>
                  && Decide(Some(st'.store), epochs).value.Resume?
                  && Decide(Some(st'.store), epochs).value.fromEpoch <= end
                  && Some(Decide(Some(st'.store), epochs).value.bestLoss) == st'.best)
    decreases end - start
  {
    if end > start {
      InterruptedRunResumes(oracle, epochs, st, start, end - 1);
      CheckpointKeepsCoherent(oracle, epochs, Through(oracle, epochs, st, start, end - 1), end - 1);
    }
  }

  /** Epoch `j`'s validation loss beats `best0`; with no `best0`, any loss does. */
  predicate Beats(oracle: Oracle, best0: Option<real>, j: int) {
    best0.None? || oracle.valid(j).loss < best0.value
  }

  /** Some epoch in `[start, end)` beats `best0`. */
  ghost predicate Beaten(oracle: Oracle, best0: Option<real>, start: int, end: int) {
    exists j :: start <= j < end && Beats(oracle, best0, j)
  }

  /** The best slot holds the first epoch of `[start, end)` with the lowest
      validation loss, and that loss is below `best0`. */
  ghost predicate BestIsFirstMinimum(oracle: Oracle, best0: Option<real>, store: Store, start: int, end: int) {
    && Best in store
    && var e := store[Best].epoch;
       && start <= e < end
       && store[Best] == Saved(oracle, e)
       && (forall j :: start <= j < end ==> oracle.valid(e).loss <= oracle.valid(j).loss)
       && (forall j :: start <= j < e ==> oracle.valid(j).loss > oracle.valid(e).loss)
       && (best0.Some? ==> oracle.valid(e).loss < best0.value)
  }

  /** The first epoch of `[i, epochs]` whose `sample` raises; `epochs + 1`
      when none does, and `i` when the range is empty. */
  function FirstRaise(oracle: Oracle, i: int, epochs: int): (f: int)
    ensures i <= f && (i <= epochs ==> f <= epochs + 1)
    ensures forall j :: i <= j < f ==> oracle.sampled(j)
    ensures f <= epochs ==> !oracle.sampled(f)
    decreases epochs - i
  {
    if i > epochs || !oracle.sampled(i) then i else FirstRaise(oracle, i + 1, epochs)
  }

  /** The first raise is the only epoch that is not sampled with every
      earlier epoch of the range sampled. */
  lemma {:induction false} FirstRaiseAt(oracle: Oracle, i: int, f: int, epochs: int)
    requires i <= f <= epochs + 1
    requires forall j :: i <= j < f ==> oracle.sampled(j)
    requires f <= epochs ==> !oracle.sampled(f)
    ensures FirstRaise(oracle, i, epochs) == f
    decreases f - i
  {
    if i < f {
      FirstRaiseAt(oracle, i + 1, f, epochs);
    }
  }

  /** One past the last epoch a run from `start` trains: the run stops right
      after the first epoch whose `sample` raises. */
  function RunEnd(oracle: Oracle, start: int, epochs: int): (end: int)
    ensures start <= epochs ==> start < end <= epochs + 1
  {
    var f := FirstRaise(oracle, start, epochs);
    if f <= epochs then f + 1 else epochs + 1
  }

  /** `train(..., curr_epoch=start, best_valid_loss=best0)`: epochs `start`
      to `epochs` inclusive, in order, each followed by its checkpoint
      writes and then by `sample`. It returns the last epoch's validation
      metrics. With no epoch to run it raises, since `valid_metrics` is then
      unbound; a `sample` that raises stops the run after that epoch's
      checkpoints. */
  method Train(oracle: Oracle, epochs: int, store0: Store, start: int, best0: Option<real>)
    returns (r: Result<Metrics, TrainError>, store: Store)
    ensures r.Success? <==> start <= epochs && forall j :: start <= j <= epochs ==> oracle.sampled(j)
    ensures start > epochs ==> r == Failure(UnboundValidMetrics) && store == store0
    ensures start <= epochs && r.Failure? ==>
              && r.error.SampleRaised? && start <= r.error.epoch <= epochs
              && !oracle.sampled(r.error.epoch)
              && (forall j :: start <= j < r.error.epoch ==> oracle.sampled(j))
              && r.error.epoch + 1 == RunEnd(oracle, start, epochs)
    ensures start <= epochs ==>
              store == Through(oracle, epochs, TrainState(store0, best0), start, RunEnd(oracle, start, epochs)).store
    ensures r.Success? ==> r.value == oracle.valid(epochs)
    ensures r.Success? ==> Latest in store && store[Latest] == Saved(oracle, epochs)
    ensures start <= epochs && Beaten(oracle, best0, start, RunEnd(oracle, start, epochs)) ==>
              BestIsFirstMinimum(oracle, best0, store, start, RunEnd(oracle, start, epochs))
    ensures !Beaten(oracle, best0, start, RunEnd(oracle, start, epochs)) ==>
              (Best in store <==> Best in store0) && (Best in store0 ==> store[Best] == store0[Best])
    ensures start <= epochs && (best0.None? || Best in store0) ==> Best in store
  {
    if start > epochs {
      return Failure(UnboundValidMetrics), store0;
    }
    var st := TrainState(store0, best0);
    var i := start;
    while i <= epochs
      invariant start <= i <= epochs + 1
      invariant forall j :: start <= j < i ==> oracle.sampled(j)
      invariant i > epochs ==> Latest in st.store && st.store[Latest] == Saved(oracle, epochs)
      invariant st == Through(oracle, epochs, TrainState(store0, best0), start, i)
    {
      st := Checkpoint(oracle, epochs, st, i);
      if !oracle.sampled(i) {
        FirstRaiseAt(oracle, start, i, epochs);
        RunSettles(oracle, epochs, best0, store0, start, i + 1);
        return Failure(SampleRaised(i)), st.store;
      }
      i := i + 1;
    }
    FirstRaiseAt(oracle, start, epochs + 1, epochs);
    RunSettles(oracle, epochs, best0, store0, start, epochs + 1);
    return Success(oracle.valid(epochs)), st.store;
  }

  /** The best slot after epochs `[start, end)` of a run that began with
      `store0` and running best `best0`: the running best loss bounds every
      loss seen; once some epoch beat `best0`, the best slot holds the first
      minimum and the running best is its loss; until then the best slot
      and the running best are untouched. */
  ghost predicate KeepsBest(oracle: Oracle, best0: Option<real>, store0: Store, st: TrainState, start: int, end: int) {
    && (st.best.Some? ==> forall j :: start <= j < end ==> st.best.value <= oracle.valid(j).loss)
    && (Beaten(oracle, best0, start, end) ==>
          && BestIsFirstMinimum(oracle, best0, st.store, start, end)
          && st.best == Some(st.store[Best].validMetrics.loss))
    && (!Beaten(oracle, best0, start, end) ==>
          && st.best == best0
          && (Best in st.store <==> Best in store0)
          && (Best in store0 ==> st.store[Best] == store0[Best]))
  }

  /** The epochs before `end` of a run keep the best slot as `KeepsBest` says. */
  lemma {:induction false} RunKeepsBest(oracle: Oracle, epochs: int, best0: Option<real>, store0: Store, start: int, end: int)
    requires start <= end <= epochs + 1
    ensures KeepsBest(oracle, best0, store0, Through(oracle, epochs, TrainState(store0, best0), start, end), start, end)
    decreases end - start
  {
    if end == start {
      assert !Beaten(oracle, best0, start, start);
    } else {
      RunKeepsBest(oracle, epochs, best0, store0, start, end - 1);
      CheckpointStep(oracle, epochs, best0, store0, Through(oracle, epochs, TrainState(store0, best0), start, end - 1), start, end);
    }
  }

  /** One epoch keeps the loop invariant of `Train`. */
  lemma CheckpointStep(oracle: Oracle, epochs: int, best0: Option<real>, store0: Store, st: TrainState, start: int, next: int)
    requires start < next <= epochs + 1
    requires KeepsBest(oracle, best0, store0, st, start, next - 1)
    ensures KeepsBest(oracle, best0, store0, Checkpoint(oracle, epochs, st, next - 1), start, next)
  {
    var i := next - 1;
    var st' := Checkpoint(oracle, epochs, st, i);
    var v := oracle.valid(i).loss;
    var improved := st.best.None? || v < st.best.value;
    if Beaten(oracle, best0, start, i) {
      assert Beaten(oracle, best0, start, next);
      if improved {
        assert BestIsFirstMinimum(oracle, best0, st'.store, start, next);
      } else {
        assert st'.store[Best] == st.store[Best];
      }
    } else if Beats(oracle, best0, i) {
      assert Beaten(oracle, best0, start, next);
      assert improved;
      forall j | start <= j < i ensures oracle.valid(j).loss > v {
        assert !Beats(oracle, best0, j);
      }
      assert BestIsFirstMinimum(oracle, best0, st'.store, start, next);
    } else {
      forall j | start <= j < next ensures !Beats(oracle, best0, j) {
        if j < i {
          assert !Beaten(oracle, best0, start, i);
        }
      }
      assert !improved;
    }
  }

  /** What a run that trained the epochs `[start, end)` leaves in the best slot. */
  lemma RunSettles(oracle: Oracle, epochs: int, best0: Option<real>, store0: Store, start: int, end: int)
    requires start < end <= epochs + 1
    ensures var store := Through(oracle, epochs, TrainState(store0, best0), start, end).store;
            && (Beaten(oracle, best0, start, end) ==> BestIsFirstMinimum(oracle, best0, store, start, end))
            && (!Beaten(oracle, best0, start, end) ==>
                  (Best in store <==> Best in store0) && (Best in store0 ==> store[Best] == store0[Best]))
            && ((best0.None? || Best in store0) ==> Best in store)
  {
    RunKeepsBest(oracle, epochs, best0, store0, start, end);
    BestSurvives(oracle, best0, store0, Through(oracle, epochs, TrainState(store0, best0), start, end).store, start, end);
  }

  /** A best checkpoint present before the run, or written by it, is present after it. */
  lemma BestSurvives(oracle: Oracle, best0: Option<real>, store0: Store, store: Store, start: int, end: int)
    requires start < end
    requires Beaten(oracle, best0, start, end) ==> BestIsFirstMinimum(oracle, best0, store, start, end)
    requires !Beaten(oracle, best0, start, end) ==> (Best in store <==> Best in store0)
    ensures (best0.None? || Best in store0) ==> Best in store
  {
    if best0.None? {
      assert Beats(oracle, best0, start);
      assert Beaten(oracle, best0, start, end);
    }
  }

  /** What one trial of `main` ended with. */
  datatype TrialOutcome = Skipped | Completed(valid: Metrics)

  /** One trial of `main`: decide; unless the trial is skipped, look up the
      model class `name` names; then train from the decided epoch with the
      decided best loss. A fresh start keeps whatever the directory holds,
      with no running best. */
  method RunTrial(oracle: Oracle, epochs: int, dir: Option<Store>, name: string)
    returns (r: Result<TrialOutcome, TrainError>, store: Store)
    ensures Decide(dir, epochs).Failure? ==> r == Failure(MissingBest)
    ensures r == Success(Skipped) <==> Decide(dir, epochs).Success? && Decide(dir, epochs).value.Skip?
    ensures r == Success(Skipped) ==> store == dir.value
    ensures Decide(dir, epochs).Success? && !Decide(dir, epochs).value.Skip? && ModelFor(name).Failure? ==>
              r == Failure(UnknownModel(name)) && store == (if dir.Some? then dir.value else map[])
    ensures Decide(dir, epochs) == Success(Fresh) && ModelFor(name).Success? && epochs < 1 ==>
              r == Failure(UnboundValidMetrics)
    ensures r.Success? && r.value.Completed? ==>
              ModelFor(name).Success? && Decide(Some(store), epochs) == Success(Skip(epochs))
    ensures r.Failure? && r.error.SampleRaised? ==>
              && Decide(Some(store), epochs).Success?
              && (Decide(Some(store), epochs).value.Resume? ==>
                    Decide(Some(store), epochs).value.fromEpoch <= r.error.epoch + 1)
  {
    store := if dir.Some? then dir.value else map[];
    var start :- Decide(dir, epochs);
    if start.Skip? {
      return Success(Skipped), dir.value;
    }
    var _ :- ModelFor(name);
    StartIsCoherent(dir, epochs);
    var from, best := if start.Fresh? then 1 else start.fromEpoch, if start.Fresh? then None else Some(start.bestLoss);
    var t, store0 := Train(oracle, epochs, store, from, best);
    if from <= epochs {
      InterruptedRunResumes(oracle, epochs, TrainState(store, best), from, RunEnd(oracle, from, epochs));
    }
    store := store0;
    if t.Failure? {
      return Failure(t.error), store;
    }
    return Success(Completed(t.value)), store;
  }
}
